=== FILE: README.md ===
# Learning Resources content site, modelled in Dafny

This project models the data logic of a static "Learning Resources" site. The site is a Next.js
application that serves a file-system knowledge base of categories and topics.

**The catalog builder.** The centre of the model is the catalog builder of `lib/content.ts`. It:

- walks a `categories/<category>/<topic>/content.mdx` tree;
- parses each topic's frontmatter;
- produces ordered `Topic` and `Category` lists.

Every filesystem or parse failure becomes an empty or absent result. The tree is an immutable
datatype (`Catalog.Node`, `Catalog.Listing`). Each entry is either a directory or a file, and a
file is readable or unreadable. A listing either succeeds or fails. The frontmatter parser is a
function parameter, `string -> Option<Matter>`.

**The consumers.** Around the catalog sit the pages and components that consume it. Each is
modelled as pure functions over sequences, strings, sets and small state records:

- the search box: filter and key-driven focus state;
- the related-topics and recently-viewed lists;
- table-of-contents heading extraction and slugs;
- the reading-time estimate;
- breadcrumbs and the sidebar;
- JSON-LD structured data and the sitemap;
- the MDX element rewrites;
- the audio and video players' controls;
- the font-size classes and the category filter;
- the home and not-found pages;
- the theme and version logic of the root layout.

**Modules.** The files follow the source layout, one module per source file:

| module | models |
|---|---|
| `ContentTypes` | `types/content.ts` |
| `Catalog` | `lib/content.ts` |
| `ViewTracker`, `RecentlyViewed`, `RelatedTopics`, `Search`, `TableOfContents`, `Breadcrumbs`, `Sidebar`, `StructuredData`, `MdxComponents`, `FontSize`, `CategoryFilter` | the components of the same name |
| `MediaPlayer` | both media players; `PlayerKind` tells them apart |
| `ReadingTime` | `lib/utils.ts` |
| `Sitemap` | `app/sitemap.ts` |
| `HomePage` | `app/page.tsx` |
| `NotFound` | `app/not-found.tsx` |
| `Layout` | `app/layout.tsx` |

Shared helpers live in `Wrappers` (`Option`), `Seqs` (filter, take, slice, subsequence) and
`Strings` (JavaScript string operations restricted to ASCII case mapping).

**Outside inputs.** Browser state and clocks become parameters:

- `localStorage` values are `Option` inputs, with `None` for missing or unparsable data;
- `Date.now()` and `new Date()` are given timestamps or strings;
- `process.env.NEXT_PUBLIC_BASE_URL` is an `Option<string>`;
- the generated `version.json` is an `Option<VersionInfo>`.

**Behaviours worth knowing:**

- **A failed read or parse keeps the topic.** `hasContent` is set as soon as `fs.access`
  succeeds (lib/content.ts:37-38), before the file is read and parsed, so a topic whose
  content file cannot be read or parsed is still listed, with `metadata` undefined
  (`Catalog.FailureKeepsTopic`).
- **The two functions default metadata differently.** `getTopics` keeps truthy frontmatter
  `category`/`topic` values. `getTopicContent` always overwrites them with the requested names.
  `Catalog.DefaultingPrecedence` states exactly when the two agree.
- **Required fields are not checked.** `types/content.ts` declares `title` and `type` as
  required, but the frontmatter is cast without validation. The model therefore keeps them as
  `Option` values.

## Model

| member | source | states |
|---|---|---|
| ContentTypes.DisplayTitle | components/Sidebar.tsx:104 | the label of a topic is its metadata title when that is a non-empty string, otherwise the topic's directory name |
| Catalog.GetCategories | lib/content.ts:8-17 | a failed listing of the categories root gives no categories; otherwise a name is listed iff some directory entry (not a file) of the root has that name |
| Catalog.GetCategoriesOrder | lib/content.ts:12-14 | category names follow listing order: the names of a concatenated listing are the concatenated names, and a single entry contributes its name iff it is a directory |
| Catalog.Lookup | lib/content.ts:22-23 | resolving a path segment finds an entry of that name, and fails iff no entry of the listing has that name |
| Catalog.ReadFile | lib/content.ts:41 | reading succeeds iff the entry is a readable regular file |
| Catalog.DefaultedMetadata | lib/content.ts:44-49 | metadata is absent iff the frontmatter has no keys; a truthy frontmatter category/topic is kept, a missing or empty one becomes the directory name; the other declared fields are carried over unchanged |
| Catalog.TopicOf | lib/content.ts:27-61 | an entry yields a topic iff it is a directory in which `content.mdx` is accessible; the topic's name is the directory name, its category is the argument, and its path is `/content/categories/<category>/<name>/content.mdx` |
| Catalog.FailureKeepsTopic | lib/content.ts:36-61 | when `content.mdx` is accessible but unreadable or unparsable, the topic is still produced, with no metadata |
| Catalog.ParsedTopicMetadata | lib/content.ts:41-49 | when the file parses, the topic's metadata is the defaulted frontmatter |
| Catalog.TopicsOf | lib/content.ts:27-63 | at most one topic per entry; every topic carries the category and the content path built from its name |
| Catalog.TopicsOfOrder | lib/content.ts:27-63 | topics follow listing order: the topics of a concatenated listing are the concatenated topics, entry by entry |
| Catalog.TopicsOfSource | lib/content.ts:27-63 | every topic produced comes from some entry of the listing |
| Catalog.GetTopics | lib/content.ts:20-69 | a missing, non-directory or unlistable category gives no topics; every topic names the category and its content path |
| Catalog.AllTopicsMembers | lib/content.ts:71-81 | a topic is in `getAllTopics` iff it is among the topics of some listed category |
| Catalog.AllTopicsCategories | lib/content.ts:71-81 | every topic of `getAllTopics` names a listed category |
| Catalog.GetCategoryWithTopics | lib/content.ts:83-93 | the result is absent iff the category has no topics; otherwise it is the category name with exactly its topics |
| Catalog.PresentCategories | lib/content.ts:99-104 | only named categories with a non-empty topic list, each holding exactly its topics, are kept |
| Catalog.GetAllCategoriesWithTopics | lib/content.ts:95-107 | every returned category is listed, has at least one topic, and holds exactly that category's topics |
| Catalog.PresentCategoriesComplete | lib/content.ts:99-104 | every named category that has topics appears in the result |
| Catalog.NonEmptyCategoryIncluded | lib/content.ts:95-107 | every listed category with a topic is in the catalog |
| Catalog.EmptyCategoryExcluded | lib/content.ts:83-107 | a category without topics is never in the catalog |
| Catalog.CatalogTopicsAreAllTopics | lib/content.ts:71-107 | the topics of `getAllCategoriesWithTopics`, category by category, are exactly `getAllTopics`, in the same order |
| Catalog.OverwrittenMetadata | lib/content.ts:126-128 | `getTopicContent` metadata is absent iff the frontmatter has no keys; otherwise category and topic are the requested names and the other declared fields are the frontmatter's |
| Catalog.GetTopicContent | lib/content.ts:109-135 | a missing content file gives empty content and no metadata; a readable, parsable file gives its body without frontmatter and the frontmatter with the requested category and topic written over it (none when it has no keys); any metadata returned names the requested category and topic |
| Catalog.TopicContentFailure | lib/content.ts:132-134 | any missing file, read failure or parse failure gives `{ content: "", metadata: null }` |
| Catalog.DefaultingPrecedence | lib/content.ts:44-49 | both metadata rules are absent on the same inputs, and they agree iff each truthy frontmatter category/topic already equals the directory name |
| Catalog.TopicContentMatchesCatalog | lib/content.ts:109-135 | for a topic of the catalog, `getTopicContent` has metadata iff the catalog topic has, with the same title, description, tags and type |
| ViewTracker.OtherViews | components/ViewTracker.tsx:37-39 | the surviving entries are stored entries about other topics, in stored order, and every stored entry about another topic survives |
| ViewTracker.OtherViewsAppend | components/ViewTracker.tsx:37-39 | the removal works entry by entry: on a concatenated list it is the concatenation of the two removals |
| ViewTracker.OtherViewsOne | components/ViewTracker.tsx:37-39 | a single entry survives iff it is about another topic, so with the concatenation rule duplicates are kept as often as stored |
| ViewTracker.RecordView | components/ViewTracker.tsx:12-47 | the new list has between 1 and 10 entries; the new view is first; no later entry is about the same topic; the rest keep their stored order; and when the cap is not reached, every other stored view survives; exactly, the list is the new view followed by the first `min(9, n)` of the `n` surviving stored entries; a missing or unparsable stored value reads as empty |
| ViewTracker.RevisitReplacesHead | components/ViewTracker.tsx:37-45 | viewing the same topic again replaces the head entry and leaves the rest of the list as it was |
| RecentlyViewed.InsertByRecency | components/RecentlyViewed.tsx:23 | inserting into a most-recent-first list keeps it most-recent-first and adds exactly the new element |
| RecentlyViewed.SortByRecency | components/RecentlyViewed.tsx:23 | the sort is a permutation of the stored list, most recent first |
| RecentlyViewed.InsertStable | components/RecentlyViewed.tsx:23 | an inserted entry goes after every entry viewed at the same time as it |
| RecentlyViewed.SortStable | components/RecentlyViewed.tsx:23 | the sort is stable: for every timestamp, the entries viewed at that time keep their stored relative order, which fixes which of several tied entries are shown |
| RecentlyViewed.SortedPrefix | components/RecentlyViewed.tsx:22-24 | a prefix of a most-recent-first list stays ordered, draws from the list, and is at least as recent as everything left out |
| RecentlyViewed.Displayed | components/RecentlyViewed.tsx:17-25 | at most 5 entries (min(5, stored)), most recent first, drawn from the stored list, and every stored entry left out is no more recent than the last one shown |
| RecentlyViewed.NothingToShow | components/RecentlyViewed.tsx:17-34 | the panel is empty, and renders nothing, iff the stored value is missing, unparsable or empty |
| RelatedTopics.Related | components/RelatedTopics.tsx:15-23 | every result is in the current category and is not the current topic; results keep catalog order; there are at most `limit` (default 3); and with fewer than `limit`, every related topic is shown |
| RelatedTopics.LargerLimitExtends | components/RelatedTopics.tsx:18-23 | the selection for a smaller limit is a prefix of that for a larger one: the section shows the first related topics |
| RelatedTopics.RendersIffSomeRelated | components/RelatedTopics.tsx:18-27 | with a positive limit the section is empty, and not rendered, iff no topic is related |
| Search.CategoryEntries | components/Search.tsx:18-21 | a category contributes each of its topics, in order, tagged with the category's name |
| Search.Flatten | components/Search.tsx:16-23 | the flattened entries are the catalog's topics in category order, each tagged with the name of a category that lists it |
| Search.FlattenAppend | components/Search.tsx:16-23 | flattening a concatenated category list gives the concatenated entries |
| Search.FlattenOne | components/Search.tsx:16-23 | a single category flattens to its own topics tagged with its own name |
| Search.FlattenLabels | components/Search.tsx:16-23 | the `j`-th topic of category `k` is the entry right after the entries of the categories before `k`, tagged with `k`'s name, even when another category lists an equal topic |
| Search.Results | components/Search.tsx:25-38 | a blank query gives nothing; otherwise the results are exactly the entries whose title, name, description or some tag contains the lower-cased query, in catalog order |
| Search.CaseInsensitive | components/Search.tsx:28-37 | lower-casing the query never changes the results |
| Search.KeyStep | components/Search.tsx:41-68 | Cmd/Ctrl+K opens the box; Escape closes it and clears the focus; the query never changes; arrows and Enter act only while the box is open with results; ArrowDown moves the focus to min(focus+1, last); ArrowUp moves it down by one, with 0 going to -1; Enter navigates iff a result is focused, to that result's topic page |
| Search.Step | components/Search.tsx:75-155 | typing replaces the query and clears the focus; the button opens the box; the overlay closes it; clicking result `i` closes, clears the query and the focus, and its link navigates to `/topics/<categoryName>/<name>` of that result; typing, the button and the overlay never navigate |
| Search.ClickMatchesEnter | components/Search.tsx:63-155 | in a valid open state, clicking the focused result and pressing Enter navigate to the same page, that result's |
| Search.InitialValid | components/Search.tsx:12-14 | the initial state (empty query, closed, focus -1) has a valid focus |
| Search.StepKeepsValid | components/Search.tsx:54-66 | every event keeps the focused index between -1 and the last result, so Enter never reads past the results |
| Search.EnterNavigates | components/Search.tsx:63-66 | in an open box, Enter on a focused result goes to `/topics/<categoryName>/<name>` of that result |
| TableOfContents.MatchAt | components/TableOfContents.tsx:21 | a match found at a position is a genuine match of `^(#{2,4})\s+(.+)$` with the `m` flag |
| TableOfContents.MatchAtComplete | components/TableOfContents.tsx:21 | wherever the pattern can match, a match is found with the same number of hashes |
| TableOfContents.WrongHashCountNeverMatches | components/TableOfContents.tsx:21 | a line starting with one `#`, or with five or more, never matches |
| TableOfContents.Scan | components/TableOfContents.tsx:21-22 | the global scan finds matches in source order, without overlap, each a real match at its start |
| TableOfContents.ScanCoversEveryMatch | components/TableOfContents.tsx:21-22 | every position where the pattern can match lies inside a match the scan reports |
| TableOfContents.Headings | components/TableOfContents.tsx:21-34 | one heading per match, in order; the level is the number of `#` (2 to 4); the text is the trimmed second group; the id is its slug |
| TableOfContents.SlugShape | components/TableOfContents.tsx:27-31 | a slug holds only lower-case word characters and `-`, and never two `-` in a row |
| TableOfContents.SlugIdempotent | components/TableOfContents.tsx:27-31 | slugging a slug gives it back unchanged |
| TableOfContents.HeadingIdsAreSlugs | components/TableOfContents.tsx:24-34 | every heading id is slug-shaped |
| TableOfContents.Indent | components/TableOfContents.tsx:131-137 | level 2 is `ml-0`, level 3 is `ml-4`, anything else is `ml-8` |
| TableOfContents.Ceil | components/TableOfContents.tsx:88 | the ceiling is the least integer not below the height |
| TableOfContents.ElementTop | components/TableOfContents.tsx:93-99 | the loop sums the `offsetTop` of the element and each offset parent |
| TableOfContents.ScrollTarget | components/TableOfContents.tsx:86-106 | the target is the element top less the header height (96 without a header) plus 16, but never below 0 |
| TableOfContents.HashUpdate | components/TableOfContents.tsx:111-115 | the URL hash is replaced iff it differs from `#<id>`, and then becomes `#<id>` |
| ReadingTime.RemoveFencedCode | lib/utils.ts:8 | removing fenced code keeps only characters of the input, and text without three backticks in a row is unchanged |
| ReadingTime.FenceRemoved | lib/utils.ts:8 | a fenced block at the front, with no backtick between the fences, contributes nothing: it is dropped together with both fences |
| ReadingTime.FencePrefix | lib/utils.ts:8 | text without a backtick is kept as it is before the scan goes on, so with `FenceRemoved` a fenced block contributes nothing wherever it sits |
| ReadingTime.RemoveSpans | lib/utils.ts:9-12 | removing backtick-delimited code (line 9) or `<...>` tags (line 12) keeps only characters of the input, and text without the opening delimiter is unchanged |
| ReadingTime.SpanRemoved | lib/utils.ts:9-12 | a span at the front of the text, made of the opener, a non-empty run without the closer, and the closer, is dropped whole |
| ReadingTime.SpansPrefix | lib/utils.ts:9-12 | text without the opener is kept as it is before the scan goes on, so with `SpanRemoved` inline code and tags contribute nothing wherever they sit |
| ReadingTime.LinkAt | lib/utils.ts:10 | a link match is `[text](url)` with non-empty text without `]` and a non-empty url without `)` |
| ReadingTime.LinkAtComplete | lib/utils.ts:10 | a link of that shape at the front is always found, at the positions of its first `]` and of the first `)` after it |
| ReadingTime.LinksToText | lib/utils.ts:10 | replacing links by their text keeps only characters of the input |
| ReadingTime.LinkReplaced | lib/utils.ts:10 | a link `[text](url)` at the front contributes exactly its text, and the rest is scanned on |
| ReadingTime.LinksPrefix | lib/utils.ts:10 | text without `[` is kept as it is before the scan goes on, so with `LinkReplaced` a link contributes exactly its text wherever it sits |
| ReadingTime.RemoveFormatting | lib/utils.ts:11 | no `#`, `*`, `_`, `~` or backtick survives, and every other character of the input occurs in the result |
| ReadingTime.RemoveFormattingOne | lib/utils.ts:11 | a single character is dropped iff it is a formatting character |
| ReadingTime.RemoveFormattingAppend | lib/utils.ts:11 | the removal distributes over concatenation, so with the one-character case the kept characters keep their order and multiplicity |
| ReadingTime.StrippedHasNoFormatting | lib/utils.ts:7-12 | after the stripping pipeline no formatting character is left |
| ReadingTime.PlainTextShape | lib/utils.ts:7-14 | the normalised text has single spaces, no whitespace at either end, and no formatting characters |
| ReadingTime.Words | lib/utils.ts:16 | every word is non-empty and holds no whitespace |
| ReadingTime.JoinWords | lib/utils.ts:13-16 | on normalised text, joining the words with single spaces gives the text back, and non-empty text has a word |
| ReadingTime.PlainTextWords | lib/utils.ts:7-16 | the words of the stripped text, joined with spaces, are exactly the stripped text |
| ReadingTime.Minutes | lib/utils.ts:17-20 | the minutes are the least count that is at least 1 and covers the words at 200 per minute |
| ReadingTime.MinutesMonotone | lib/utils.ts:16-20 | more words never give fewer minutes |
| ReadingTime.OneMinute | lib/utils.ts:17-20 | the estimate is 1 minute iff there are at most 200 words |
| ReadingTime.CalculateReadingTime | lib/utils.ts:5-21 | the reading time is at least 1, is max(1, ceil(words / 200)), and counts the words of the stripped, whitespace-normalised text |
| Breadcrumbs.Trail | components/Breadcrumbs.tsx:15-35 | Home `/` comes first, then 0 to 3 more crumbs in the fixed order Topics, category, topic: Topics is present iff the path starts with `/topics`, a category crumb (capitalised, `/topics#<category>`) iff a category is given, and a topic crumb last iff both topic and title are given; the length counts exactly the present crumbs |
| Breadcrumbs.TopicPageTrail | components/Breadcrumbs.tsx:15-35 | on a topic page all four crumbs appear, ending with the title linked to `/topics/<category>/<topic>` |
| Breadcrumbs.Render | components/Breadcrumbs.tsx:40-62 | only the last crumb is the current page and not a link; the others link to their href; a separator precedes every crumb but the first |
| Breadcrumbs.OneCurrentCrumb | components/Breadcrumbs.tsx:15-62 | exactly one crumb is marked as the current page, and it is the deepest crumb present: the topic title, else the capitalised category, else Topics, else Home |
| Sidebar.Toggle | components/Sidebar.tsx:26-34 | a toggle adds the name iff it was absent and leaves every other name as it was |
| Sidebar.ToggleTwice | components/Sidebar.tsx:26-34 | toggling the same name twice restores the set |
| Sidebar.RouteCategory | components/Sidebar.tsx:20-21 | the route names a category iff its third `/`-separated segment exists and is non-empty, and that segment holds no `/` |
| Sidebar.OnRouteChange | components/Sidebar.tsx:18-24 | a route naming a category expands exactly that category; any other route changes nothing |
| Sidebar.SplitTopicHref | components/Sidebar.tsx:20 | a topic route splits into the empty root, `topics`, the category and the topic name |
| Sidebar.TopicRouteExpandsItsCategory | components/Sidebar.tsx:18-24 | opening a topic page expands exactly that topic's category |
| Sidebar.TopicLinks | components/Sidebar.tsx:90-104 | one link per topic, to `/topics/<category>/<name>`, labelled with the display title, active iff the path is that link |
| Sidebar.View | components/Sidebar.tsx:36-110 | a closed sidebar renders nothing; an open one shows every category with its topic count, and lists links only under expanded categories |
| Sidebar.CurrentTopicShownActive | components/Sidebar.tsx:18-104 | after navigating to a topic page, its category is expanded and its link is the active one |
| StructuredData.Keywords | components/StructuredData.tsx:50 | keywords are the tags joined by `, ` unless that join is empty, in which case they are the category |
| StructuredData.KeywordsFallBack | components/StructuredData.tsx:50 | the category is used exactly when the tags are missing, empty, or a single empty tag |
| StructuredData.ArticleOf | components/StructuredData.tsx:24-51 | headline and section are title and category; description falls back to the title; datePublished falls back to now; dateModified falls back to datePublished; author falls back to `Learning Resources`; image and logo are `<base>/favicon.png`; the page id is `<base>/topics/<category>/<topic>` |
| StructuredData.BreadcrumbListOf | components/StructuredData.tsx:61-71 | one list item per breadcrumb, in order, at positions 1 to n, with item `<base><url>` |
| StructuredData.PositionsIncrease | components/StructuredData.tsx:65-70 | list item positions strictly increase |
| StructuredData.StructuredData | components/StructuredData.tsx:23-82 | a schema is produced iff the type's matching data is given; an article for `article` and a breadcrumb list for `breadcrumb` |
| Sitemap.BaseUrl | app/sitemap.ts:7 | the base URL is the environment value when non-empty, otherwise `https://learning-resources.com` |
| Sitemap.Sitemap | app/sitemap.ts:12-41 | exactly 2 + categories + topics entries: base (daily, 1), `/topics` (daily, 0.9), then category entries, then topic entries, in order, and every URL starts with the base |
| Sitemap.TopicCategoryListed | app/sitemap.ts:9-41 | the category of every topic in the sitemap also has its own category entry |
| MdxComponents.ExternalIsNeverMailto | components/MDXComponents.tsx:73-77 | an external href never starts with `mailto:`, so the mailto test never changes the outcome |
| MdxComponents.Link | components/MDXComponents.tsx:71-91 | an external link (`http://` or `https://`) gains `target=_blank` and `rel=noopener noreferrer`; every other prop is passed through; the link class is the default when none is given |
| MdxComponents.NewTabIffExternal | components/MDXComponents.tsx:72-83 | without a caller `target`, a link opens in a new tab iff its href (`""` when missing) is external |
| MdxComponents.Code | components/MDXComponents.tsx:92-98 | code with a truthy className is passed through unchanged; code without one gets the inline class; props are never lost |
| MdxComponents.WhiteTestSimplifies | components/MDXComponents.tsx:127-131 | a div counts as white iff its className contains `bg-white` or its background or backgroundColor contains `white` |
| MdxComponents.DropWhite | components/MDXComponents.tsx:137-140 | a style entry containing `white` is removed and every other entry is kept unchanged |
| MdxComponents.Div | components/MDXComponents.tsx:125-151 | a non-white div passes through unchanged; a white one keeps its other props, gets className `<className or ''> bg-white dark:bg-gray-900`, loses its `background` and `backgroundColor` entries when they mention white, and keeps every other style entry, those two included when not white |
| MdxComponents.RewrittenDivIsMarked | components/MDXComponents.tsx:145 | a rewritten div's className always contains `bg-white` |
| MediaPlayer.Floor | components/AudioPlayer.tsx:81 | `Math.floor` gives the greatest integer not above its argument |
| MediaPlayer.MinutesAndSeconds | components/AudioPlayer.tsx:80-84 | for t >= 0, minutes are at least 0, seconds are below 60, and 60 * minutes + seconds = floor(t) |
| MediaPlayer.PaddedSeconds | components/AudioPlayer.tsx:83 | padded seconds are always two digits spelling the seconds |
| MediaPlayer.FormatTimeShape | components/AudioPlayer.tsx:80-84 | for t >= 0, the display is `m:ss` with m = floor(t/60) and ss = floor(t mod 60) in two digits |
| MediaPlayer.Seek | components/AudioPlayer.tsx:86-92 | the time becomes current + delta clamped to [0, duration] and nothing else changes |
| MediaPlayer.AdjustVolume | components/AudioPlayer.tsx:94-100 | the volume becomes volume + delta clamped to [0, 1] and nothing else changes |
| MediaPlayer.TogglePlay | components/AudioPlayer.tsx:19-28 | play/pause flips `isPlaying` and nothing else |
| MediaPlayer.ToggleMute | components/AudioPlayer.tsx:102-106 | mute flips `muted` and nothing else |
| MediaPlayer.Ended | components/AudioPlayer.tsx:157 | the end of playback clears `isPlaying` and nothing else |
| MediaPlayer.TogglesAreInvolutions | components/AudioPlayer.tsx:19-106 | toggling play twice, or mute twice, restores the state |
| MediaPlayer.StepsUndo | components/AudioPlayer.tsx:86-100 | a seek or volume step that is not clamped is undone by the opposite step |
| MediaPlayer.DownloadName | components/AudioPlayer.tsx:50 | the download name is the title, or `audio` when the title is missing or empty |
| MediaPlayer.OnKey | components/AudioPlayer.tsx:110-143 | from an ignored target nothing happens; space toggles play, ←/→ seek by -10/+10, ↑/↓ change volume by ±0.1, m/M toggle mute, any other key does nothing |
| MediaPlayer.GuardsDiffer | components/VideoPlayer.tsx:97-99 | the two players ignore the same targets except a select box, which only the audio player ignores |
| MediaPlayer.OnKeysKeepRange | components/VideoPlayer.tsx:95-128 | any key sequence keeps the time within [0, duration] and the volume within [0, 1] |
| MediaPlayer.InitialInRange | components/AudioPlayer.tsx:12-15 | the initial player state is within range |
| FontSize.ArticleClass | components/FontSizeControls.tsx:22-32 | the article class is always one of the three; `normal` gives `text-base`, `large` gives `text-lg`, and any other value `text-xl` |
| FontSize.OfferedRootClass | components/FontSizeControls.tsx:17-19 | the root class `font-<size>` is one of the three size classes iff the size is one of the three offered |
| FontSize.ApplyFontSize | components/FontSizeControls.tsx:16-33 | the root gains `font-<size>` and loses the other size classes; an article, when present, gets its size class and loses the others; every other class is untouched |
| FontSize.ExactlyOneSizeClass | components/FontSizeControls.tsx:16-33 | for an offered size, the root and the article each end with exactly one size class, the one for that size |
| FontSize.ApplyIdempotent | components/FontSizeControls.tsx:16-33 | applying the same size twice is the same as once |
| FontSize.LastSizeWins | components/FontSizeControls.tsx:16-33 | after an offered size, applying another gives the same page as applying only the second |
| FontSize.Change | components/FontSizeControls.tsx:35-39 | a change sets the state, stores the size under `fontSize` and applies it |
| FontSize.Mount | components/FontSizeControls.tsx:6-14 | on mount a truthy stored size is adopted and applied; otherwise the size stays `normal` and the page is untouched |
| FontSize.ChoiceSurvivesReload | components/FontSizeControls.tsx:8-39 | after choosing an offered size, a fresh mount restores and applies that size |
| CategoryFilter.Options | components/CategoryFilter.tsx:36-41 | `all` / `All Categories` comes first, then one option per category in order, labelled with the capitalised name |
| CategoryFilter.VisibleSections | components/CategoryFilter.tsx:15-23 | the shown sections are exactly those whose id is the selection, or all of them for `all`, in page order |
| CategoryFilter.InitiallyAllVisible | components/CategoryFilter.tsx:11-23 | the initial selection shows every section |
| CategoryFilter.OptionShowsItsCategory | components/CategoryFilter.tsx:18-41 | choosing a category's option shows exactly the sections with that category's id, unless the category is itself named `all` |
| CategoryFilter.CategoryNamedAll | components/CategoryFilter.tsx:18-41 | a category named `all` cannot be singled out: its option shows every section |
| HomePage.TopicCountIsCatalogSize | app/page.tsx:6 | the reduce sum of the topic counts is the number of topics in the catalog |
| HomePage.TotalIsAllTopics | app/page.tsx:5-6 | the home page total equals the length of `getAllTopics` |
| HomePage.TopicsWord | app/page.tsx:85 | the word is `topic` iff the count is 1 |
| HomePage.CardOf | app/page.tsx:70-86 | a category card links to `/topics#<name>` and reads `<n> topic(s) available` |
| HomePage.Home | app/page.tsx:5-91 | the stats show the number of categories and the total of every topic; the featured section is present iff there is a category, and holds the cards of the first min(6, n) categories in order |
| HomePage.FeaturedCountsAreCategorySizes | app/page.tsx:70-86 | each featured card on the built catalog counts at least one topic, namely that listed category's topics |
| NotFound.Relabel | app/not-found.tsx:7-10 | a suggestion is the topic with its category replaced by the containing category's name |
| NotFound.Suggestions | app/not-found.tsx:6-11 | at most 6 suggestions, which are the first topics of the catalog in category order, each relabelled with the category name of the flattened entry at its position |
| NotFound.SuggestionLabels | app/not-found.tsx:6-11 | the `j`-th topic of category `k`, when among the first six, is suggested relabelled with `k`'s own name |
| NotFound.CardOf | app/not-found.tsx:49-65 | a card links to `/topics/<category>/<name>`, shows the display title, and shows the description iff it is non-empty |
| NotFound.PopularTopics | app/not-found.tsx:45-70 | the section is present iff the catalog has a topic, with one card per suggestion |
| NotFound.SuggestionsAreFirstTopics | app/not-found.tsx:5-11 | on the built catalog the suggestions are the first 6 topics of `getAllTopics` |
| NotFound.SuggestionsLinkToTopics | app/not-found.tsx:49-52 | every suggestion card links to the page of a topic in `getAllTopics` |
| Layout.GetVersionInfo | app/layout.tsx:8-21 | the generated info is used when present; otherwise the package version, with `dev` for commit and branch and today's date |
| Layout.VersionLabel | app/layout.tsx:101 | the label starts with the version, then `+`, then the short commit hash |
| Layout.VersionLabelSplits | app/layout.tsx:101 | when neither part holds `+`, splitting the label at `+` gives back the version and the commit |
| Layout.FallbackLabel | app/layout.tsx:13-19 | without generated info the label is `<package version>+dev` |
| Layout.ResolveTheme | app/layout.tsx:80-82 | a non-empty stored theme wins; otherwise `dark` iff the system prefers dark, else `light` |
| Layout.ApplyTheme | app/layout.tsx:78-92 | a storage exception leaves the root alone; otherwise `dark` is set and colorScheme is `dark` unless the theme is exactly `light` |
| Layout.ThemeConsistent | app/layout.tsx:84-90 | the dark class and the color scheme always agree |
| Layout.StoredChoiceWins | app/layout.tsx:80-82 | a stored theme makes the system preference irrelevant; with nothing stored, or an empty value, the root follows the preference |
| Layout.UnknownStoredThemeIsDark | app/layout.tsx:82-90 | any stored value other than `light` gives the dark theme |

## Left out

- File system access (`fs`, `path`, `process.cwd()`): the tree is a given value. Symbolic links and special files are not modelled. Path segments resolve by exact name, so `..`, `.` and path separators inside names are not modelled.
- The frontmatter parser (`gray-matter`) is a parameter. Unknown or null-valued frontmatter keys are counted (so `Object.keys(...).length` is exact), but their values are not kept.
- Catalog.TopicOf, Catalog.GetTopics, Catalog.GetTopicContent: the content file is reached through the listings of its category and topic directories, so a topic directory that can be accessed but not listed is skipped by the catalog and fails in `getTopicContent`, where `fs.access`/`fs.readFile` on the path would succeed (lib/content.ts:37, 122).
- The parser is a pure function; gray-matter caches results by text and the builder then writes `category` and `topic` into the shared `data` object (lib/content.ts:44-48), so byte-identical content files in two categories could share one metadata object. That aliasing is not modelled.
- `Topic.description`, `Topic.tags` and `Category.description` (types/content.ts:14, 20, 22) are never set by the builder and are left out of the records.
- Catalog.Frontmatter: recognised keys hold strings (and `tags` a list of strings) only. A YAML number, boolean or date in them (an unquoted `createdAt: 2024-01-15` loads as a Date) is not representable, so the builder keeping such a value as it is (lib/content.ts:47) and the TypeError that `toLowerCase` on a non-string title raises in the search filter (components/Search.tsx:31) are not modelled; `Search.Results` is total.
- A frontmatter `type` outside `text`, `video`, `audio` and `mixed` cannot be represented: `kind` is `Option<ContentType>` over the four declared values.
- Catalog.DefaultedMetadata: the metadata record keeps `title` and `type` optional, weaker than the declared interface, because the source casts unvalidated frontmatter.
- Unicode case mapping: `toLowerCase`, `toUpperCase` and `\s` are modelled on ASCII letters and the ECMAScript whitespace set given in `Strings`; other Unicode letters are left unchanged.
- DOM work: `IntersectionObserver` tracking of the active heading, DOM heading ids assigned by index (components/TableOfContents.tsx:39-44), `document.querySelector`, `scrollTo`, `window.location`, focus calls, `setTimeout` delays and `history.replaceState` are left out; their inputs and decisions are parameters or results.
- JSX, Tailwind class strings other than those the logic chooses, and SVG markup are not modelled.
- Search.KeyStep: an Enter press with a focused index past the last result does not navigate, where the source would throw; `Search.StepKeepsValid` proves such a state is unreachable.
- MediaPlayer.Seek: times and volumes are `real`, not IEEE doubles, so float rounding of the 0.1 volume step and NaN durations before metadata loads are not modelled.
- MediaPlayer.FormatTimeShape: only non-negative times are covered; the element never reports a negative time.
- The media range inputs, playback-rate select, loading spinner, `play()`/`pause()` and the download link element are left out; only the state transitions and the download name are modelled.
- `lastModified: new Date()` in the sitemap and the current time in structured data are parameters; `JSON.stringify` of the schemas is not modelled.
- The static metadata, Open Graph and viewport constants of app/layout.tsx and the `GoogleAnalytics` component are not modelled.
- `localStorage` and `JSON.parse` are `Option` inputs; a write that throws is not modelled except in the theme script, where an exception leaves the page untouched.
- lib/mdx.ts, the MDX rendering pipeline, CopyCodeButton, CodeBlock, MediaPlayers, Layout, Footer, SidebarWrapper, TopicNavigation, the topics pages and scripts/build-with-version.js are not part of this model.

=== FILE: breadcrumbs.dfy ===
/**
 * The breadcrumb trail shown above a page: Home, then Topics on any `/topics` route, then the
 * category, then the topic; and how the trail is drawn, with the last crumb as the current
 * page.
 */
module Breadcrumbs {
  import opened Wrappers
  import Strings

  datatype Crumb = Crumb(name: string, href: string)

  const Home: Crumb := Crumb("Home", "/")
  const TopicsCrumb: Crumb := Crumb("Topics", "/topics")

  function CategoryCrumb(category: string): Crumb {
    Crumb(Strings.Capitalize(category), "/topics#" + category)
  }

  /** The topic crumb's link interpolates the category prop even when it is missing. */
  function TopicCrumb(category: Option<string>, topic: string, topicTitle: string): Crumb {
    Crumb(topicTitle, "/topics/" + Strings.Interpolate(category) + "/" + topic)
  }

  function Optional(present: bool, c: Crumb): seq<Crumb> {
    if present then [c] else []
  }

  /** How many crumbs a condition contributes. */
  function CountIf(b: bool): nat {
    if b then 1 else 0
  }

  /**
   * The trail for `pathname` and the page's props: Home, then Topics, then the category, then
   * the topic, each optional crumb present exactly when its condition holds, so a trail has one
   * to four crumbs. The category crumb needs a non-empty category, the topic crumb both a
   * non-empty topic and a non-empty title.
   */
  function Trail(pathname: string, category: Option<string>, topic: Option<string>, topicTitle: Option<string>)
    : (r: seq<Crumb>)
    ensures 1 <= |r| <= 4 && r[0] == Home
    ensures TopicsCrumb in r <==> Strings.StartsWith(pathname, "/topics")
    ensures Strings.Truthy(category) <==> CategoryCrumb(category.GetOr("")) in r[1..]
    ensures Strings.Truthy(topic) && Strings.Truthy(topicTitle) <==>
              |r| > 1 && r[|r| - 1] == TopicCrumb(category, topic.GetOr(""), topicTitle.GetOr(""))
    ensures var onTopics := CountIf(Strings.StartsWith(pathname, "/topics"));
            && |r| == 1 + onTopics + CountIf(Strings.Truthy(category))
                        + CountIf(Strings.Truthy(topic) && Strings.Truthy(topicTitle))
            && (onTopics == 1 ==> r[1] == TopicsCrumb)
            && (Strings.Truthy(category) ==> r[1 + onTopics] == CategoryCrumb(category.GetOr("")))
  {
    var r := [Home]
      + Optional(Strings.StartsWith(pathname, "/topics"), TopicsCrumb)
      + Optional(Strings.Truthy(category), CategoryCrumb(category.GetOr("")))
      + Optional(Strings.Truthy(topic) && Strings.Truthy(topicTitle), TopicCrumb(category, topic.GetOr(""), topicTitle.GetOr("")));
    assert Strings.Truthy(category) ==> CategoryCrumb(category.GetOr("")) in r[1..] by {
      if Strings.Truthy(category) {
        assert CategoryCrumb(category.GetOr("")) == r[|Optional(Strings.StartsWith(pathname, "/topics"), TopicsCrumb)| + 1];
      }
    }
    r
  }

  /** A crumb as drawn: its name, its link (none for the current page), and whether a separator precedes it. */
  datatype Rendered = Rendered(name: string, link: Option<string>, current: bool, separator: bool)

  /** The last crumb is the current page and is not a link; every crumb after the first has a separator. */
  function Render(trail: seq<Crumb>): (r: seq<Rendered>)
    ensures |r| == |trail|
    ensures forall i :: 0 <= i < |r| ==> r[i].name == trail[i].name
    ensures forall i :: 0 <= i < |r| ==> (r[i].current <==> i == |r| - 1)
    ensures forall i :: 0 <= i < |r| ==> (r[i].link.None? <==> r[i].current)
    ensures forall i :: 0 <= i < |r| && r[i].link.Some? ==> r[i].link.value == trail[i].href
    ensures forall i :: 0 <= i < |r| ==> (r[i].separator <==> i > 0)
  {
    seq(|trail|, i requires 0 <= i < |trail| =>
      var last := i == |trail| - 1;
      Rendered(trail[i].name, if last then None else Some(trail[i].href), last, i > 0))
  }

  /**
   * Exactly one crumb of every trail is marked as the current page, and it is the deepest one
   * the page has: the topic's title, else the capitalised category, else Topics, else Home.
   */
  lemma OneCurrentCrumb(pathname: string, category: Option<string>, topic: Option<string>, topicTitle: Option<string>)
    ensures var r := Render(Trail(pathname, category, topic, topicTitle));
            exists i :: 0 <= i < |r| && r[i].current && forall j :: 0 <= j < |r| && j != i ==> !r[j].current
    ensures var r := Render(Trail(pathname, category, topic, topicTitle));
            r[|r| - 1].current
            && r[|r| - 1].name
               == if Strings.Truthy(topic) && Strings.Truthy(topicTitle) then topicTitle.value
                  else if Strings.Truthy(category) then Strings.Capitalize(category.value)
                  else if Strings.StartsWith(pathname, "/topics") then "Topics"
                  else "Home"
  {
    var r := Render(Trail(pathname, category, topic, topicTitle));
    assert r[|r| - 1].current;
  }

  /** On a topic page with all props, the trail has four crumbs and ends at that page's own route. */
  lemma TopicPageTrail(category: string, topic: string, topicTitle: string)
    requires category != "" && topic != "" && topicTitle != ""
    ensures var r := Trail("/topics/" + category + "/" + topic, Some(category), Some(topic), Some(topicTitle));
            |r| == 4 && r[3].href == "/topics/" + category + "/" + topic && r[3].name == topicTitle
  {
    var path := "/topics/" + category + "/" + topic;
    assert Strings.StartsWith(path, "/topics") by {
      assert path[..7] == "/topics";
    }
  }
}

=== FILE: catalog.dfy ===
/**
 * The content catalog builder: turns the `content/categories/<category>/<topic>/content.mdx`
 * tree into ordered topic and category lists, absorbing every failure into an empty or
 * absent result.
 *
 * The filesystem is an immutable tree handed in as a value, with directory listings in
 * `readdir` order, and the frontmatter parser is an abstract function from file text to an
 * optional (frontmatter, body) pair.
 */
module Catalog {
  import opened Wrappers
  import opened ContentTypes
  import Strings
  import Seqs

  /** A regular file: its text, or a read that fails (permissions, I/O error, bad encoding). */
  datatype FileData = Unreadable | Text(text: string)

  /** A directory listing: its entries in listing order, or a listing that fails. */
  datatype Listing = Unlistable | Entries(entries: seq<Node>)

  /** A directory entry. Symbolic links and other special files are not modelled. */
  datatype Node = File(name: string, data: FileData) | Dir(name: string, listing: Listing)

  /**
   * The frontmatter object a parse yields. Recognised keys carry their values; `otherKeys`
   * counts every other key present (unrecognised keys, and recognised ones whose value is null).
   */
  datatype Frontmatter = Frontmatter(
    title: Option<string>,
    description: Option<string>,
    category: Option<string>,
    topic: Option<string>,
    tags: Option<seq<string>>,
    kind: Option<ContentType>,
    createdAt: Option<string>,
    updatedAt: Option<string>,
    otherKeys: nat)

  /** The result of a successful parse: the frontmatter and the body after it. */
  datatype Matter = Matter(data: Frontmatter, content: string)

  /** The frontmatter parser: `None` when the text cannot be parsed. */
  type Parser = string -> Option<Matter>

  /** What `getTopicContent` returns. */
  datatype TopicContent = TopicContent(content: string, metadata: Option<ContentMetadata>)

  const ContentFileName: string := "content.mdx"

  function Count<T>(o: Option<T>): nat {
    if o.Some? then 1 else 0
  }

  /** `Object.keys(parsed.data).length`. */
  function KeyCount(fm: Frontmatter): nat {
    Count(fm.title) + Count(fm.description) + Count(fm.category) + Count(fm.topic)
    + Count(fm.tags) + Count(fm.kind) + Count(fm.createdAt) + Count(fm.updatedAt)
    + fm.otherKeys
  }

  /** The entry called `name` in a listing (names within one directory are distinct). */
  function Lookup(entries: seq<Node>, name: string): (r: Option<Node>)
    ensures r.Some? ==> r.value in entries && r.value.name == name
    ensures r.None? <==> forall i :: 0 <= i < |entries| ==> entries[i].name != name
    decreases |entries|
  {
    if |entries| == 0 then None
    else if entries[0].name == name then Some(entries[0])
    else Lookup(entries[1..], name)
  }

  // ---------------------------------------------------------------------------------------
  // getCategories
  // ---------------------------------------------------------------------------------------

  /** The names of the directory entries of a listing, in order. */
  function DirNames(es: seq<Node>): (r: seq<string>)
    ensures |r| <= |es|
    decreases |es|
  {
    if |es| == 0 then []
    else (if es[0].Dir? then [es[0].name] else []) + DirNames(es[1..])
  }

  /**
   * `getCategories`: the names of the directories under the categories root, in listing
   * order; empty when the root cannot be listed.
   */
  function GetCategories(root: Listing): (r: seq<string>)
    ensures root.Unlistable? ==> r == []
    ensures root.Entries? ==> forall n :: n in r <==> exists j :: IsDirNamed(root.entries, j, n)
  {
    match root
    case Unlistable => []
    case Entries(es) => DirNamesMembers(es); DirNames(es)
  }

  predicate IsDirNamed(es: seq<Node>, j: int, n: string) {
    0 <= j < |es| && es[j].Dir? && es[j].name == n
  }

  lemma {:induction false} DirNamesMembers(es: seq<Node>)
    ensures forall n :: n in DirNames(es) <==> exists j :: IsDirNamed(es, j, n)
    decreases |es|
  {
    if |es| > 0 {
      DirNamesMembers(es[1..]);
      var h := if es[0].Dir? then [es[0].name] else [];
      assert DirNames(es) == h + DirNames(es[1..]);
      forall n ensures n in DirNames(es) <==> exists j :: IsDirNamed(es, j, n) {
        if es[0].Dir? && es[0].name == n {
          assert IsDirNamed(es, 0, n);
        }
        if exists j :: IsDirNamed(es[1..], j, n) {
          var j :| IsDirNamed(es[1..], j, n);
          assert IsDirNamed(es, j + 1, n);
        }
        if exists j :: IsDirNamed(es, j, n) {
          var j :| IsDirNamed(es, j, n);
          if j > 0 {
            assert IsDirNamed(es[1..], j - 1, n);
          }
        }
      }
    }
  }

  lemma {:induction false} DirNamesAppend(a: seq<Node>, b: seq<Node>)
    ensures DirNames(a + b) == DirNames(a) + DirNames(b)
    decreases |a|
  {
    if |a| == 0 {
      assert a + b == b;
    } else {
      assert (a + b)[0] == a[0];
      assert (a + b)[1..] == a[1..] + b;
      DirNamesAppend(a[1..], b);
      var h := if a[0].Dir? then [a[0].name] else [];
      assert DirNames(a + b) == h + DirNames(a[1..] + b);
      assert DirNames(a) == h + DirNames(a[1..]);
    }
  }

  /** Listing order is kept: the names of a concatenated listing are the concatenated names. */
  lemma GetCategoriesOrder(a: seq<Node>, b: seq<Node>)
    ensures GetCategories(Entries(a + b)) == GetCategories(Entries(a)) + GetCategories(Entries(b))
    ensures |a| == 1 ==> GetCategories(Entries(a)) == if a[0].Dir? then [a[0].name] else []
  {
    DirNamesAppend(a, b);
    if |a| == 1 {
      assert DirNames(a) == (if a[0].Dir? then [a[0].name] else []) + DirNames(a[1..]);
    }
  }

  // ---------------------------------------------------------------------------------------
  // getTopics
  // ---------------------------------------------------------------------------------------

  /** The logical path a topic records: `/content/categories/<category>/<name>/content.mdx`. */
  function ContentPath(category: string, name: string): string {
    "/content/categories/" + category + "/" + name + "/" + ContentFileName
  }

  /** The listing of `<root>/<category>`: unlistable when it is missing or not a directory. */
  function CategoryListing(root: Listing, category: string): Listing {
    if root.Unlistable? then Unlistable
    else
      match Lookup(root.entries, category)
      case Some(Dir(_, l)) => l
      case _ => Unlistable
  }

  /** `fs.access(<dir>/content.mdx)`: the entry found there, whatever kind it is. */
  function Access(listing: Listing): Option<Node> {
    if listing.Unlistable? then None else Lookup(listing.entries, ContentFileName)
  }

  /** `fs.readFile(path, 'utf8')`: succeeds only on a readable regular file. */
  function ReadFile(node: Node): (r: Option<string>)
    ensures r.Some? <==> node.File? && node.data.Text?
  {
    match node
    case File(_, Text(t)) => Some(t)
    case _ => None
  }

  /**
   * The metadata `getTopics` stores for a parsed frontmatter: none when the frontmatter has
   * no keys; otherwise the frontmatter, with `category` and `topic` filled from the directory
   * names only where the frontmatter leaves them falsy (missing or empty).
   */
  function DefaultedMetadata(fm: Frontmatter, category: string, topic: string): (r: Option<ContentMetadata>)
    ensures r.None? <==> KeyCount(fm) == 0
    ensures r.Some? && Strings.Truthy(fm.category) ==> r.value.category == fm.category.value
    ensures r.Some? && !Strings.Truthy(fm.category) ==> r.value.category == category
    ensures r.Some? && Strings.Truthy(fm.topic) ==> r.value.topic == fm.topic.value
    ensures r.Some? && !Strings.Truthy(fm.topic) ==> r.value.topic == topic
    ensures r.Some? ==> SameDeclaredFields(r.value, fm)
  {
    if KeyCount(fm) == 0 then None
    else Some(ContentMetadata(fm.title, fm.description, Strings.Or(fm.category, category),
                              Strings.Or(fm.topic, topic), fm.tags, fm.kind, fm.createdAt, fm.updatedAt))
  }

  /** The metadata carries the frontmatter's fields other than `category` and `topic` unchanged. */
  predicate SameDeclaredFields(m: ContentMetadata, fm: Frontmatter) {
    && m.title == fm.title && m.description == fm.description && m.tags == fm.tags
    && m.kind == fm.kind && m.createdAt == fm.createdAt && m.updatedAt == fm.updatedAt
  }

  /** Read, parse and default the metadata of a content file; any failure leaves it absent. */
  function ReadMetadata(node: Node, parse: Parser, category: string, topic: string): Option<ContentMetadata> {
    match ReadFile(node)
    case None => None
    case Some(text) =>
      match parse(text)
      case None => None
      case Some(m) => DefaultedMetadata(m.data, category, topic)
  }

  /**
   * One iteration of the `getTopics` loop: a directory entry whose `content.mdx` is
   * accessible becomes a topic; anything else is skipped.
   */
  function TopicOf(entry: Node, parse: Parser, category: string): (r: Option<Topic>)
    ensures r.Some? <==> entry.Dir? && Access(entry.listing).Some?
    ensures r.Some? ==> r.value.name == entry.name && r.value.category == category
                        && r.value.contentPath == ContentPath(category, entry.name)
  {
    if entry.File? then None
    else
      match Access(entry.listing)
      case None => None
      case Some(node) =>
        Some(Topic(entry.name, category, ContentPath(category, entry.name),
                   ReadMetadata(node, parse, category, entry.name)))
  }

  function TopicsOf(es: seq<Node>, parse: Parser, category: string): (r: seq<Topic>)
    ensures |r| <= |es|
    ensures forall i :: 0 <= i < |r| ==> r[i].category == category && r[i].contentPath == ContentPath(category, r[i].name)
    decreases |es|
  {
    if |es| == 0 then []
    else
      match TopicOf(es[0], parse, category)
      case Some(t) => [t] + TopicsOf(es[1..], parse, category)
      case None => TopicsOf(es[1..], parse, category)
  }

  /**
   * `getTopics(category)`: one topic per subdirectory with an accessible `content.mdx`, in
   * listing order; empty when the category directory cannot be listed.
   */
  function GetTopics(root: Listing, parse: Parser, category: string): (r: seq<Topic>)
    ensures CategoryListing(root, category).Unlistable? ==> r == []
    ensures forall i :: 0 <= i < |r| ==> r[i].category == category && r[i].contentPath == ContentPath(category, r[i].name)
  {
    match CategoryListing(root, category)
    case Unlistable => []
    case Entries(es) => TopicsOf(es, parse, category)
  }

  /** Listing order is kept, entry by entry. */
  lemma {:induction false} TopicsOfOrder(a: seq<Node>, b: seq<Node>, parse: Parser, category: string)
    ensures TopicsOf(a + b, parse, category) == TopicsOf(a, parse, category) + TopicsOf(b, parse, category)
    ensures |a| == 1 ==> TopicsOf(a, parse, category) == match TopicOf(a[0], parse, category) case Some(t) => [t] case None => []
    decreases |a|
  {
    if |a| == 0 {
      assert a + b == b;
    } else {
      assert (a + b)[0] == a[0];
      assert (a + b)[1..] == a[1..] + b;
      TopicsOfOrder(a[1..], b, parse, category);
      if |a| == 1 {
        assert a[1..] == [];
      }
    }
  }

  /**
   * A read or parse failure after a successful access keeps the topic, without metadata;
   * only a missing `content.mdx` drops it.
   */
  lemma FailureKeepsTopic(entry: Node, parse: Parser, category: string)
    requires entry.Dir? && Access(entry.listing).Some?
    requires var node := Access(entry.listing).value;
             ReadFile(node).None? || parse(ReadFile(node).value).None?
    ensures TopicOf(entry, parse, category)
            == Some(Topic(entry.name, category, ContentPath(category, entry.name), None))
  {
  }

  /** With a successful parse, the topic's metadata is the defaulted frontmatter. */
  lemma ParsedTopicMetadata(entry: Node, parse: Parser, category: string)
    requires entry.Dir? && Access(entry.listing).Some?
    requires var node := Access(entry.listing).value;
             ReadFile(node).Some? && parse(ReadFile(node).value).Some?
    ensures TopicOf(entry, parse, category).Some?
    ensures TopicOf(entry, parse, category).value.metadata
            == DefaultedMetadata(parse(ReadFile(Access(entry.listing).value).value).value.data, category, entry.name)
  {
  }

  // ---------------------------------------------------------------------------------------
  // getAllTopics
  // ---------------------------------------------------------------------------------------

  /** The topics of each named category, concatenated in the order of the names. */
  function ConcatTopics(root: Listing, parse: Parser, names: seq<string>): (r: seq<Topic>)
    decreases |names|
  {
    if |names| == 0 then [] else GetTopics(root, parse, names[0]) + ConcatTopics(root, parse, names[1..])
  }

  lemma {:induction false} ConcatTopicsAppend(root: Listing, parse: Parser, a: seq<string>, b: seq<string>)
    ensures ConcatTopics(root, parse, a + b) == ConcatTopics(root, parse, a) + ConcatTopics(root, parse, b)
    decreases |a|
  {
    if |a| == 0 {
      assert a + b == b;
    } else {
      assert (a + b)[0] == a[0];
      assert (a + b)[1..] == a[1..] + b;
      ConcatTopicsAppend(root, parse, a[1..], b);
    }
  }

  lemma {:induction false} ConcatTopicsMembers(root: Listing, parse: Parser, names: seq<string>, t: Topic)
    ensures t in ConcatTopics(root, parse, names) <==> exists i :: 0 <= i < |names| && t in GetTopics(root, parse, names[i])
    decreases |names|
  {
    if |names| > 0 {
      ConcatTopicsMembers(root, parse, names[1..], t);
      if t in ConcatTopics(root, parse, names[1..]) {
        var i :| 0 <= i < |names[1..]| && t in GetTopics(root, parse, names[1..][i]);
        assert t in GetTopics(root, parse, names[i + 1]);
      }
      if exists i :: 0 <= i < |names| && t in GetTopics(root, parse, names[i]) {
        var i :| 0 <= i < |names| && t in GetTopics(root, parse, names[i]);
        if i > 0 {
          assert names[1..][i - 1] == names[i];
        }
      }
    }
  }

  /** `getAllTopics`: the topics of every category, category by category, in listing order. */
  function GetAllTopics(root: Listing, parse: Parser): (r: seq<Topic>) {
    ConcatTopics(root, parse, GetCategories(root))
  }

  /** A topic is in `getAllTopics` iff it is among the topics of some listed category. */
  lemma AllTopicsMembers(root: Listing, parse: Parser, t: Topic)
    ensures t in GetAllTopics(root, parse) <==>
            exists i :: 0 <= i < |GetCategories(root)| && t in GetTopics(root, parse, GetCategories(root)[i])
  {
    ConcatTopicsMembers(root, parse, GetCategories(root), t);
  }

  /** Every topic of `getAllTopics` names its category and sits under it in the tree. */
  lemma AllTopicsCategories(root: Listing, parse: Parser)
    ensures forall t :: t in GetAllTopics(root, parse) ==> t.category in GetCategories(root)
  {
    forall t | t in GetAllTopics(root, parse) ensures t.category in GetCategories(root) {
      AllTopicsMembers(root, parse, t);
      var i :| 0 <= i < |GetCategories(root)| && t in GetTopics(root, parse, GetCategories(root)[i]);
    }
  }

  // ---------------------------------------------------------------------------------------
  // getCategoryWithTopics / getAllCategoriesWithTopics
  // ---------------------------------------------------------------------------------------

  /** `getCategoryWithTopics`: absent exactly when the category has no topics. */
  function GetCategoryWithTopics(root: Listing, parse: Parser, name: string): (r: Option<Category>)
    ensures r.None? <==> |GetTopics(root, parse, name)| == 0
    ensures r.Some? ==> r.value.name == name && r.value.topics == GetTopics(root, parse, name)
  {
    var topics := GetTopics(root, parse, name);
    if |topics| == 0 then None else Some(Category(name, topics))
  }

  /** The present results of `getCategoryWithTopics` over the names, in order. */
  function PresentCategories(root: Listing, parse: Parser, names: seq<string>): (r: seq<Category>)
    ensures |r| <= |names|
    ensures forall i :: 0 <= i < |r| ==> (r[i].name in names && |r[i].topics| > 0
                                         && r[i].topics == GetTopics(root, parse, r[i].name))
    decreases |names|
  {
    if |names| == 0 then []
    else
      match GetCategoryWithTopics(root, parse, names[0])
      case Some(c) => [c] + PresentCategories(root, parse, names[1..])
      case None => PresentCategories(root, parse, names[1..])
  }

  /**
   * `getAllCategoriesWithTopics`: the catalog. Every listed category with at least one topic,
   * in listing order, and nothing else.
   */
  function GetAllCategoriesWithTopics(root: Listing, parse: Parser): (r: seq<Category>)
    ensures forall i :: 0 <= i < |r| ==> (r[i].name in GetCategories(root) && |r[i].topics| > 0
                                         && r[i].topics == GetTopics(root, parse, r[i].name))
  {
    PresentCategories(root, parse, GetCategories(root))
  }

  /** The names of the categories, in order. */
  function CategoryNames(cats: seq<Category>): (r: seq<string>)
    ensures forall n :: n in r ==> exists c :: c in cats && c.name == n
    decreases |cats|
  {
    if |cats| == 0 then [] else [cats[0].name] + CategoryNames(cats[1..])
  }

  lemma {:induction false} CategoryNamesAppend(a: seq<Category>, b: seq<Category>)
    ensures CategoryNames(a + b) == CategoryNames(a) + CategoryNames(b)
    decreases |a|
  {
    if |a| == 0 {
      assert a + b == b;
    } else {
      assert (a + b)[0] == a[0];
      assert (a + b)[1..] == a[1..] + b;
      CategoryNamesAppend(a[1..], b);
    }
  }

  lemma PresentCategoriesCons(root: Listing, parse: Parser, names: seq<string>)
    requires |names| > 0
    ensures var head := GetCategoryWithTopics(root, parse, names[0]);
            PresentCategories(root, parse, names)
            == (if head.Some? then [head.value] else []) + PresentCategories(root, parse, names[1..])
  {
  }

  lemma {:induction false} PresentCategoriesComplete(root: Listing, parse: Parser, names: seq<string>, n: string)
    requires n in names && GetCategoryWithTopics(root, parse, n).Some?
    ensures n in CategoryNames(PresentCategories(root, parse, names))
    decreases |names|
  {
    var head := GetCategoryWithTopics(root, parse, names[0]);
    var front := if head.Some? then [head.value] else [];
    PresentCategoriesCons(root, parse, names);
    CategoryNamesAppend(front, PresentCategories(root, parse, names[1..]));
    if names[0] == n {
      assert CategoryNames(front) == [n];
    } else {
      assert n in names[1..];
      PresentCategoriesComplete(root, parse, names[1..], n);
    }
  }

  /** Every listed category that has a topic is in the catalog. */
  lemma NonEmptyCategoryIncluded(root: Listing, parse: Parser, n: string)
    requires n in GetCategories(root) && |GetTopics(root, parse, n)| > 0
    ensures exists c :: c in GetAllCategoriesWithTopics(root, parse) && c.name == n
  {
    assert GetCategoryWithTopics(root, parse, n).Some?;
    PresentCategoriesComplete(root, parse, GetCategories(root), n);
  }

  /** A listed category without topics is missing from the catalog. */
  lemma EmptyCategoryExcluded(root: Listing, parse: Parser, n: string)
    requires |GetTopics(root, parse, n)| == 0
    ensures forall c :: c in GetAllCategoriesWithTopics(root, parse) ==> c.name != n
  {
  }

  lemma {:induction false} PresentCategoriesTopics(root: Listing, parse: Parser, names: seq<string>)
    ensures CatalogTopics(PresentCategories(root, parse, names)) == ConcatTopics(root, parse, names)
    decreases |names|
  {
    if |names| > 0 {
      PresentCategoriesTopics(root, parse, names[1..]);
      var rest := PresentCategories(root, parse, names[1..]);
      match GetCategoryWithTopics(root, parse, names[0])
      case Some(c) =>
        assert PresentCategories(root, parse, names) == [c] + rest;
        assert ([c] + rest)[1..] == rest;
      case None =>
        assert GetTopics(root, parse, names[0]) == [];
    }
  }

  /**
   * Dropping empty categories loses no topic: the catalog's topics, category by category,
   * are exactly `getAllTopics`, in the same order.
   */
  lemma CatalogTopicsAreAllTopics(root: Listing, parse: Parser)
    ensures CatalogTopics(GetAllCategoriesWithTopics(root, parse)) == GetAllTopics(root, parse)
  {
    PresentCategoriesTopics(root, parse, GetCategories(root));
  }

  // ---------------------------------------------------------------------------------------
  // getTopicContent
  // ---------------------------------------------------------------------------------------

  /** The listing of `<root>/<category>/<topic>`. */
  function TopicListing(root: Listing, category: string, topic: string): Listing {
    match CategoryListing(root, category)
    case Unlistable => Unlistable
    case Entries(es) =>
      match Lookup(es, topic)
      case Some(Dir(_, l)) => l
      case _ => Unlistable
  }

  /** The metadata `getTopicContent` returns: the frontmatter with both names overwritten. */
  function OverwrittenMetadata(fm: Frontmatter, category: string, topic: string): (r: Option<ContentMetadata>)
    ensures r.None? <==> KeyCount(fm) == 0
    ensures r.Some? ==> r.value.category == category && r.value.topic == topic && SameDeclaredFields(r.value, fm)
  {
    if KeyCount(fm) == 0 then None
    else Some(ContentMetadata(fm.title, fm.description, category, topic, fm.tags, fm.kind, fm.createdAt, fm.updatedAt))
  }

  /**
   * `getTopicContent(category, topic)`: the body and metadata of one content file, or an empty
   * body without metadata on any failure.
   */
  function GetTopicContent(root: Listing, parse: Parser, category: string, topic: string): (r: TopicContent)
    ensures Access(TopicListing(root, category, topic)).None? ==> r == TopicContent("", None)
    ensures r.metadata.Some? ==> r.metadata.value.category == category && r.metadata.value.topic == topic
    ensures forall node, text, m ::
              Access(TopicListing(root, category, topic)) == Some(node) && ReadFile(node) == Some(text)
              && parse(text) == Some(m)
              ==> r == TopicContent(m.content, OverwrittenMetadata(m.data, category, topic))
  {
    match Access(TopicListing(root, category, topic))
    case None => TopicContent("", None)
    case Some(node) =>
      match ReadFile(node)
      case None => TopicContent("", None)
      case Some(text) =>
        match parse(text)
        case None => TopicContent("", None)
        case Some(m) => TopicContent(m.content, OverwrittenMetadata(m.data, category, topic))
  }

  /** Every read or parse failure gives the empty, metadata-free result. */
  lemma TopicContentFailure(root: Listing, parse: Parser, category: string, topic: string)
    requires var a := Access(TopicListing(root, category, topic));
             a.None? || ReadFile(a.value).None? || parse(ReadFile(a.value).value).None?
    ensures GetTopicContent(root, parse, category, topic) == TopicContent("", None)
  {
  }

  /**
   * The two defaulting rules differ: for the same frontmatter, the catalog keeps a supplied
   * non-empty `category`/`topic` while `getTopicContent` replaces it with the directory names.
   * They agree on everything else, and agree entirely iff the frontmatter's names are falsy or
   * already equal the directory names.
   */
  lemma DefaultingPrecedence(fm: Frontmatter, category: string, topic: string)
    ensures DefaultedMetadata(fm, category, topic).None? <==> OverwrittenMetadata(fm, category, topic).None?
    ensures DefaultedMetadata(fm, category, topic) == OverwrittenMetadata(fm, category, topic)
            <==> (!Strings.Truthy(fm.category) || fm.category.value == category || KeyCount(fm) == 0)
                 && (!Strings.Truthy(fm.topic) || fm.topic.value == topic || KeyCount(fm) == 0)
  {
  }

  /** Names within one listing are distinct, as a filesystem guarantees. */
  predicate UniqueNames(es: seq<Node>) {
    forall i, j :: 0 <= i < j < |es| ==> es[i].name != es[j].name
  }

  lemma LookupUnique(es: seq<Node>, i: int)
    requires UniqueNames(es) && 0 <= i < |es|
    ensures Lookup(es, es[i].name) == Some(es[i])
    decreases |es|
  {
    if i > 0 {
      LookupUnique(es[1..], i - 1);
    }
  }

  lemma {:induction false} TopicsOfSource(es: seq<Node>, parse: Parser, category: string, k: int)
    requires 0 <= k < |TopicsOf(es, parse, category)|
    ensures exists i :: 0 <= i < |es| && TopicOf(es[i], parse, category) == Some(TopicsOf(es, parse, category)[k])
    decreases |es|
  {
    var r := TopicsOf(es, parse, category);
    var head := TopicOf(es[0], parse, category);
    var rest := TopicsOf(es[1..], parse, category);
    assert r == (if head.Some? then [head.value] else []) + rest;
    if head.Some? && k == 0 {
      assert head == Some(r[0]);
    } else {
      var j := if head.Some? then k - 1 else k;
      assert r[k] == rest[j];
      TopicsOfSource(es[1..], parse, category, j);
      var i :| 0 <= i < |es[1..]| && TopicOf(es[1..][i], parse, category) == Some(rest[j]);
      assert es[1..][i] == es[i + 1];
    }
  }

  /**
   * `getTopicContent` reads the very file the catalog listed: for a topic of
   * `getTopics(category)`, its metadata is present iff the catalog's is, they agree on every
   * field but the names.
   */
  lemma TopicContentMatchesCatalog(root: Listing, parse: Parser, category: string, k: int)
    requires root.Entries? && UniqueNames(root.entries)
    requires CategoryListing(root, category).Entries? && UniqueNames(CategoryListing(root, category).entries)
    requires 0 <= k < |GetTopics(root, parse, category)|
    ensures var t := GetTopics(root, parse, category)[k];
            var c := GetTopicContent(root, parse, category, t.name);
            && (c.metadata.Some? <==> t.metadata.Some?)
            && (c.metadata.Some? ==> c.metadata.value.title == t.metadata.value.title
                                     && c.metadata.value.description == t.metadata.value.description
                                     && c.metadata.value.tags == t.metadata.value.tags
                                     && c.metadata.value.kind == t.metadata.value.kind)
  {
    var es := CategoryListing(root, category).entries;
    var t := GetTopics(root, parse, category)[k];
    TopicsOfSource(es, parse, category, k);
    var i :| 0 <= i < |es| && TopicOf(es[i], parse, category) == Some(t);
    LookupUnique(es, i);
    assert TopicListing(root, category, t.name) == es[i].listing;
  }
}

=== FILE: category_filter.dfy ===
/**
 * The category drop-down on the topics index: its options, and which category sections stay
 * visible for a selection.
 */
module CategoryFilter {
  import Strings
  import Seqs
  import opened ContentTypes

  const All: string := "all"
  const Initial: string := All

  datatype SelectOption = SelectOption(value: string, text: string)

  /** `all` first, then one option per category in order, labelled with its name capitalised. */
  function Options(categories: seq<Category>): (r: seq<SelectOption>)
    ensures |r| == |categories| + 1
    ensures r[0] == SelectOption(All, "All Categories")
    ensures forall i :: 0 <= i < |categories| ==>
              r[i + 1].value == categories[i].name && r[i + 1].text == Strings.Capitalize(categories[i].name)
  {
    [SelectOption(All, "All Categories")]
      + seq(|categories|, i requires 0 <= i < |categories| =>
            SelectOption(categories[i].name, Strings.Capitalize(categories[i].name)))
  }

  /** A section is shown when everything is selected or it is the selected category's section. */
  predicate Visible(selection: string, sectionId: string) {
    selection == All || sectionId == selection
  }

  /** The ids of the sections left visible, in page order. */
  function VisibleSections(selection: string, sectionIds: seq<string>): (r: seq<string>)
    ensures Seqs.SubsequenceOf(r, sectionIds)
    ensures forall i :: 0 <= i < |r| ==> Visible(selection, r[i])
    ensures forall i :: 0 <= i < |sectionIds| && Visible(selection, sectionIds[i]) ==> sectionIds[i] in r
  {
    var p := (id: string) => Visible(selection, id);
    Seqs.FilterIsSubsequence(p, sectionIds);
    Seqs.Filter(p, sectionIds)
  }

  /** The initial selection shows every section. */
  lemma InitiallyAllVisible(sectionIds: seq<string>)
    ensures VisibleSections(Initial, sectionIds) == sectionIds
  {
    Seqs.FilterAll((id: string) => Visible(Initial, id), sectionIds);
  }

  /** Choosing a category's option shows exactly that category's sections, unless the category is itself named `all`. */
  lemma OptionShowsItsCategory(categories: seq<Category>, i: nat, sectionIds: seq<string>)
    requires 1 <= i < |Options(categories)|
    requires Options(categories)[i].value != All
    ensures forall id :: id in VisibleSections(Options(categories)[i].value, sectionIds) ==> id == categories[i - 1].name
    ensures forall j :: 0 <= j < |sectionIds| && sectionIds[j] == categories[i - 1].name ==>
              sectionIds[j] in VisibleSections(Options(categories)[i].value, sectionIds)
  {
  }

  /** The quirk: a category named `all` cannot be singled out; its option shows every section. */
  lemma CategoryNamedAll(categories: seq<Category>, i: nat, sectionIds: seq<string>)
    requires 1 <= i < |Options(categories)|
    requires categories[i - 1].name == All
    ensures VisibleSections(Options(categories)[i].value, sectionIds) == sectionIds
  {
    InitiallyAllVisible(sectionIds);
  }
}

=== FILE: content_types.dfy ===
/**
 * The catalog records: content metadata, topics and categories.
 *
 * The metadata mirrors what the catalog builder actually stores at run time: the parsed
 * frontmatter object, cast without validation, with `category` and `topic` always filled in.
 * So `title` and `type`, declared required by the interface, stay optional here.
 */
module ContentTypes {
  import opened Wrappers
  import Strings

  /** The four declared values of `ContentMetadata.type`. */
  datatype ContentType = Text | Video | Audio | Mixed

  datatype ContentMetadata = ContentMetadata(
    title: Option<string>,
    description: Option<string>,
    category: string,
    topic: string,
    tags: Option<seq<string>>,
    kind: Option<ContentType>,
    createdAt: Option<string>,
    updatedAt: Option<string>)

  /** One discoverable content unit: a topic directory holding `content.mdx`. */
  datatype Topic = Topic(
    name: string,
    category: string,
    contentPath: string,
    metadata: Option<ContentMetadata>)

  /** A named category directory and its topics, in directory-listing order. */
  datatype Category = Category(name: string, topics: seq<Topic>)

  function MetadataTitle(t: Topic): Option<string> {
    if t.metadata.Some? then t.metadata.value.title else None
  }

  function MetadataDescription(t: Topic): Option<string> {
    if t.metadata.Some? then t.metadata.value.description else None
  }

  function MetadataTags(t: Topic): Option<seq<string>> {
    if t.metadata.Some? then t.metadata.value.tags else None
  }

  /** The label every listing shows for a topic: `topic.metadata?.title || topic.name`. */
  function DisplayTitle(t: Topic): (r: string)
    ensures Strings.Truthy(MetadataTitle(t)) ==> r == MetadataTitle(t).value
    ensures !Strings.Truthy(MetadataTitle(t)) ==> r == t.name
  {
    Strings.Or(MetadataTitle(t), t.name)
  }

  /** The page route of a topic: `/topics/<category>/<name>`. */
  function TopicHref(category: string, name: string): string {
    "/topics/" + category + "/" + name
  }

  /** The topics of the categories, category by category. */
  function CatalogTopics(cats: seq<Category>): seq<Topic>
    decreases |cats|
  {
    if |cats| == 0 then [] else cats[0].topics + CatalogTopics(cats[1..])
  }
}

=== FILE: font_size.dfy ===
/**
 * The reader's font-size preference: the class changes it makes on the document root and on
 * the article, how a choice is stored, and how a stored choice is restored when the controls
 * mount.
 *
 * Sizes are strings: the controls only offer `normal`, `large` and `xlarge`, but a restored
 * value is whatever local storage holds.
 */
module FontSize {
  import opened Wrappers
  import Strings

  const StorageKey: string := "fontSize"
  const DefaultSize: string := "normal"

  const RootSizeClasses: set<string> := {"font-normal", "font-large", "font-xlarge"}
  const ArticleSizeClasses: set<string> := {"text-base", "text-lg", "text-xl"}

  predicate IsOffered(size: string) {
    size == "normal" || size == "large" || size == "xlarge"
  }

  /** The class lists the preference touches; the article may be absent from the page. */
  datatype Page = Page(root: set<string>, article: Option<set<string>>)

  function RootClass(size: string): string {
    "font-" + size
  }

  /** The article's text class: normal is `text-base`, large is `text-lg`, anything else `text-xl`. */
  function ArticleClass(size: string): (r: string)
    ensures r in ArticleSizeClasses
    ensures size == "normal" <==> r == "text-base"
    ensures size == "large" <==> r == "text-lg"
  {
    if size == "normal" then "text-base" else if size == "large" then "text-lg" else "text-xl"
  }

  lemma OfferedRootClass(size: string)
    ensures RootClass(size) in RootSizeClasses <==> IsOffered(size)
  {
    if RootClass(size) == "font-normal" { assert size == RootClass(size)[5..]; }
    if RootClass(size) == "font-large" { assert size == RootClass(size)[5..]; }
    if RootClass(size) == "font-xlarge" { assert size == RootClass(size)[5..]; }
  }

  /**
   * `applyFontSize`: the root loses every size class and gains `font-<size>`; the article, if
   * present, loses every text-size class and gains the one for the size. Every other class
   * is left as it was.
   */
  function ApplyFontSize(p: Page, size: string): (r: Page)
    ensures RootClass(size) in r.root
    ensures forall c :: c != RootClass(size) ==> (c in r.root <==> c in p.root && c !in RootSizeClasses)
    ensures r.article.Some? <==> p.article.Some?
    ensures r.article.Some? ==> ArticleClass(size) in r.article.value
    ensures r.article.Some? ==> forall c :: c != ArticleClass(size) ==>
              (c in r.article.value <==> c in p.article.value && c !in ArticleSizeClasses)
  {
    var root := p.root - RootSizeClasses + {RootClass(size)};
    var article := if p.article.Some? then Some(p.article.value - ArticleSizeClasses + {ArticleClass(size)}) else None;
    Page(root, article)
  }

  /** For an offered size the root and the article each carry exactly one size class: the chosen one. */
  lemma ExactlyOneSizeClass(p: Page, size: string)
    requires IsOffered(size)
    ensures ApplyFontSize(p, size).root * RootSizeClasses == {RootClass(size)}
    ensures ApplyFontSize(p, size).article.Some? ==>
              ApplyFontSize(p, size).article.value * ArticleSizeClasses == {ArticleClass(size)}
  {
    OfferedRootClass(size);
  }

  /** Applying the same size again changes nothing. */
  lemma ApplyIdempotent(p: Page, size: string)
    ensures ApplyFontSize(ApplyFontSize(p, size), size) == ApplyFontSize(p, size)
  {
    var once := ApplyFontSize(p, size);
    assert once.root - RootSizeClasses + {RootClass(size)} == once.root;
    if once.article.Some? {
      assert once.article.value - ArticleSizeClasses + {ArticleClass(size)} == once.article.value;
    }
  }

  /** After two applications the page looks as if only the second, offered size had been applied. */
  lemma LastSizeWins(p: Page, first: string, second: string)
    requires IsOffered(first)
    ensures ApplyFontSize(ApplyFontSize(p, first), second) == ApplyFontSize(p, second)
  {
    OfferedRootClass(first);
    assert p.root - RootSizeClasses + {RootClass(first)} - RootSizeClasses == p.root - RootSizeClasses;
    if p.article.Some? {
      var a := p.article.value;
      assert a - ArticleSizeClasses + {ArticleClass(first)} - ArticleSizeClasses == a - ArticleSizeClasses;
    }
  }

  /** The controls' state, the stored preference, and the page. */
  datatype Controls = Controls(fontSize: string, stored: Option<string>, page: Page)

  /** `handleFontSizeChange`: remember the size, store it under `fontSize`, apply it. */
  function Change(c: Controls, size: string): (r: Controls)
    ensures r.fontSize == size && r.stored == Some(size)
    ensures r.page == ApplyFontSize(c.page, size)
  {
    Controls(size, Some(size), ApplyFontSize(c.page, size))
  }

  /** On mount, a non-empty stored size is taken and applied; otherwise the state stays `normal` and the page is untouched. */
  function Mount(stored: Option<string>, p: Page): (r: Controls)
    ensures r.stored == stored
    ensures Strings.Truthy(stored) ==> r.fontSize == stored.value && r.page == ApplyFontSize(p, stored.value)
    ensures !Strings.Truthy(stored) ==> r.fontSize == DefaultSize && r.page == p
  {
    if Strings.Truthy(stored) then Controls(stored.value, stored, ApplyFontSize(p, stored.value))
    else Controls(DefaultSize, stored, p)
  }

  /** A chosen size survives a reload: mounting with what was stored restores the choice on the reloaded page. */
  lemma ChoiceSurvivesReload(c: Controls, size: string, reloaded: Page)
    requires IsOffered(size)
    ensures Mount(Change(c, size).stored, reloaded) == Controls(size, Some(size), ApplyFontSize(reloaded, size))
  {
  }
}

=== FILE: home_page.dfy ===
/**
 * The home page: the total topic count in the hero, and the featured-category cards (the
 * first six categories) with their topic counts.
 */
module HomePage {
  import opened Wrappers
  import opened ContentTypes
  import Strings
  import Seqs
  import Catalog

  const FeaturedLimit: nat := 6

  /** `categories.reduce((sum, cat) => sum + cat.topics.length, 0)`: a left fold over the categories. */
  function TopicCount(cats: seq<Category>): nat
    decreases |cats|
  {
    if |cats| == 0 then 0 else TopicCount(cats[..|cats| - 1]) + |cats[|cats| - 1].topics|
  }

  lemma {:induction false} CatalogTopicsAppend(a: seq<Category>, b: seq<Category>)
    ensures CatalogTopics(a + b) == CatalogTopics(a) + CatalogTopics(b)
    decreases |a|
  {
    if |a| == 0 {
      assert a + b == b;
    } else {
      assert (a + b)[0] == a[0];
      assert (a + b)[1..] == a[1..] + b;
      CatalogTopicsAppend(a[1..], b);
    }
  }

  /** The hero's count is the number of topics the catalog lists, category by category. */
  lemma {:induction false} TopicCountIsCatalogSize(cats: seq<Category>)
    ensures TopicCount(cats) == |CatalogTopics(cats)|
    decreases |cats|
  {
    if |cats| > 0 {
      var init := cats[..|cats| - 1];
      var last := cats[|cats| - 1];
      TopicCountIsCatalogSize(init);
      assert init + [last] == cats;
      CatalogTopicsAppend(init, [last]);
      assert CatalogTopics([last]) == last.topics + CatalogTopics([]);
    }
  }

  /** For the built catalog the hero's count is the number of topics `getAllTopics` finds. */
  lemma TotalIsAllTopics(root: Catalog.Listing, parse: Catalog.Parser)
    ensures TopicCount(Catalog.GetAllCategoriesWithTopics(root, parse)) == |Catalog.GetAllTopics(root, parse)|
  {
    TopicCountIsCatalogSize(Catalog.GetAllCategoriesWithTopics(root, parse));
    Catalog.CatalogTopicsAreAllTopics(root, parse);
  }

  /** `topic` for exactly one, `topics` otherwise (zero included). */
  function TopicsWord(n: nat): (r: string)
    ensures r == "topic" <==> n == 1
  {
    if n == 1 then "topic" else "topics"
  }

  /** One featured card: the category's name, its anchor on the topics index, and the count line. */
  datatype Card = Card(name: string, href: string, countText: string)

  function CardOf(c: Category): (r: Card)
    ensures r.name == c.name
    ensures r.href == "/topics#" + c.name
    ensures r.countText == Strings.NatToString(|c.topics|) + " " + TopicsWord(|c.topics|) + " available"
  {
    Card(c.name, "/topics#" + c.name, Strings.NatToString(|c.topics|) + " " + TopicsWord(|c.topics|) + " available")
  }

  /**
   * The rendered home page: the category and topic counts of the stats section and, when there
   * are categories, the featured section.
   */
  datatype HomeView = HomeView(totalCategories: nat, totalTopics: nat, featured: Option<seq<Card>>)

  function Home(cats: seq<Category>): (r: HomeView)
    ensures r.totalCategories == |cats|
    ensures r.totalTopics == |CatalogTopics(cats)|
    ensures r.featured.Some? <==> |cats| > 0
    ensures r.featured.Some? ==> |r.featured.value| == Seqs.Min(FeaturedLimit, |cats|)
    ensures r.featured.Some? ==> forall i :: 0 <= i < |r.featured.value| ==> r.featured.value[i] == CardOf(cats[i])
  {
    TopicCountIsCatalogSize(cats);
    var featured := Seqs.Take(cats, FeaturedLimit);
    HomeView(|cats|, TopicCount(cats),
             if |cats| > 0 then Some(seq(|featured|, i requires 0 <= i < |featured| => CardOf(featured[i]))) else None)
  }

  /**
   * On the built catalog every featured card is a listed category, counts the topics the
   * builder finds in it, and that count is never zero.
   */
  lemma FeaturedCountsAreCategorySizes(root: Catalog.Listing, parse: Catalog.Parser, i: nat)
    requires i < Seqs.Min(FeaturedLimit, |Catalog.GetAllCategoriesWithTopics(root, parse)|)
    ensures var cats := Catalog.GetAllCategoriesWithTopics(root, parse);
            var n := |Catalog.GetTopics(root, parse, cats[i].name)|;
            && cats[i].name in Catalog.GetCategories(root)
            && n >= 1
            && Home(cats).featured.value[i].countText == Strings.NatToString(n) + " " + TopicsWord(n) + " available"
  {
  }
}

=== FILE: layout.dfy ===
/**
 * The root layout: the version label shown in the footer, its fallback when no generated
 * version file exists, and the inline script that applies the theme before first paint.
 */
module Layout {
  import opened Wrappers
  import Strings

  datatype VersionInfo = VersionInfo(version: string, commitHashShort: string, branch: string, buildDate: string)

  /**
   * `getVersionInfo`: the generated version file when it can be loaded; otherwise the package
   * version with `dev` for both commit and branch. The build date is the caller's clock reading.
   */
  function GetVersionInfo(generated: Option<VersionInfo>, packageVersion: string, today: string): (r: VersionInfo)
    ensures generated.Some? ==> r == generated.value
    ensures generated.None? ==> r.version == packageVersion && r.commitHashShort == "dev" && r.branch == "dev" && r.buildDate == today
  {
    match generated
    case Some(info) => info
    case None => VersionInfo(packageVersion, "dev", "dev", today)
  }

  /** The label `${version}+${commitHashShort}`. */
  function VersionLabel(info: VersionInfo): (r: string)
    ensures Strings.StartsWith(r, info.version)
    ensures |r| == |info.version| + 1 + |info.commitHashShort|
    ensures r[|info.version|] == '+' && r[|info.version| + 1..] == info.commitHashShort
  {
    info.version + "+" + info.commitHashShort
  }

  /** When neither part contains `+`, splitting the label at `+` gives back the version and the commit. */
  lemma VersionLabelSplits(info: VersionInfo)
    requires '+' !in info.version && '+' !in info.commitHashShort
    ensures Strings.Split(VersionLabel(info), '+') == [info.version, info.commitHashShort]
  {
    Strings.SplitAround(info.version, info.commitHashShort, '+');
    Strings.SplitWithoutSeparator(info.commitHashShort, '+');
  }

  /** Without a generated version file the label ends in `+dev`. */
  lemma FallbackLabel(packageVersion: string, today: string)
    ensures VersionLabel(GetVersionInfo(None, packageVersion, today)) == packageVersion + "+dev"
  {
  }

  /** The document root as the theme script leaves it. */
  datatype Root = Root(dark: bool, colorScheme: Option<string>)

  /** What reading the stored theme gives: storage may throw, or return a value or null. */
  datatype StorageRead = Throws | Stored(value: Option<string>)

  /** `storedTheme || (prefersDark ? 'dark' : 'light')`. */
  function ResolveTheme(stored: Option<string>, prefersDark: bool): (r: string)
    ensures Strings.Truthy(stored) ==> r == stored.value
    ensures !Strings.Truthy(stored) ==> (r == "dark" <==> prefersDark) && (r == "light" <==> !prefersDark)
  {
    Strings.Or(stored, if prefersDark then "dark" else "light")
  }

  /**
   * The inline theme script. `light` removes the dark class and sets a light colour scheme;
   * any other theme adds the dark class and sets a dark one. If storage throws, the script's
   * catch-all leaves the root untouched.
   */
  function ApplyTheme(storage: StorageRead, prefersDark: bool, root: Root): (r: Root)
    ensures storage.Throws? ==> r == root
    ensures storage.Stored? ==>
              var theme := ResolveTheme(storage.value, prefersDark);
              (r.dark <==> theme != "light") && r.colorScheme == Some(if theme == "light" then "light" else "dark")
  {
    match storage
    case Throws => root
    case Stored(stored) =>
      if ResolveTheme(stored, prefersDark) == "light" then Root(false, Some("light")) else Root(true, Some("dark"))
  }

  /** The dark class and the colour scheme always agree once the script has run. */
  lemma ThemeConsistent(storage: StorageRead, prefersDark: bool, root: Root)
    requires storage.Stored?
    ensures var r := ApplyTheme(storage, prefersDark, root);
            r.colorScheme == Some(if r.dark then "dark" else "light")
  {
  }

  /** A stored choice beats the system preference; with nothing stored the system preference decides. */
  lemma StoredChoiceWins(stored: string, prefersDark: bool, root: Root)
    requires stored != ""
    ensures ApplyTheme(Stored(Some(stored)), prefersDark, root) == ApplyTheme(Stored(Some(stored)), !prefersDark, root)
    ensures ApplyTheme(Stored(None), prefersDark, root).dark == prefersDark
    ensures ApplyTheme(Stored(Some("")), prefersDark, root) == ApplyTheme(Stored(None), prefersDark, root)
  {
  }

  /** Any stored value other than `light` (an unknown `system`, say) selects the dark theme. */
  lemma UnknownStoredThemeIsDark(stored: string, prefersDark: bool, root: Root)
    requires stored != "" && stored != "light"
    ensures ApplyTheme(Stored(Some(stored)), prefersDark, root) == Root(true, Some("dark"))
  {
  }
}

=== FILE: mdx_components.dfy ===
/**
 * The element overrides used when rendering MDX content that make decisions: links to other
 * sites open in a new tab without an opener, code without a language class is styled inline,
 * and divs with a white background are made theme-aware.
 *
 * Props are string-valued attribute maps; an absent key is an undefined prop. A JSX spread
 * `<x a="1" {...props}/>` is the right-biased union `map["a" := "1"] + props`.
 */
module MdxComponents {
  import opened Wrappers
  import Strings

  type Attributes = map<string, string>

  const LinkClass: string := "text-blue-600 dark:text-blue-400 hover:text-blue-700 dark:hover:text-blue-300 underline underline-offset-2 transition-colors focus:outline-none focus:ring-2 focus:ring-blue-500 focus:ring-offset-2 focus:ring-offset-white dark:focus:ring-offset-gray-900 rounded"
  const InlineCodeClass: string := "bg-gray-200 dark:bg-gray-800 px-1.5 py-0.5 rounded text-sm text-blue-700 dark:text-blue-300 font-mono"
  const WhiteClass: string := "bg-white"
  const ThemeBackground: string := " " + WhiteClass + " dark:bg-gray-900"

  function Get(attrs: Attributes, key: string): Option<string> {
    if key in attrs then Some(attrs[key]) else None
  }

  /** An absolute `http://` or `https://` address. */
  predicate IsExternal(href: string) {
    Strings.StartsWith(href, "http://") || Strings.StartsWith(href, "https://")
  }

  /** The `mailto:` exclusion never changes the decision: no external address starts with `mailto:`. */
  lemma ExternalIsNeverMailto(href: string)
    ensures IsExternal(href) ==> !Strings.StartsWith(href, "mailto:")
  {
    if IsExternal(href) {
      assert href[0] == 'h';
    }
  }

  /**
   * The rendered `<a>` attributes. An external link gets `target="_blank"` and
   * `rel="noopener noreferrer"`, overriding any given; any other link, `mailto:` and a missing
   * href included, keeps its props exactly. The link class applies unless the props set one.
   */
  function Link(props: Attributes): (r: Attributes)
    ensures var href := Strings.Or(Get(props, "href"), "");
            && (IsExternal(href) ==> Get(r, "target") == Some("_blank") && Get(r, "rel") == Some("noopener noreferrer"))
            && (forall k :: k in props && (!IsExternal(href) || (k != "target" && k != "rel")) ==> Get(r, k) == Some(props[k]))
            && (forall k :: k in r ==> k in props || k == "className" || (IsExternal(href) && (k == "target" || k == "rel")))
    ensures "className" !in props ==> Get(r, "className") == Some(LinkClass)
  {
    var href := Strings.Or(Get(props, "href"), "");
    var isExternal := IsExternal(href);
    var isMailto := Strings.StartsWith(href, "mailto:");
    var linkProps := if isExternal && !isMailto then props["target" := "_blank"]["rel" := "noopener noreferrer"] else props;
    ExternalIsNeverMailto(href);
    map["className" := LinkClass] + linkProps
  }

  /** A link gets the new-tab attributes exactly when its address is external. */
  lemma NewTabIffExternal(props: Attributes)
    requires "target" !in props
    ensures Get(Link(props), "target") == Some("_blank") <==> IsExternal(Strings.Or(Get(props, "href"), ""))
  {
  }

  /**
   * The rendered `<code>`: without a truthy `className` it is inline code and gets the inline
   * style class, under the props (an empty `className` prop therefore still wins); with one it
   * is a highlighted block and keeps its props alone.
   */
  function Code(props: Attributes): (r: Attributes)
    ensures forall k :: k in props ==> Get(r, k) == Some(props[k])
    ensures Strings.Truthy(Get(props, "className")) ==> r == props
    ensures "className" !in props ==> Get(r, "className") == Some(InlineCodeClass)
    ensures forall k :: k in r ==> k in props || k == "className"
  {
    var isInline := !Strings.Truthy(Get(props, "className"));
    if isInline then map["className" := InlineCodeClass] + props else props
  }

  /** Div props: the class, the inline style object, and every other prop. */
  datatype DivProps = DivProps(className: Option<string>, style: Option<map<string, string>>, rest: Attributes)

  predicate IncludesWhite(v: Option<string>) {
    v.Some? && Strings.Includes(v.value, "white")
  }

  function StyleValue(style: Option<map<string, string>>, key: string): Option<string> {
    if style.Some? && key in style.value then Some(style.value[key]) else None
  }

  /** The white-background test as written, with its `=== 'white'` alternatives. */
  predicate HasWhiteBackground(p: DivProps) {
    || (p.className.Some? && Strings.Includes(p.className.value, "bg-white"))
    || IncludesWhite(StyleValue(p.style, "background"))
    || IncludesWhite(StyleValue(p.style, "backgroundColor"))
    || StyleValue(p.style, "background") == Some("white")
    || StyleValue(p.style, "backgroundColor") == Some("white")
  }

  /** The equality alternatives are implied by the `includes` ones, so the test is three conditions. */
  lemma WhiteTestSimplifies(p: DivProps)
    ensures HasWhiteBackground(p) <==>
              || (p.className.Some? && Strings.Includes(p.className.value, "bg-white"))
              || IncludesWhite(StyleValue(p.style, "background"))
              || IncludesWhite(StyleValue(p.style, "backgroundColor"))
  {
    if StyleValue(p.style, "background") == Some("white") {
      assert Strings.OccursAt("white", "white", 0);
    }
    if StyleValue(p.style, "backgroundColor") == Some("white") {
      assert Strings.OccursAt("white", "white", 0);
    }
  }

  /** Deletes `key` from the style when its value mentions white. */
  function DropWhite(style: map<string, string>, key: string): (r: map<string, string>)
    ensures key in r ==> !Strings.Includes(r[key], "white")
    ensures forall k :: k in r <==> k in style && (k != key || !Strings.Includes(style[k], "white"))
    ensures forall k :: k in r ==> r[k] == style[k]
  {
    if key in style && Strings.Includes(style[key], "white") then style - {key} else style
  }

  /**
   * The rendered `<div>`. A white-background div gets the theme background classes after its
   * own class, and a style object from which `background` and `backgroundColor` are gone when
   * their values mention white, while every other entry, and those two when not white, stays; any other div is passed through unchanged.
   */
  function Div(p: DivProps): (r: DivProps)
    ensures !HasWhiteBackground(p) ==> r == p
    ensures HasWhiteBackground(p) ==>
              && r.rest == p.rest
              && r.className == Some(Strings.Or(p.className, "") + ThemeBackground)
              && r.style.Some?
              && !IncludesWhite(StyleValue(r.style, "background"))
              && !IncludesWhite(StyleValue(r.style, "backgroundColor"))
              && (forall k :: k in r.style.value ==> StyleValue(p.style, k) == Some(r.style.value[k]))
              && (forall k :: StyleValue(p.style, k).Some? && k != "background" && k != "backgroundColor" ==>
                    k in r.style.value)
              && (forall k :: StyleValue(p.style, k).Some? && !IncludesWhite(StyleValue(p.style, k)) ==>
                    k in r.style.value)
  {
    if HasWhiteBackground(p) then
      var style := if p.style.Some? then p.style.value else map[];
      var newStyle := DropWhite(DropWhite(style, "background"), "backgroundColor");
      DivProps(Some(Strings.Or(p.className, "") + ThemeBackground), Some(newStyle), p.rest)
    else p
  }

  /** The rewritten class always carries the `bg-white` class, so the dark variant applies with it. */
  lemma RewrittenDivIsMarked(p: DivProps)
    requires HasWhiteBackground(p)
    ensures Strings.Includes(Div(p).className.value, "bg-white")
  {
    var own := Strings.Or(p.className, "");
    var c := Div(p).className.value;
    assert c == (own + " ") + WhiteClass + " dark:bg-gray-900";
    var i := |own| + 1;
    assert c[i..i + |WhiteClass|] == WhiteClass;
    assert Strings.OccursAt(c, "bg-white", i);
  }
}

=== FILE: media_player.dfy ===
/**
 * The audio and video players' control logic: time display, seeking and volume with their
 * clamps, play and mute toggles, and the keyboard shortcuts with each player's guard against
 * keys typed into form fields.
 *
 * Times and volumes are exact reals; the element's floating-point rounding is not modelled.
 */
module MediaPlayer {
  import opened Wrappers
  import Strings

  datatype PlayerKind = Audio | Video

  /** What a key event was aimed at. */
  datatype KeyTarget = InputField | TextArea | SelectBox | OtherElement

  datatype PlayerState = PlayerState(isPlaying: bool, currentTime: real, duration: real, volume: real, muted: bool)

  /** Paused at the start, duration unknown (0), full volume, not muted. */
  const Initial: PlayerState := PlayerState(false, 0.0, 0.0, 1.0, false)

  const SeekStep: real := 10.0
  const VolumeStep: real := 0.1

  // ---------------------------------------------------------------------------------------
  // Time display
  // ---------------------------------------------------------------------------------------

  /** `Math.floor`. */
  function Floor(x: real): (r: int)
    ensures r as real <= x < r as real + 1.0
  {
    x.Floor
  }

  /** Truncation toward zero, as JavaScript's `%` uses. */
  function Trunc(x: real): (r: int)
    ensures x >= 0.0 ==> r == Floor(x)
    ensures x < 0.0 ==> r == -Floor(-x)
  {
    if x >= 0.0 then Floor(x) else -Floor(-x)
  }

  /** JavaScript's `t % 60`: the remainder takes the sign of `t`. */
  function JsMod60(t: real): real {
    t - 60.0 * Trunc(t / 60.0) as real
  }

  /** `formatTime`: minutes, a colon, then whole seconds padded to two digits. */
  function FormatTime(t: real): string {
    Display(Floor(t / 60.0), Floor(JsMod60(t)))
  }

  function Display(minutes: int, seconds: int): string {
    Strings.IntToString(minutes) + ":" + Strings.PadStart(Strings.IntToString(seconds), 2, '0')
  }

  /** For a non-negative time the seconds part is a whole number below 60 and the minutes count the rest. */
  lemma MinutesAndSeconds(t: real)
    requires t >= 0.0
    ensures var m, ss := Floor(t / 60.0), Floor(JsMod60(t));
            m >= 0 && 0 <= ss < 60 && 60 * m + ss == Floor(t)
  {
    var m := Floor(t / 60.0);
    var rem := JsMod60(t);
    assert rem == t - 60.0 * m as real;
    assert 0.0 <= rem < 60.0;
    var ss := Floor(rem);
    assert (60 * m + ss) as real <= t < (60 * m + ss) as real + 1.0;
  }

  /** Two-digit padding of a number below 60 reads back as that number. */
  lemma PaddedSeconds(ss: nat)
    requires ss < 60
    ensures var p := Strings.PadStart(Strings.NatToString(ss), 2, '0');
            |p| == 2 && Strings.AllDigits(p) && Strings.DigitsValue(p) == ss
  {
    var p := Strings.PadStart(Strings.NatToString(ss), 2, '0');
    if ss < 10 {
      assert p == ['0', Strings.DigitChar(ss)];
      assert p[..1] == ['0'];
      assert p[..1][..0] == [];
      assert Strings.DigitsValue(p[..1]) == 0;
      assert Strings.DigitValue(p[1]) == ss;
    } else {
      assert Strings.NatToString(ss / 10) == [Strings.DigitChar(ss / 10)];
      assert p == [Strings.DigitChar(ss / 10), Strings.DigitChar(ss % 10)];
      assert p[..1] == [Strings.DigitChar(ss / 10)];
      assert p[..1][..0] == [];
      assert Strings.DigitsValue(p[..1]) == ss / 10;
      assert Strings.DigitValue(p[1]) == ss % 10;
    }
  }

  /**
   * `s` reads as `m:ss`: digits, a colon, exactly two digits, the first group worth `m` and
   * the second worth `ss`.
   */
  predicate ShowsMinutesSeconds(s: string, m: nat, ss: nat) {
    var k := |s| - 3;
    && k >= 1 && s[k] == ':'
    && Strings.AllDigits(s[..k]) && Strings.AllDigits(s[k + 1..])
    && Strings.DigitsValue(s[..k]) == m && Strings.DigitsValue(s[k + 1..]) == ss
  }

  /**
   * For a non-negative time the display is `m:ss` with whole seconds below 60, and
   * `60 * m + ss` is the whole number of seconds in the time.
   */
  lemma FormatTimeShape(t: real)
    requires t >= 0.0
    ensures var m, ss := Floor(t / 60.0), Floor(JsMod60(t));
            && m >= 0 && 0 <= ss < 60 && 60 * m + ss == Floor(t)
            && ShowsMinutesSeconds(FormatTime(t), m, ss)
  {
    MinutesAndSeconds(t);
    DisplayShape(Floor(t / 60.0), Floor(JsMod60(t)));
  }

  lemma DisplayShape(m: nat, ss: nat)
    requires ss < 60
    ensures ShowsMinutesSeconds(Display(m, ss), m, ss)
  {
    var ms := Strings.NatToString(m);
    var p := Strings.PadStart(Strings.NatToString(ss), 2, '0');
    DisplayParts(m, ss);
    PaddedSeconds(ss);
    Strings.DigitsValueOfNatToString(m);
    JoinAtColon(ms, p, m, ss);
  }

  lemma DisplayParts(m: nat, ss: nat)
    ensures Display(m, ss) == Strings.NatToString(m) + ":" + Strings.PadStart(Strings.NatToString(ss), 2, '0')
  {
  }

  /** Digits, a colon and two digits read as minutes and seconds. */
  lemma JoinAtColon(ms: string, p: string, m: nat, ss: nat)
    requires |ms| >= 1 && |p| == 2 && Strings.AllDigits(ms) && Strings.AllDigits(p)
    requires Strings.DigitsValue(ms) == m && Strings.DigitsValue(p) == ss
    ensures ShowsMinutesSeconds(ms + ":" + p, m, ss)
  {
    var s := ms + ":" + p;
    assert s[..|ms|] == ms;
    assert s[|ms| + 1..] == p;
  }

  // ---------------------------------------------------------------------------------------
  // Controls
  // ---------------------------------------------------------------------------------------

  function Max(a: real, b: real): real { if a >= b then a else b }
  function Min(a: real, b: real): real { if a <= b then a else b }

  /** `seek(d)`: move by `d` seconds, kept between the start and the duration. */
  function Seek(s: PlayerState, delta: real): (r: PlayerState)
    ensures r == s.(currentTime := r.currentTime)
    ensures 0.0 <= r.currentTime
    ensures s.duration >= 0.0 ==> r.currentTime <= s.duration
    ensures 0.0 <= s.currentTime + delta <= s.duration ==> r.currentTime == s.currentTime + delta
    ensures s.currentTime + delta < 0.0 ==> r.currentTime == 0.0
    ensures s.currentTime + delta > s.duration >= 0.0 ==> r.currentTime == s.duration
  {
    s.(currentTime := Max(0.0, Min(s.duration, s.currentTime + delta)))
  }

  /** `adjustVolume(d)`: change by `d`, kept between 0 and 1. */
  function AdjustVolume(s: PlayerState, delta: real): (r: PlayerState)
    ensures r == s.(volume := r.volume)
    ensures 0.0 <= r.volume <= 1.0
    ensures 0.0 <= s.volume + delta <= 1.0 ==> r.volume == s.volume + delta
    ensures s.volume + delta < 0.0 ==> r.volume == 0.0
    ensures s.volume + delta > 1.0 ==> r.volume == 1.0
  {
    s.(volume := Max(0.0, Min(1.0, s.volume + delta)))
  }

  function TogglePlay(s: PlayerState): (r: PlayerState)
    ensures r.isPlaying != s.isPlaying && r == s.(isPlaying := r.isPlaying)
  {
    s.(isPlaying := !s.isPlaying)
  }

  function ToggleMute(s: PlayerState): (r: PlayerState)
    ensures r.muted != s.muted && r == s.(muted := r.muted)
  {
    s.(muted := !s.muted)
  }

  /** The `ended` event: playback stops, nothing else changes. */
  function Ended(s: PlayerState): (r: PlayerState)
    ensures !r.isPlaying && r == s.(isPlaying := false)
  {
    s.(isPlaying := false)
  }

  /** Both toggles undo themselves. */
  lemma TogglesAreInvolutions(s: PlayerState)
    ensures TogglePlay(TogglePlay(s)) == s
    ensures ToggleMute(ToggleMute(s)) == s
  {
  }

  /** Away from the ends, a step forward and a step back return to the same time, and likewise for volume. */
  lemma StepsUndo(s: PlayerState)
    ensures 0.0 <= s.currentTime && s.currentTime + SeekStep <= s.duration ==>
              Seek(Seek(s, SeekStep), -SeekStep) == s
    ensures 0.0 <= s.volume && s.volume + VolumeStep <= 1.0 ==>
              AdjustVolume(AdjustVolume(s, VolumeStep), -VolumeStep) == s
  {
  }

  /** The download file name: the title, or `audio`. */
  function DownloadName(title: Option<string>): (r: string)
    ensures Strings.Truthy(title) ==> r == title.value
    ensures !Strings.Truthy(title) ==> r == "audio"
  {
    Strings.Or(title, "audio")
  }

  // ---------------------------------------------------------------------------------------
  // Keyboard shortcuts
  // ---------------------------------------------------------------------------------------

  /** Keys aimed at text inputs and text areas are left alone; the audio player also leaves select boxes alone. */
  predicate Ignores(kind: PlayerKind, target: KeyTarget) {
    target == InputField || target == TextArea || (kind == Audio && target == SelectBox)
  }

  /** The players differ only on select boxes. */
  lemma GuardsDiffer(target: KeyTarget)
    ensures Ignores(Audio, target) != Ignores(Video, target) <==> target == SelectBox
  {
  }

  /**
   * A key press: space toggles play, left and right arrows seek 10 seconds back and forward,
   * up and down arrows change volume by 0.1, `m` or `M` toggles mute; any other key, and any
   * key the guard ignores, changes nothing.
   */
  function OnKey(kind: PlayerKind, s: PlayerState, key: string, target: KeyTarget): (r: PlayerState)
    ensures Ignores(kind, target) ==> r == s
    ensures !Ignores(kind, target) && key == " " ==> r == TogglePlay(s)
    ensures !Ignores(kind, target) && key == "ArrowLeft" ==> r == Seek(s, -SeekStep)
    ensures !Ignores(kind, target) && key == "ArrowRight" ==> r == Seek(s, SeekStep)
    ensures !Ignores(kind, target) && key == "ArrowUp" ==> r == AdjustVolume(s, VolumeStep)
    ensures !Ignores(kind, target) && key == "ArrowDown" ==> r == AdjustVolume(s, -VolumeStep)
    ensures !Ignores(kind, target) && (key == "m" || key == "M") ==> r == ToggleMute(s)
    ensures key !in {" ", "ArrowLeft", "ArrowRight", "ArrowUp", "ArrowDown", "m", "M"} ==> r == s
  {
    if Ignores(kind, target) then s
    else if key == " " then TogglePlay(s)
    else if key == "ArrowLeft" then Seek(s, -SeekStep)
    else if key == "ArrowRight" then Seek(s, SeekStep)
    else if key == "ArrowUp" then AdjustVolume(s, VolumeStep)
    else if key == "ArrowDown" then AdjustVolume(s, -VolumeStep)
    else if key == "m" || key == "M" then ToggleMute(s)
    else s
  }

  /** Time within the media and volume within [0, 1]. */
  predicate InRange(s: PlayerState) {
    0.0 <= s.currentTime <= s.duration && 0.0 <= s.volume <= 1.0
  }

  /** No key press takes the time or the volume out of range. */
  lemma OnKeyKeepsRange(kind: PlayerKind, s: PlayerState, key: string, target: KeyTarget)
    requires InRange(s)
    ensures InRange(OnKey(kind, s, key, target))
  {
  }

  /** A run of key presses. */
  function OnKeys(kind: PlayerKind, s: PlayerState, keys: seq<(string, KeyTarget)>): PlayerState
    decreases |keys|
  {
    if |keys| == 0 then s else OnKeys(kind, OnKey(kind, s, keys[0].0, keys[0].1), keys[1..])
  }

  /** Starting from the initial state, any run of key presses keeps time and volume in range. */
  lemma {:induction false} OnKeysKeepRange(kind: PlayerKind, s: PlayerState, keys: seq<(string, KeyTarget)>)
    requires InRange(s)
    ensures InRange(OnKeys(kind, s, keys))
    decreases |keys|
  {
    if |keys| > 0 {
      OnKeyKeepsRange(kind, s, keys[0].0, keys[0].1);
      OnKeysKeepRange(kind, OnKey(kind, s, keys[0].0, keys[0].1), keys[1..]);
    }
  }

  lemma InitialInRange()
    ensures InRange(Initial)
  {
  }
}

=== FILE: not_found.dfy ===
/**
 * The 404 page's suggestions: the first six topics of the catalog, each relabelled with the
 * name of the category that lists it, rendered as links to their pages.
 */
module NotFound {
  import opened Wrappers
  import opened ContentTypes
  import Strings
  import Seqs
  import Search
  import Catalog

  const SuggestionLimit: nat := 6

  /** `{ ...topic, category: cat.name }`: the topic with its category overwritten by its listing category. */
  function Relabel(e: Search.Entry): (r: Topic)
    ensures r.name == e.topic.name && r.contentPath == e.topic.contentPath && r.metadata == e.topic.metadata
    ensures r.category == e.categoryName
  {
    e.topic.(category := e.categoryName)
  }

  /** `flatMap` over the categories, then `slice(0, 6)`. */
  function Suggestions(cats: seq<Category>): (r: seq<Topic>)
    ensures |r| == Seqs.Min(SuggestionLimit, |CatalogTopics(cats)|)
    ensures forall i :: 0 <= i < |r| ==> r[i] == CatalogTopics(cats)[i].(category := r[i].category)
    ensures forall i :: 0 <= i < |r| ==>
              exists k :: 0 <= k < |cats| && r[i].category == cats[k].name && CatalogTopics(cats)[i] in cats[k].topics
    ensures forall i :: 0 <= i < |r| ==> r[i].category == Search.Flatten(cats)[i].categoryName
  {
    var entries := Search.Flatten(cats);
    Seqs.Take(seq(|entries|, i requires 0 <= i < |entries| => Relabel(entries[i])), SuggestionLimit)
  }

  /**
   * The `j`-th topic of category `k`, when it is among the first six, is suggested under
   * `k`'s own name.
   */
  lemma SuggestionLabels(cats: seq<Category>, k: nat, j: nat)
    requires k < |cats| && j < |cats[k].topics|
    requires |Search.Flatten(cats[..k])| + j < SuggestionLimit
    ensures var i := |Search.Flatten(cats[..k])| + j;
            i < |Suggestions(cats)| && Suggestions(cats)[i] == cats[k].topics[j].(category := cats[k].name)
  {
    Search.FlattenLabels(cats, k, j);
  }

  /** A suggestion card: the category line, the title, the link, and the description when truthy. */
  datatype Card = Card(category: string, title: string, href: string, description: Option<string>)

  function CardOf(t: Topic): (r: Card)
    ensures r.href == TopicHref(t.category, t.name)
    ensures r.title == DisplayTitle(t) && r.category == t.category
    ensures r.description.Some? <==> Strings.Truthy(MetadataDescription(t))
    ensures r.description.Some? ==> r.description == MetadataDescription(t)
  {
    Card(t.category, DisplayTitle(t), TopicHref(t.category, t.name),
         if Strings.Truthy(MetadataDescription(t)) then MetadataDescription(t) else None)
  }

  /** The "Popular Topics" section: present only when there is something to suggest. */
  function PopularTopics(cats: seq<Category>): (r: Option<seq<Card>>)
    ensures r.Some? <==> |CatalogTopics(cats)| > 0
    ensures r.Some? ==> |r.value| == |Suggestions(cats)| <= SuggestionLimit
    ensures r.Some? ==> forall i :: 0 <= i < |r.value| ==> r.value[i] == CardOf(Suggestions(cats)[i])
  {
    var s := Suggestions(cats);
    if |s| > 0 then Some(seq(|s|, i requires 0 <= i < |s| => CardOf(s[i]))) else None
  }

  /**
   * On the built catalog the relabelling changes nothing, since every topic already carries
   * its category's name: the suggestions are the first six topics `getAllTopics` finds.
   */
  lemma SuggestionsAreFirstTopics(root: Catalog.Listing, parse: Catalog.Parser)
    ensures Suggestions(Catalog.GetAllCategoriesWithTopics(root, parse)) == Seqs.Take(Catalog.GetAllTopics(root, parse), SuggestionLimit)
  {
    var cats := Catalog.GetAllCategoriesWithTopics(root, parse);
    var r := Suggestions(cats);
    Catalog.CatalogTopicsAreAllTopics(root, parse);
    forall i | 0 <= i < |r|
      ensures r[i] == CatalogTopics(cats)[i]
    {
      var k :| 0 <= k < |cats| && r[i].category == cats[k].name && CatalogTopics(cats)[i] in cats[k].topics;
      assert CatalogTopics(cats)[i].category == cats[k].name;
    }
  }

  /** Every suggestion links to the page of a topic the builder found. */
  lemma SuggestionsLinkToTopics(root: Catalog.Listing, parse: Catalog.Parser, i: nat)
    requires PopularTopics(Catalog.GetAllCategoriesWithTopics(root, parse)).Some?
    requires i < |PopularTopics(Catalog.GetAllCategoriesWithTopics(root, parse)).value|
    ensures exists t :: t in Catalog.GetAllTopics(root, parse)
              && PopularTopics(Catalog.GetAllCategoriesWithTopics(root, parse)).value[i].href == TopicHref(t.category, t.name)
  {
    SuggestionsAreFirstTopics(root, parse);
    var t := Catalog.GetAllTopics(root, parse)[i];
    assert t in Catalog.GetAllTopics(root, parse);
  }
}

=== FILE: reading_time.dfy ===
/**
 * Estimated reading time: markdown syntax and HTML tags are stripped, whitespace is
 * normalised, the words are counted, and the count is divided by 200 words a minute, rounded
 * up, with a floor of one minute.
 *
 * Each `replace` is a left-to-right scan: where the pattern matches, the match is replaced
 * and the scan resumes after it; where it does not, the character is kept and the scan moves
 * on by one. The replacement text is never scanned again.
 */
module ReadingTime {
  import opened Wrappers
  import Strings

  const WordsPerMinute: nat := 200
  const Fence: string := "```"

  /** The first position at or after `from` where `sub` occurs. */
  function Find(s: string, sub: string, from: nat): (r: Option<nat>)
    requires from <= |s|
    ensures r.Some? ==> from <= r.value && r.value + |sub| <= |s| && Strings.OccursAt(s, sub, r.value)
    ensures r.Some? ==> forall k :: from <= k < r.value ==> !Strings.OccursAt(s, sub, k)
    ensures r.None? ==> forall k :: from <= k <= |s| ==> !Strings.OccursAt(s, sub, k)
    decreases |s| - from
  {
    if from + |sub| > |s| then None
    else if Strings.OccursAt(s, sub, from) then Some(from)
    else if from == |s| then None
    else Find(s, sub, from + 1)
  }

  /** The first position at or after `from` holding `c`. */
  function IndexOf(s: string, c: char, from: nat): (r: Option<nat>)
    requires from <= |s|
    ensures r.Some? ==> from <= r.value < |s| && s[r.value] == c
                        && forall k :: from <= k < r.value ==> s[k] != c
    ensures r.None? ==> forall k :: from <= k < |s| ==> s[k] != c
    decreases |s| - from
  {
    if from == |s| then None
    else if s[from] == c then Some(from)
    else IndexOf(s, c, from + 1)
  }

  /** Every character of `r` is a character of `s`. */
  predicate CharsFrom(r: string, s: string) {
    forall i :: 0 <= i < |r| ==> r[i] in s
  }

  lemma SuffixChars(r: string, s: string, k: nat)
    requires k <= |s| && CharsFrom(r, s[k..])
    ensures CharsFrom(r, s)
  {
    forall i | 0 <= i < |r| ensures r[i] in s {
      var j :| 0 <= j < |s[k..]| && s[k..][j] == r[i];
      assert s[k + j] == r[i];
    }
  }

  /** `/```[\s\S]*?```/g` replaced by nothing: a fence up to the nearest closing fence goes. */
  function RemoveFencedCode(s: string): (r: string)
    ensures CharsFrom(r, s)
    ensures !Strings.Includes(s, Fence) ==> r == s
    decreases |s|
  {
    if |s| == 0 then ""
    else
      var close := if Strings.OccursAt(s, Fence, 0) then Find(s, Fence, 3) else None;
      if close.Some? then
        var rest := RemoveFencedCode(s[close.value + 3..]);
        SuffixChars(rest, s, close.value + 3);
        assert Strings.OccursAt(s, Fence, 0);
        rest
      else
        var rest := RemoveFencedCode(s[1..]);
        SuffixChars(rest, s, 1);
        NotIncludedInTail(s, Fence);
        [s[0]] + rest
  }

  /** What does not occur in a string does not occur in its tail either. */
  lemma NotIncludedInTail(s: string, sub: string)
    requires |s| > 0
    ensures !Strings.Includes(s, sub) ==> !Strings.Includes(s[1..], sub)
  {
    forall i | 0 <= i <= |s[1..]| - |sub| && Strings.OccursAt(s[1..], sub, i)
      ensures Strings.OccursAt(s, sub, i + 1)
    {
      assert s[1..][i..i + |sub|] == s[i + 1..i + 1 + |sub|];
    }
  }

  /**
   * A fenced block at the front, with no backtick inside, is dropped whole together with both
   * fences, and the scan goes on after the closing fence.
   */
  lemma FenceRemoved(m: string, t: string)
    requires '`' !in m
    ensures RemoveFencedCode(Fence + m + Fence + t) == RemoveFencedCode(t)
  {
    var s := Fence + m + Fence + t;
    var e := 3 + |m|;
    assert s[0..3] == Fence;
    assert s[e..e + 3] == Fence;
    forall k | 3 <= k < e
      ensures !Strings.OccursAt(s, Fence, k)
    {
      assert s[k] == m[k - 3];
    }
    assert Strings.OccursAt(s, Fence, e);
    var close := Find(s, Fence, 3);
    assert close.Some? && close.value >= e;
    assert close == Some(e);
    assert s[e + 3..] == t;
  }

  /** Putting the head back in front of the tail followed by more text. */
  lemma ConsAppend(a: string, rest: string)
    requires |a| > 0
    ensures [a[0]] + (a[1..] + rest) == a + rest
  {
    assert a == [a[0]] + a[1..];
  }

  /** A character other than a backtick cannot open a fence: it is kept and the scan moves on. */
  lemma FenceKeep(s: string)
    requires |s| > 0 && s[0] != '`'
    ensures RemoveFencedCode(s) == [s[0]] + RemoveFencedCode(s[1..])
  {
    if |s| >= 3 {
      assert s[0..3][0] == s[0];
    }
    assert !Strings.OccursAt(s, Fence, 0);
  }

  /**
   * Text without a backtick is kept as it is and the scan goes on after it: together with
   * `FenceRemoved`, a fenced block contributes nothing wherever it sits.
   */
  lemma {:induction false} FencePrefix(a: string, t: string)
    requires '`' !in a
    ensures RemoveFencedCode(a + t) == a + RemoveFencedCode(t)
    decreases |a|
  {
    if |a| > 0 {
      var s := a + t;
      assert s[0] == a[0] && s[1..] == a[1..] + t;
      FenceKeep(s);
      FencePrefix(a[1..], t);
      ConsAppend(a, RemoveFencedCode(t));
    } else {
      assert a + t == t;
    }
  }

  /**
   * A global replace of `opener`, one or more characters other than `closer`, then `closer`,
   * by nothing: `/`[^`]+`/g` for inline code and `/<[^>]+>/g` for tags. Text in which
   * `opener` never occurs comes back unchanged.
   */
  function RemoveSpans(s: string, opener: char, closer: char): (r: string)
    ensures CharsFrom(r, s)
    ensures opener !in s ==> r == s
    decreases |s|
  {
    if |s| == 0 then ""
    else
      var closing := if s[0] == opener then IndexOf(s, closer, 1) else None;
      if closing.Some? && closing.value > 1 then
        var rest := RemoveSpans(s[closing.value + 1..], opener, closer);
        SuffixChars(rest, s, closing.value + 1);
        rest
      else
        var rest := RemoveSpans(s[1..], opener, closer);
        SuffixChars(rest, s, 1);
        assert opener !in s ==> opener !in s[1..];
        [s[0]] + rest
  }

  /** A span at the front (an opener, a non-empty run free of the closer, the closer) is dropped whole. */
  lemma SpanRemoved(opener: char, closer: char, m: string, t: string)
    requires |m| > 0 && closer !in m
    ensures RemoveSpans([opener] + m + [closer] + t, opener, closer) == RemoveSpans(t, opener, closer)
  {
    var s := [opener] + m + [closer] + t;
    var e := |m| + 1;
    assert s[e] == closer;
    assert forall k :: 1 <= k < e ==> s[k] == m[k - 1];
    var closing := IndexOf(s, closer, 1);
    assert closing == Some(e);
    assert s[e + 1..] == t;
  }

  /** A character other than the opener cannot start a span: it is kept and the scan moves on. */
  lemma SpansKeep(s: string, opener: char, closer: char)
    requires |s| > 0 && s[0] != opener
    ensures RemoveSpans(s, opener, closer) == [s[0]] + RemoveSpans(s[1..], opener, closer)
  {
  }

  /**
   * Text without the opener is kept as it is and the scan goes on after it: together with
   * `SpanRemoved`, a delimited span contributes nothing wherever it sits.
   */
  lemma {:induction false} SpansPrefix(a: string, t: string, opener: char, closer: char)
    requires opener !in a
    ensures RemoveSpans(a + t, opener, closer) == a + RemoveSpans(t, opener, closer)
    decreases |a|
  {
    if |a| > 0 {
      var s := a + t;
      assert s[0] == a[0] && s[1..] == a[1..] + t;
      SpansKeep(s, opener, closer);
      SpansPrefix(a[1..], t, opener, closer);
      ConsAppend(a, RemoveSpans(t, opener, closer));
    } else {
      assert a + t == t;
    }
  }

  /** Inline code is delimited by a backtick at each end. */
  const Backtick := '`'

  /**
   * `/\[([^\]]+)\]\([^\)]+\)/` matches at the start of `s` with the `]` closing the text at
   * `k` and the `)` closing the target at `l`.
   */
  predicate LinkShape(s: string, k: nat, l: nat) {
    && 1 < k && k + 2 < l < |s| && s[0] == '[' && s[k] == ']' && s[k + 1] == '(' && s[l] == ')'
    && (forall i :: 1 <= i < k ==> s[i] != ']')
    && (forall i :: k + 2 <= i < l ==> s[i] != ')')
  }

  /** Where the link pattern matches at the start of `s`, if it does. */
  function LinkAt(s: string): (r: Option<(nat, nat)>)
    ensures r.Some? ==> LinkShape(s, r.value.0, r.value.1)
  {
    if |s| == 0 || s[0] != '[' then None
    else
      match IndexOf(s, ']', 1)
      case None => None
      case Some(k) =>
        if k == 1 || k + 1 >= |s| || s[k + 1] != '(' then None
        else
          match IndexOf(s, ')', k + 2)
          case None => None
          case Some(l) => if l == k + 2 then None else Some((k, l))
  }

  /** A link at the start of `s` is always found, and it is the only one that could be. */
  lemma LinkAtComplete(s: string, k: nat, l: nat)
    requires LinkShape(s, k, l)
    ensures LinkAt(s) == Some((k, l))
  {
    assert IndexOf(s, ']', 1) == Some(k);
    assert IndexOf(s, ')', k + 2) == Some(l);
  }

  /** `/\[([^\]]+)\]\([^\)]+\)/g` replaced by `$1`: a markdown link becomes its text. */
  function LinksToText(s: string): (r: string)
    ensures CharsFrom(r, s)
    decreases |s|
  {
    if |s| == 0 then ""
    else
      match LinkAt(s)
      case Some((k, l)) =>
        var rest := LinksToText(s[l + 1..]);
        SuffixChars(rest, s, l + 1);
        s[1..k] + rest
      case None =>
        var rest := LinksToText(s[1..]);
        SuffixChars(rest, s, 1);
        [s[0]] + rest
  }

  /** A link `[text](url)` at the front leaves exactly its text, and the scan goes on after it. */
  lemma LinkReplaced(text: string, url: string, t: string)
    requires |text| > 0 && ']' !in text && |url| > 0 && ')' !in url
    ensures LinksToText("[" + text + "](" + url + ")" + t) == text + LinksToText(t)
  {
    var s := "[" + text + "](" + url + ")" + t;
    var k := 1 + |text|;
    var l := k + 2 + |url|;
    forall i | 1 <= i < k ensures s[i] != ']' {
      assert s[i] == text[i - 1];
    }
    forall i | k + 2 <= i < l ensures s[i] != ')' {
      assert s[i] == url[i - k - 2];
    }
    assert LinkShape(s, k, l);
    LinkAtComplete(s, k, l);
    assert s[1..k] == text;
    assert s[l + 1..] == t;
  }

  /** A character other than `[` cannot start a link: it is kept and the scan moves on. */
  lemma LinksKeep(s: string)
    requires |s| > 0 && s[0] != '['
    ensures LinksToText(s) == [s[0]] + LinksToText(s[1..])
  {
    assert LinkAt(s).None?;
  }

  /**
   * Text without `[` is kept as it is and the scan goes on after it: together with
   * `LinkReplaced`, a link contributes exactly its text wherever it sits.
   */
  lemma {:induction false} LinksPrefix(a: string, t: string)
    requires '[' !in a
    ensures LinksToText(a + t) == a + LinksToText(t)
    decreases |a|
  {
    if |a| > 0 {
      var s := a + t;
      assert s[0] == a[0] && s[1..] == a[1..] + t;
      LinksKeep(s);
      LinksPrefix(a[1..], t);
      ConsAppend(a, LinksToText(t));
    } else {
      assert a + t == t;
    }
  }

  /** The markdown formatting characters `[#*_~`]`. */
  predicate IsFormatting(c: char) {
    c == '#' || c == '*' || c == '_' || c == '~' || c == '`'
  }

  /** `/[#*_~`]/g` replaced by nothing. */
  function RemoveFormatting(s: string): (r: string)
    ensures CharsFrom(r, s)
    ensures forall i :: 0 <= i < |r| ==> !IsFormatting(r[i])
    ensures forall i :: 0 <= i < |s| && !IsFormatting(s[i]) ==> s[i] in r
    decreases |s|
  {
    if |s| == 0 then ""
    else
      var rest := RemoveFormatting(s[1..]);
      SuffixChars(rest, s, 1);
      if IsFormatting(s[0]) then rest else [s[0]] + rest
  }

  /** A single character is dropped iff it is a formatting character. */
  lemma RemoveFormattingOne(c: char)
    ensures RemoveFormatting([c]) == if IsFormatting(c) then [] else [c]
  {
    assert [c][1..] == [];
  }

  /**
   * Formatting removal works character by character: it distributes over concatenation, so
   * with `RemoveFormattingOne` the kept characters keep their order and multiplicity.
   */
  lemma {:induction false} RemoveFormattingAppend(a: string, b: string)
    ensures RemoveFormatting(a + b) == RemoveFormatting(a) + RemoveFormatting(b)
    decreases |a|
  {
    if |a| == 0 {
      assert a + b == b;
    } else {
      assert (a + b)[0] == a[0];
      assert (a + b)[1..] == a[1..] + b;
      RemoveFormattingAppend(a[1..], b);
    }
  }

  /** The text whose words are counted. */
  function PlainText(content: string): string {
    Strings.Trim(Strings.CollapseRuns(Stripped(content), Strings.IsWhitespace, ' '))
  }

  /** Every whitespace character is a plain space, and no two spaces are adjacent. */
  predicate SingleSpaced(t: string) {
    && (forall i :: 0 <= i < |t| && Strings.IsWhitespace(t[i]) ==> t[i] == ' ')
    && (forall i :: 0 <= i < |t| - 1 ==> !(t[i] == ' ' && t[i + 1] == ' '))
  }

  /** Single-spaced, with no space at either end: the shape of the plain text. */
  predicate Normalized(t: string) {
    SingleSpaced(t) && (|t| > 0 ==> t[0] != ' ' && t[|t| - 1] != ' ')
  }

  predicate NoFormatting(t: string) {
    forall i :: 0 <= i < |t| ==> !IsFormatting(t[i])
  }

  /** The characters that survive stripping, before whitespace is normalised. */
  function Stripped(content: string): string {
    RemoveSpans(RemoveFormatting(LinksToText(RemoveSpans(RemoveFencedCode(content), Backtick, Backtick))), '<', '>')
  }

  lemma StrippedHasNoFormatting(content: string)
    ensures NoFormatting(Stripped(content))
  {
    var unformatted := RemoveFormatting(LinksToText(RemoveSpans(RemoveFencedCode(content), Backtick, Backtick)));
    var stripped := RemoveSpans(unformatted, '<', '>');
    forall i | 0 <= i < |stripped| ensures !IsFormatting(stripped[i]) {
      var j :| 0 <= j < |unformatted| && unformatted[j] == stripped[i];
    }
  }

  /** Collapsing whitespace runs to spaces leaves single spaces and adds no other character. */
  lemma CollapsedShape(s: string)
    requires NoFormatting(s)
    ensures SingleSpaced(Strings.CollapseRuns(s, Strings.IsWhitespace, ' '))
    ensures NoFormatting(Strings.CollapseRuns(s, Strings.IsWhitespace, ' '))
  {
    var c := Strings.CollapseRuns(s, Strings.IsWhitespace, ' ');
    forall i | 0 <= i < |c| ensures !IsFormatting(c[i]) {
      if c[i] != ' ' {
        var j :| 0 <= j < |s| && s[j] == c[i];
      }
    }
  }

  /** Any slice of single-spaced text without formatting is again both. */
  lemma SliceShape(c: string, lo: nat, hi: nat)
    requires lo <= hi <= |c| && SingleSpaced(c) && NoFormatting(c)
    ensures SingleSpaced(c[lo..hi]) && NoFormatting(c[lo..hi])
  {
    var t := c[lo..hi];
    assert forall i :: 0 <= i < |t| ==> t[i] == c[lo + i];
  }

  /** Trimming cuts a slice out of the middle of the text. */
  lemma TrimIsSlice(c: string)
    ensures |c| - |Strings.TrimStart(c)| + |Strings.Trim(c)| <= |c|
    ensures Strings.Trim(c) == c[|c| - |Strings.TrimStart(c)|..|c| - |Strings.TrimStart(c)| + |Strings.Trim(c)|]
  {
    var front := Strings.TrimStart(c);
    var t := Strings.TrimEnd(front);
    assert t == Strings.Trim(c);
    var a := |c| - |front|;
    assert front == c[a..];
    assert t == front[..|t|];
  }

  /** Trimming single-spaced text leaves it normalised. */
  lemma TrimNormalizes(c: string)
    requires SingleSpaced(c) && NoFormatting(c)
    ensures Normalized(Strings.Trim(c)) && NoFormatting(Strings.Trim(c))
  {
    TrimIsSlice(c);
    var a := |c| - |Strings.TrimStart(c)|;
    SliceShape(c, a, a + |Strings.Trim(c)|);
  }

  /** The plain text is normalised and holds no markdown formatting character. */
  lemma PlainTextShape(content: string)
    ensures Normalized(PlainText(content))
    ensures NoFormatting(PlainText(content))
  {
    var stripped := Stripped(content);
    StrippedHasNoFormatting(content);
    CollapsedShape(stripped);
    TrimNormalizes(Strings.CollapseRuns(stripped, Strings.IsWhitespace, ' '));
  }

  /** The run of non-whitespace characters starting at `i` ends here. */
  function WordEnd(s: string, i: nat): (r: nat)
    requires i <= |s|
    ensures i <= r <= |s|
    ensures forall k :: i <= k < r ==> !Strings.IsWhitespace(s[k])
    ensures r == |s| || Strings.IsWhitespace(s[r])
    decreases |s| - i
  {
    if i < |s| && !Strings.IsWhitespace(s[i]) then WordEnd(s, i + 1) else i
  }

  /**
   * `text.split(/\s+/).filter(word => word.length > 0)`: the maximal runs of non-whitespace
   * characters, in order.
   */
  function Words(s: string): (r: seq<string>)
    ensures forall i :: 0 <= i < |r| ==> |r[i]| > 0
    ensures forall i, j :: 0 <= i < |r| && 0 <= j < |r[i]| ==> !Strings.IsWhitespace(r[i][j])
    decreases |s|
  {
    if |s| == 0 then []
    else if Strings.IsWhitespace(s[0]) then Words(s[1..])
    else
      var k := WordEnd(s, 0);
      [s[..k]] + Words(s[k..])
  }

  /** A text starting with a word splits into that word and the words after it. */
  lemma WordsCons(t: string)
    requires |t| > 0 && !Strings.IsWhitespace(t[0])
    ensures Words(t) == [t[..WordEnd(t, 0)]] + Words(t[WordEnd(t, 0)..])
  {
  }

  /** Leading whitespace contributes no word. */
  lemma WordsSkipSpace(t: string, k: nat)
    requires k < |t| && Strings.IsWhitespace(t[k])
    ensures Words(t[k..]) == Words(t[k + 1..])
  {
    assert t[k..][0] == t[k];
    assert t[k..][1..] == t[k + 1..];
  }

  lemma JoinCons(w: string, ws: seq<string>, sep: string)
    requires |ws| > 0
    ensures Strings.Join([w] + ws, sep) == w + sep + Strings.Join(ws, sep)
  {
    assert ([w] + ws)[1..] == ws;
  }

  /** What follows a separating space in a normalised text is normalised again. */
  lemma NormalizedAfterSpace(t: string, k: nat)
    requires Normalized(t) && 0 < k < |t| && t[k] == ' '
    ensures k + 1 < |t| && Normalized(t[k + 1..])
  {
    assert t[k + 1] != ' ';
    var rest := t[k + 1..];
    assert forall i :: 0 <= i < |rest| ==> rest[i] == t[k + 1 + i];
  }

  /** Joining the words of a normalised text with single spaces gives the text back. */
  lemma {:induction false} JoinWords(t: string)
    requires Normalized(t)
    ensures Strings.Join(Words(t), " ") == t
    ensures |t| > 0 ==> |Words(t)| > 0
    decreases |t|
  {
    if |t| > 0 {
      var k := WordEnd(t, 0);
      WordsCons(t);
      if k == |t| {
        assert Words(t[k..]) == [];
        assert t[..k] == t;
      } else {
        NormalizedAfterSpace(t, k);
        JoinWords(t[k + 1..]);
        JoinWordsStep(t, k);
      }
    }
  }

  /** The inductive step: the first word, a space, and the words of the rest. */
  lemma JoinWordsStep(t: string, k: nat)
    requires |t| > 0 && !Strings.IsWhitespace(t[0]) && k == WordEnd(t, 0) && k < |t| && t[k] == ' '
    requires |Words(t[k + 1..])| > 0 && Strings.Join(Words(t[k + 1..]), " ") == t[k + 1..]
    ensures Strings.Join(Words(t), " ") == t && |Words(t)| > 0
  {
    var rest := t[k + 1..];
    WordsCons(t);
    WordsSkipSpace(t, k);
    JoinCons(t[..k], Words(rest), " ");
    assert t == t[..k] + " " + rest;
  }

  /** The counted words are exactly the plain text cut at its single spaces. */
  lemma PlainTextWords(content: string)
    ensures Strings.Join(Words(PlainText(content)), " ") == PlainText(content)
  {
    PlainTextShape(content);
    JoinWords(PlainText(content));
  }

  /** `Math.max(1, Math.ceil(n / 200))`. */
  function Minutes(n: nat): (r: nat)
    ensures r >= 1
    ensures r * WordsPerMinute >= n
    ensures r == 1 || (r - 1) * WordsPerMinute < n
  {
    var ceil := (n + WordsPerMinute - 1) / WordsPerMinute;
    if ceil < 1 then 1 else ceil
  }

  /** More words never read faster. */
  lemma MinutesMonotone(n: nat, m: nat)
    requires n <= m
    ensures Minutes(n) <= Minutes(m)
  {
  }

  /** Up to 200 words is one minute. */
  lemma OneMinute(n: nat)
    ensures Minutes(n) == 1 <==> n <= WordsPerMinute
  {
  }

  /** The estimate for a piece of content. */
  function CalculateReadingTime(content: string): (r: nat)
    ensures r >= 1
    ensures r * WordsPerMinute >= |Words(PlainText(content))|
    ensures r == 1 || (r - 1) * WordsPerMinute < |Words(PlainText(content))|
  {
    Minutes(|Words(PlainText(content))|)
  }
}

=== FILE: recently_viewed.dfy ===
/**
 * The "Recently Viewed" panel: the stored views, most recent first, at most five.
 * `Array.prototype.sort` is stable, so the model sorts with a stable insertion sort on
 * `viewedAt`, descending.
 */
module RecentlyViewed {
  import opened Wrappers
  import opened ViewTracker
  import Seqs

  /** How many views the panel shows. */
  const MaxShown: nat := 5

  predicate NonIncreasing(s: seq<ViewedTopic>) {
    forall i, j :: 0 <= i < j < |s| ==> s[i].viewedAt >= s[j].viewedAt
  }

  /** Insert `x` before the first entry that is not more recent than it. */
  function InsertByRecency(x: ViewedTopic, s: seq<ViewedTopic>): (r: seq<ViewedTopic>)
    requires NonIncreasing(s)
    ensures NonIncreasing(r)
    ensures multiset(r) == multiset(s) + multiset{x}
    decreases |s|
  {
    if |s| == 0 || s[0].viewedAt <= x.viewedAt then [x] + s
    else
      var rest := InsertByRecency(x, s[1..]);
      InsertBelowHead(x, s, rest);
      [s[0]] + rest
  }

  lemma InsertBelowHead(x: ViewedTopic, s: seq<ViewedTopic>, rest: seq<ViewedTopic>)
    requires |s| > 0 && NonIncreasing(s) && s[0].viewedAt > x.viewedAt
    requires NonIncreasing(rest) && multiset(rest) == multiset(s[1..]) + multiset{x}
    ensures NonIncreasing([s[0]] + rest)
    ensures multiset([s[0]] + rest) == multiset(s) + multiset{x}
  {
    assert s == [s[0]] + s[1..];
    forall j | 0 <= j < |rest| ensures rest[j].viewedAt <= s[0].viewedAt {
      assert rest[j] in multiset(rest);
      if rest[j] != x {
        assert rest[j] in multiset(s[1..]);
        assert rest[j] in s[1..];
      }
    }
  }

  /** `sort((a, b) => b.viewedAt - a.viewedAt)`: a permutation, most recent first. */
  function SortByRecency(s: seq<ViewedTopic>): (r: seq<ViewedTopic>)
    ensures NonIncreasing(r)
    ensures multiset(r) == multiset(s)
    decreases |s|
  {
    if |s| == 0 then []
    else
      assert s == [s[0]] + s[1..];
      InsertByRecency(s[0], SortByRecency(s[1..]))
  }

  /** The entries viewed at time `t`, in their order in `s`. */
  function AtTime(t: int, s: seq<ViewedTopic>): seq<ViewedTopic> {
    Seqs.Filter((v: ViewedTopic) => v.viewedAt == t, s)
  }

  lemma AtTimeAppend(t: int, a: seq<ViewedTopic>, b: seq<ViewedTopic>)
    ensures AtTime(t, a + b) == AtTime(t, a) + AtTime(t, b)
  {
    Seqs.FilterAppend((v: ViewedTopic) => v.viewedAt == t, a, b);
  }

  lemma AtTimeOne(t: int, x: ViewedTopic)
    ensures AtTime(t, [x]) == if x.viewedAt == t then [x] else []
  {
    Seqs.FilterOne((v: ViewedTopic) => v.viewedAt == t, x);
  }

  /** Entries viewed at different times never both appear in one timestamp's list, so they commute there. */
  lemma AtTimeSwap(t: int, x: ViewedTopic, y: ViewedTopic)
    requires x.viewedAt != y.viewedAt
    ensures AtTime(t, [x]) + AtTime(t, [y]) == AtTime(t, [y]) + AtTime(t, [x])
  {
    AtTimeOne(t, x);
    AtTimeOne(t, y);
  }

  lemma SwapUnder(h: seq<ViewedTopic>, y: seq<ViewedTopic>, rest: seq<ViewedTopic>)
    requires h + y == y + h
    ensures h + (y + rest) == y + (h + rest)
  {
    assert h + (y + rest) == (h + y) + rest;
    assert y + (h + rest) == (y + h) + rest;
  }

  /** Inserting `x` puts it after every entry viewed at the same time as it. */
  lemma {:induction false} InsertStable(x: ViewedTopic, s: seq<ViewedTopic>, t: int)
    requires NonIncreasing(s)
    ensures AtTime(t, InsertByRecency(x, s)) == AtTime(t, [x] + s)
    decreases |s|
  {
    if |s| > 0 && s[0].viewedAt > x.viewedAt {
      var head, tail := s[0], s[1..];
      var inserted := InsertByRecency(x, tail);
      assert InsertByRecency(x, s) == [head] + inserted;
      assert s == [head] + tail;
      InsertStable(x, tail, t);
      AtTimeAppend(t, [head], inserted);
      AtTimeAppend(t, [x], tail);
      AtTimeAppend(t, [head], tail);
      AtTimeAppend(t, [x], s);
      AtTimeSwap(t, head, x);
      SwapUnder(AtTime(t, [head]), AtTime(t, [x]), AtTime(t, tail));
    }
  }

  /**
   * The sort is stable, as `Array.prototype.sort` is: for every timestamp, the entries viewed
   * at that time keep their stored relative order.
   */
  lemma {:induction false} SortStable(s: seq<ViewedTopic>, t: int)
    ensures AtTime(t, SortByRecency(s)) == AtTime(t, s)
    decreases |s|
  {
    if |s| > 0 {
      var tail := s[1..];
      assert s == [s[0]] + tail;
      SortStable(tail, t);
      InsertStable(s[0], SortByRecency(tail), t);
      AtTimeAppend(t, [s[0]], SortByRecency(tail));
      AtTimeAppend(t, [s[0]], tail);
    }
  }

  /** A prefix and the rest make up the whole sequence's multiset. */
  lemma PrefixMultiset(s: seq<ViewedTopic>, n: nat)
    requires n <= |s|
    ensures multiset(s) - multiset(s[..n]) == multiset(s[n..])
  {
    assert s == s[..n] + s[n..];
  }

  /** In a most-recent-first list, whatever follows a prefix is no more recent than its last entry. */
  lemma SuffixNotMoreRecent(s: seq<ViewedTopic>, n: nat)
    requires NonIncreasing(s) && 0 < n <= |s|
    ensures forall v :: v in multiset(s) - multiset(s[..n]) ==> v.viewedAt <= s[n - 1].viewedAt
  {
    PrefixMultiset(s, n);
    forall v | v in multiset(s[n..]) ensures v.viewedAt <= s[n - 1].viewedAt {
      assert v in s[n..];
      var j :| 0 <= j < |s[n..]| && s[n..][j] == v;
      assert s[n + j] == v;
    }
  }

  /** A prefix of a most-recent-first list keeps the order, draws from the list, and outranks the rest. */
  lemma SortedPrefix(s: seq<ViewedTopic>, n: nat)
    requires NonIncreasing(s) && n <= |s|
    ensures NonIncreasing(s[..n])
    ensures multiset(s[..n]) <= multiset(s)
    ensures n > 0 ==> forall v :: v in multiset(s) - multiset(s[..n]) ==> v.viewedAt <= s[..n][n - 1].viewedAt
  {
    var p := s[..n];
    forall i, j | 0 <= i < j < |p| ensures p[i].viewedAt >= p[j].viewedAt {
      assert p[i] == s[i] && p[j] == s[j];
    }
    assert s == p + s[n..];
    assert multiset(s) == multiset(p) + multiset(s[n..]);
    if n > 0 {
      SuffixNotMoreRecent(s, n);
      assert p[n - 1] == s[n - 1];
    }
  }

  /**
   * The entries the panel shows: at most five, most recent first, drawn from the stored list;
   * every stored entry left out is no more recent than the last one shown. Nothing is shown
   * when the stored value is missing or unparsable.
   */
  function Displayed(stored: Option<seq<ViewedTopic>>): (r: seq<ViewedTopic>)
    ensures |r| == Seqs.Min(MaxShown, |StoredList(stored)|)
    ensures NonIncreasing(r)
    ensures multiset(r) <= multiset(StoredList(stored))
    ensures |r| > 0 ==> forall v :: v in multiset(StoredList(stored)) - multiset(r) ==> v.viewedAt <= r[|r| - 1].viewedAt
  {
    var sorted := SortByRecency(StoredList(stored));
    var n := Seqs.Min(MaxShown, |sorted|);
    SortedPrefix(sorted, n);
    sorted[..n]
  }

  /** The panel renders nothing exactly when there is no stored view to show. */
  lemma NothingToShow(stored: Option<seq<ViewedTopic>>)
    ensures |Displayed(stored)| == 0 <==> stored.None? || |stored.value| == 0
  {
  }
}

=== FILE: related_topics.dfy ===
/** The "Related Topics" section of a topic page. */
module RelatedTopics {
  import opened Wrappers
  import opened ContentTypes
  import Seqs

  /** The number of related topics shown when the caller gives no limit. */
  const DefaultLimit: int := 3

  predicate IsRelated(t: Topic, currentTopic: string, currentCategory: string) {
    t.category == currentCategory && t.name != currentTopic
  }

  /**
   * The related topics: other topics of the current category, in catalog order, cut to the
   * limit (3 by default). With a non-negative limit, fewer than `limit` results means every
   * related topic of the catalog is shown.
   */
  function Related(currentTopic: string, currentCategory: string, allTopics: seq<Topic>, limit: Option<int>)
    : (r: seq<Topic>)
    ensures forall i :: 0 <= i < |r| ==> IsRelated(r[i], currentTopic, currentCategory)
    ensures Seqs.SubsequenceOf(r, allTopics)
    ensures limit.GetOr(DefaultLimit) >= 0 ==> |r| <= limit.GetOr(DefaultLimit)
    ensures |r| < limit.GetOr(DefaultLimit) ==>
              forall t :: t in allTopics && IsRelated(t, currentTopic, currentCategory) ==> t in r
  {
    var p := (t: Topic) => IsRelated(t, currentTopic, currentCategory);
    var all := Seqs.Filter(p, allTopics);
    var r := Seqs.SliceTo(all, limit.GetOr(DefaultLimit));
    assert r == all[..|r|];
    Seqs.FilterIsSubsequence(p, allTopics);
    Seqs.PrefixIsSubsequence(all, allTopics, |r|);
    Seqs.SubsequenceMembers(r, allTopics);
    assert |r| < limit.GetOr(DefaultLimit) ==> r == all;
    r
  }

  /** With a positive limit the section is empty, and not rendered, iff nothing is related. */
  lemma RendersIffSomeRelated(currentTopic: string, currentCategory: string, allTopics: seq<Topic>, limit: Option<int>)
    requires limit.GetOr(DefaultLimit) > 0
    ensures |Related(currentTopic, currentCategory, allTopics, limit)| == 0 <==>
            forall t :: t in allTopics ==> !IsRelated(t, currentTopic, currentCategory)
  {
    var r := Related(currentTopic, currentCategory, allTopics, limit);
    if |r| > 0 {
      Seqs.SubsequenceMembers(r, allTopics);
      assert r[0] in allTopics;
    }
  }

  /**
   * A limit only cuts the one filtered list: with a larger limit the smaller selection is a
   * prefix of the larger, so the section always shows the first related topics in catalog order.
   */
  lemma LargerLimitExtends(currentTopic: string, currentCategory: string, allTopics: seq<Topic>, a: nat, b: nat)
    requires a <= b
    ensures var small := Related(currentTopic, currentCategory, allTopics, Some(a));
            var large := Related(currentTopic, currentCategory, allTopics, Some(b));
            |small| <= |large| && small == large[..|small|]
  {
  }
}

=== FILE: search.dfy ===
/**
 * The header search box: the catalog flattened into search entries, the case-insensitive
 * substring filter, and the open/query/focus state driven by keys and clicks.
 */
module Search {
  import opened Wrappers
  import opened ContentTypes
  import Strings
  import Seqs

  /** A topic together with the name of the category it was listed under. */
  datatype Entry = Entry(topic: Topic, categoryName: string)

  function CategoryEntries(c: Category): (r: seq<Entry>)
    ensures |r| == |c.topics|
    ensures forall j :: 0 <= j < |r| ==> r[j] == Entry(c.topics[j], c.name)
  {
    seq(|c.topics|, j requires 0 <= j < |c.topics| => Entry(c.topics[j], c.name))
  }

  /**
   * `allTopics`: every topic of every category, in catalog order, each tagged with the name
   * of the category that lists it.
   */
  function Flatten(cats: seq<Category>): (r: seq<Entry>)
    ensures |r| == |CatalogTopics(cats)|
    ensures forall i :: 0 <= i < |r| ==> r[i].topic == CatalogTopics(cats)[i]
    ensures forall i :: 0 <= i < |r| ==>
              exists k :: 0 <= k < |cats| && r[i].categoryName == cats[k].name && r[i].topic in cats[k].topics
    decreases |cats|
  {
    if |cats| == 0 then []
    else
      var head := CategoryEntries(cats[0]);
      var rest := Flatten(cats[1..]);
      assert forall i :: 0 <= i < |rest| ==>
        exists k :: 0 <= k < |cats| && rest[i].categoryName == cats[k].name && rest[i].topic in cats[k].topics
      by {
        forall i | 0 <= i < |rest|
          ensures exists k :: 0 <= k < |cats| && rest[i].categoryName == cats[k].name && rest[i].topic in cats[k].topics
        {
          var k :| 0 <= k < |cats[1..]| && rest[i].categoryName == cats[1..][k].name && rest[i].topic in cats[1..][k].topics;
          assert cats[1..][k] == cats[k + 1];
        }
      }
      assert forall j :: 0 <= j < |head| ==> head[j].topic in cats[0].topics;
      head + rest
  }

  /** Flattening distributes over concatenation of the category list. */
  lemma {:induction false} FlattenAppend(a: seq<Category>, b: seq<Category>)
    ensures Flatten(a + b) == Flatten(a) + Flatten(b)
    decreases |a|
  {
    if |a| == 0 {
      assert a + b == b;
    } else {
      assert (a + b)[0] == a[0];
      assert (a + b)[1..] == a[1..] + b;
      FlattenAppend(a[1..], b);
    }
  }

  /** A single category flattens to its own entries. */
  lemma FlattenOne(c: Category)
    ensures Flatten([c]) == CategoryEntries(c)
  {
    assert [c][1..] == [];
  }

  /**
   * Each entry is labelled with the category that encloses it: the `j`-th topic of category
   * `k` sits after the topics of the categories before it and carries `k`'s name, even when
   * another category lists an equal topic.
   */
  lemma FlattenLabels(cats: seq<Category>, k: nat, j: nat)
    requires k < |cats| && j < |cats[k].topics|
    ensures var i := |Flatten(cats[..k])| + j;
            i < |Flatten(cats)| && Flatten(cats)[i] == Entry(cats[k].topics[j], cats[k].name)
  {
    assert cats == cats[..k] + ([cats[k]] + cats[k + 1..]);
    FlattenAppend(cats[..k], [cats[k]] + cats[k + 1..]);
    FlattenAppend([cats[k]], cats[k + 1..]);
    FlattenOne(cats[k]);
  }

  /** `field?.toLowerCase().includes(lowerQuery)`: an absent field never matches. */
  predicate FieldMatches(field: Option<string>, lowerQuery: string) {
    field.Some? && Strings.Includes(Strings.ToLower(field.value), lowerQuery)
  }

  predicate TagMatches(tags: Option<seq<string>>, lowerQuery: string) {
    tags.Some? && exists i | 0 <= i < |tags.value| :: FieldMatches(Some(tags.value[i]), lowerQuery)
  }

  /** The lowercased, untrimmed query occurs in the title, name, description or a tag. */
  predicate Matches(e: Entry, query: string) {
    var lq := Strings.ToLower(query);
    || FieldMatches(MetadataTitle(e.topic), lq)
    || FieldMatches(Some(e.topic.name), lq)
    || FieldMatches(MetadataDescription(e.topic), lq)
    || TagMatches(MetadataTags(e.topic), lq)
  }

  /** A query that trims to nothing. */
  predicate IsBlank(query: string) {
    Strings.Trim(query) == ""
  }

  /**
   * `filteredTopics`: nothing for a blank query; otherwise exactly the matching entries, in
   * catalog order.
   */
  function Results(cats: seq<Category>, query: string): (r: seq<Entry>)
    ensures IsBlank(query) ==> r == []
    ensures forall i :: 0 <= i < |r| ==> r[i] in Flatten(cats) && Matches(r[i], query)
    ensures !IsBlank(query) ==> forall e :: e in Flatten(cats) && Matches(e, query) ==> e in r
    ensures Seqs.SubsequenceOf(r, Flatten(cats))
  {
    if IsBlank(query) then []
    else
      var p := (e: Entry) => Matches(e, query);
      Seqs.FilterIsSubsequence(p, Flatten(cats));
      Seqs.Filter(p, Flatten(cats))
  }

  lemma ToLowerIdempotent(s: string)
    ensures Strings.ToLower(Strings.ToLower(s)) == Strings.ToLower(s)
  {
  }

  /** Matching ignores the case of the query (ASCII letters). */
  lemma CaseInsensitive(cats: seq<Category>, query: string)
    ensures Results(cats, Strings.ToLower(query)) == Results(cats, query)
  {
    ToLowerIdempotent(query);
    var lq := Strings.ToLower(query);
    assert forall i :: 0 <= i < |query| ==> (Strings.IsWhitespace(query[i]) <==> Strings.IsWhitespace(lq[i]));
    assert IsBlank(lq) == IsBlank(query);
    if !IsBlank(query) {
      Seqs.FilterExt((e: Entry) => Matches(e, lq), (e: Entry) => Matches(e, query), Flatten(cats));
    }
  }

  // ---------------------------------------------------------------------------------------
  // The open/query/focus state machine
  // ---------------------------------------------------------------------------------------

  datatype SearchState = SearchState(query: string, isOpen: bool, focusedIndex: int)

  const Initial: SearchState := SearchState("", false, -1)

  /** A key press on the window: the key name and the Meta/Control modifiers. */
  datatype KeyPress = KeyPress(key: string, meta: bool, ctrl: bool)

  datatype Event =
    | KeyDown(press: KeyPress)
    | QueryInput(text: string)
    | OpenButton
    | OverlayClick
    | ResultClick(index: nat)

  /** The state after an event, and the page the browser is sent to, if any. */
  datatype Outcome = Outcome(state: SearchState, navigate: Option<string>)

  /** The focused index stays within the current results, or is -1 for "nothing focused". */
  predicate Valid(cats: seq<Category>, s: SearchState) {
    -1 <= s.focusedIndex < |Results(cats, s.query)|
  }

  /** The keys the handler distinguishes. */
  datatype KeyName = Escape | ArrowDown | ArrowUp | Enter | LetterK | OtherKey

  function KeyNameOf(key: string): KeyName {
    if key == "Escape" then Escape
    else if key == "ArrowDown" then ArrowDown
    else if key == "ArrowUp" then ArrowUp
    else if key == "Enter" then Enter
    else if key == "k" then LetterK
    else OtherKey
  }

  lemma EnterKeyName()
    ensures KeyNameOf("Enter") == Enter
  {
    assert "Enter"[1] != "Escape"[1];
    assert "Enter"[0] != "ArrowDown"[0] && "Enter"[0] != "ArrowUp"[0];
  }

  function EntryHref(e: Entry): string {
    TopicHref(e.categoryName, e.topic.name)
  }

  /**
   * The window `keydown` handler over the current results. Cmd/Ctrl+K opens, Escape closes and
   * clears the focus; the arrows and Enter act only while the box is open with results:
   * ArrowDown moves the focus down but not past the last result, ArrowUp moves it up and from
   * 0 to -1, and Enter on a focused result navigates to its page.
   */
  function KeyStep(s: SearchState, key: KeyName, modifier: bool, results: seq<Entry>): (o: Outcome)
    ensures o.state.query == s.query
    ensures key == Escape ==> !o.state.isOpen && o.state.focusedIndex == -1
    ensures modifier && key == LetterK ==> o.state.isOpen
    ensures key != Escape && !(modifier && key == LetterK) ==> o.state.isOpen == s.isOpen
    ensures !(s.isOpen && |results| > 0) ==> o.navigate.None?
    ensures !(s.isOpen && |results| > 0) && key != Escape ==> o.state.focusedIndex == s.focusedIndex
    ensures s.isOpen && -1 <= s.focusedIndex < |results| && key == ArrowDown ==>
              o.state.focusedIndex == Seqs.Min(s.focusedIndex + 1, |results| - 1)
    ensures s.isOpen && |results| > 0 && key == ArrowUp ==>
              o.state.focusedIndex == (if s.focusedIndex > 0 then s.focusedIndex - 1 else -1)
    ensures key !in {Escape, ArrowDown, ArrowUp} ==> o.state.focusedIndex == s.focusedIndex
    ensures o.navigate.Some? <==>
              s.isOpen && key == Enter && 0 <= s.focusedIndex < |results|
    ensures o.navigate.Some? ==> o.navigate.value == EntryHref(results[s.focusedIndex])
  {
    var openNow := if modifier && key == LetterK then true else s.isOpen;
    var s1 := if key == Escape then SearchState(s.query, false, -1) else SearchState(s.query, openNow, s.focusedIndex);
    if s.isOpen && |results| > 0 then
      match key
      case ArrowDown =>
        var f := if s1.focusedIndex < |results| - 1 then s1.focusedIndex + 1 else s1.focusedIndex;
        Outcome(s1.(focusedIndex := f), None)
      case ArrowUp =>
        Outcome(s1.(focusedIndex := if s1.focusedIndex > 0 then s1.focusedIndex - 1 else -1), None)
      case Enter =>
        if 0 <= s.focusedIndex < |results| then Outcome(s1, Some(EntryHref(results[s.focusedIndex])))
        else Outcome(s1, None)
      case _ => Outcome(s1, None)
    else Outcome(s1, None)
  }

  /** The handler as the page wires it: the key is classified and the results follow the query. */
  function OnKey(cats: seq<Category>, s: SearchState, k: KeyPress): Outcome {
    KeyStep(s, KeyNameOf(k.key), k.meta || k.ctrl, Results(cats, s.query))
  }

  /**
   * Every event: typing replaces the query and clears the focus, the button opens, the overlay
   * closes, and clicking a result closes, clears the query and clears the focus while its link
   * takes the browser to that result's page.
   */
  function Step(cats: seq<Category>, s: SearchState, e: Event): (o: Outcome)
    ensures e.QueryInput? ==> o.state == SearchState(e.text, s.isOpen, -1)
    ensures e.ResultClick? ==> o.state == SearchState("", false, -1)
    ensures e.OpenButton? ==> o.state.isOpen && o.state.query == s.query && o.state.focusedIndex == s.focusedIndex
    ensures e.OverlayClick? ==> !o.state.isOpen && o.state.query == s.query && o.state.focusedIndex == s.focusedIndex
    ensures e.ResultClick? ==>
              o.navigate == if e.index < |Results(cats, s.query)| then Some(EntryHref(Results(cats, s.query)[e.index])) else None
    ensures e.QueryInput? || e.OpenButton? || e.OverlayClick? ==> o.navigate.None?
  {
    match e
    case KeyDown(k) => OnKey(cats, s, k)
    case QueryInput(text) => Outcome(SearchState(text, s.isOpen, -1), None)
    case OpenButton => Outcome(s.(isOpen := true), None)
    case OverlayClick => Outcome(s.(isOpen := false), None)
    case ResultClick(i) =>
      var results := Results(cats, s.query);
      Outcome(SearchState("", false, -1), if i < |results| then Some(EntryHref(results[i])) else None)
  }

  /**
   * The focus never points outside the results: the initial state is valid and every event
   * keeps it so. Hence Enter never reads past the end of the result list.
   */
  lemma StepKeepsValid(cats: seq<Category>, s: SearchState, e: Event)
    requires Valid(cats, s)
    ensures Valid(cats, Step(cats, s, e).state)
  {
    match e
    case KeyDown(k) => OnKeyKeepsValid(cats, s, k);
    case QueryInput(text) =>
    case OpenButton =>
    case OverlayClick =>
    case ResultClick(_) =>
  }

  lemma OnKeyKeepsValid(cats: seq<Category>, s: SearchState, k: KeyPress)
    requires Valid(cats, s)
    ensures Valid(cats, OnKey(cats, s, k).state)
  {
    var results := Results(cats, s.query);
    var o := KeyStep(s, KeyNameOf(k.key), k.meta || k.ctrl, results);
    assert -1 <= o.state.focusedIndex < |results|;
  }

  lemma InitialValid(cats: seq<Category>)
    ensures Valid(cats, Initial)
  {
  }

  /** In a valid state, Enter on a focused result of an open box always navigates to it. */
  lemma EnterNavigates(cats: seq<Category>, s: SearchState)
    requires Valid(cats, s) && s.isOpen && s.focusedIndex >= 0
    ensures OnKey(cats, s, KeyPress("Enter", false, false)).navigate
            == Some(EntryHref(Results(cats, s.query)[s.focusedIndex]))
  {
    EnterKeyName();
    var results := Results(cats, s.query);
    var o := KeyStep(s, Enter, false, results);
    assert o.navigate == Some(EntryHref(results[s.focusedIndex]));
  }

  /** Clicking the focused result and pressing Enter on it lead to the same page. */
  lemma ClickMatchesEnter(cats: seq<Category>, s: SearchState)
    requires Valid(cats, s) && s.isOpen && s.focusedIndex >= 0
    ensures Step(cats, s, ResultClick(s.focusedIndex)).navigate
            == Step(cats, s, KeyDown(KeyPress("Enter", false, false))).navigate
            == Some(EntryHref(Results(cats, s.query)[s.focusedIndex]))
  {
    EnterNavigates(cats, s);
  }
}

=== FILE: seqs.dfy ===
/** Generic sequence helpers mirroring the JavaScript array methods the site uses. */
module Seqs {

  function Min(a: int, b: int): int { if a <= b then a else b }

  /** A non-empty sequence is its head followed by its tail. */
  lemma HeadAndTail<T>(s: seq<T>)
    requires |s| > 0
    ensures s == [s[0]] + s[1..]
  {
  }

  /** `Array.prototype.filter`: the elements of `s` satisfying `p`, in order. */
  function Filter<T>(p: T -> bool, s: seq<T>): (r: seq<T>)
    ensures |r| <= |s|
    ensures forall i :: 0 <= i < |r| ==> r[i] in s && p(r[i])
    ensures forall i :: 0 <= i < |s| && p(s[i]) ==> s[i] in r
    decreases |s|
  {
    if |s| == 0 then []
    else (if p(s[0]) then [s[0]] else []) + Filter(p, s[1..])
  }

  /** Filtering distributes over concatenation, so it keeps the relative order of what it keeps. */
  lemma {:induction false} FilterAppend<T>(p: T -> bool, a: seq<T>, b: seq<T>)
    ensures Filter(p, a + b) == Filter(p, a) + Filter(p, b)
    decreases |a|
  {
    if |a| == 0 {
      assert a + b == b;
    } else {
      assert (a + b)[0] == a[0];
      assert (a + b)[1..] == a[1..] + b;
      FilterAppend(p, a[1..], b);
    }
  }

  /**
   * A single element is kept iff it satisfies the filter. With `FilterAppend` this fixes the
   * filter's result exactly, duplicates included.
   */
  lemma FilterOne<T>(p: T -> bool, x: T)
    ensures Filter(p, [x]) == if p(x) then [x] else []
  {
    assert [x][1..] == [];
  }

  /** Filtering keeps exactly the elements satisfying `p`, each as often as it occurs. */
  lemma {:induction false} FilterMultiset<T>(p: T -> bool, s: seq<T>)
    ensures forall x :: x in multiset(Filter(p, s)) ==> p(x)
    ensures forall x :: p(x) ==> multiset(Filter(p, s))[x] == multiset(s)[x]
    decreases |s|
  {
    if |s| > 0 {
      FilterMultiset(p, s[1..]);
      HeadAndTail(s);
      assert multiset(s) == multiset{s[0]} + multiset(s[1..]);
    }
  }

  /** Filters that agree on the elements give the same result. */
  lemma {:induction false} FilterExt<T>(p: T -> bool, q: T -> bool, s: seq<T>)
    requires forall i :: 0 <= i < |s| ==> p(s[i]) == q(s[i])
    ensures Filter(p, s) == Filter(q, s)
    decreases |s|
  {
    if |s| > 0 {
      FilterExt(p, q, s[1..]);
    }
  }

  /** A filter that rejects nothing is the identity. */
  lemma {:induction false} FilterAll<T>(p: T -> bool, s: seq<T>)
    requires forall i :: 0 <= i < |s| ==> p(s[i])
    ensures Filter(p, s) == s
    decreases |s|
  {
    if |s| > 0 {
      FilterAll(p, s[1..]);
    }
  }

  /** `slice(0, n)` for a non-negative constant `n`: the first `min(n, |s|)` elements. */
  function Take<T>(s: seq<T>, n: nat): (r: seq<T>)
    ensures |r| == Min(n, |s|)
    ensures forall i :: 0 <= i < |r| ==> r[i] == s[i]
  {
    s[..Min(n, |s|)]
  }

  /** `slice(0, end)` for an integer `end`: a negative `end` counts back from the length. */
  function SliceTo<T>(s: seq<T>, end: int): (r: seq<T>)
    ensures |r| <= |s| && r == s[..|r|]
    ensures end >= 0 ==> |r| == Min(end, |s|)
    ensures end < 0 ==> |r| == if |s| + end > 0 then |s| + end else 0
  {
    if end >= 0 then Take(s, end)
    else if |s| + end > 0 then s[..|s| + end]
    else []
  }

  /** `flat()` of a sequence of sequences. */
  function Flatten<T>(ss: seq<seq<T>>): (r: seq<T>)
    decreases |ss|
  {
    if |ss| == 0 then [] else ss[0] + Flatten(ss[1..])
  }

  lemma {:induction false} FlattenAppend<T>(a: seq<seq<T>>, b: seq<seq<T>>)
    ensures Flatten(a + b) == Flatten(a) + Flatten(b)
    decreases |a|
  {
    if |a| == 0 {
      assert a + b == b;
    } else {
      assert (a + b)[0] == a[0];
      assert (a + b)[1..] == a[1..] + b;
      FlattenAppend(a[1..], b);
    }
  }

  /** `a` is `b` with some elements left out, the rest in their original order. */
  predicate SubsequenceOf<T(==)>(a: seq<T>, b: seq<T>)
    decreases |b|
  {
    if |a| == 0 then true
    else if |b| == 0 then false
    else if a[0] == b[0] then SubsequenceOf(a[1..], b[1..])
    else SubsequenceOf(a, b[1..])
  }

  lemma {:induction false} FilterIsSubsequence<T>(p: T -> bool, s: seq<T>)
    ensures SubsequenceOf(Filter(p, s), s)
    decreases |s|
  {
    if |s| > 0 {
      FilterIsSubsequence(p, s[1..]);
      if p(s[0]) {
        assert Filter(p, s) == [s[0]] + Filter(p, s[1..]);
        assert Filter(p, s)[1..] == Filter(p, s[1..]);
      } else {
        assert Filter(p, s) == Filter(p, s[1..]);
      }
    }
  }

  lemma {:induction false} PrefixIsSubsequence<T>(a: seq<T>, b: seq<T>, n: nat)
    requires SubsequenceOf(a, b) && n <= |a|
    ensures SubsequenceOf(a[..n], b)
    decreases |b|
  {
    if n > 0 && |b| > 0 {
      if a[0] == b[0] {
        assert a[..n][1..] == a[1..][..n - 1];
        PrefixIsSubsequence(a[1..], b[1..], n - 1);
      } else {
        PrefixIsSubsequence(a, b[1..], n);
      }
    }
  }

  lemma {:induction false} SubsequenceMembers<T>(a: seq<T>, b: seq<T>)
    requires SubsequenceOf(a, b)
    ensures forall i :: 0 <= i < |a| ==> a[i] in b
    decreases |b|
  {
    if |a| > 0 && |b| > 0 {
      if a[0] == b[0] {
        SubsequenceMembers(a[1..], b[1..]);
        assert forall i :: 1 <= i < |a| ==> a[i] == a[1..][i - 1];
      } else {
        SubsequenceMembers(a, b[1..]);
      }
    }
  }
}

=== FILE: sidebar.dfy ===
/**
 * The navigation sidebar: which categories are expanded, how the current route expands its
 * category, and what the open sidebar lists.
 */
module Sidebar {
  import opened Wrappers
  import Strings
  import opened ContentTypes

  /** A category header click: expand it when collapsed, collapse it when expanded. */
  function Toggle(expanded: set<string>, name: string): (r: set<string>)
    ensures name in r <==> name !in expanded
    ensures forall n :: n != name ==> (n in r <==> n in expanded)
  {
    if name in expanded then expanded - {name} else expanded + {name}
  }

  /** Two clicks on the same header leave the expanded set as it was. */
  lemma ToggleTwice(expanded: set<string>, name: string)
    ensures Toggle(Toggle(expanded, name), name) == expanded
  {
  }

  /** The third `/`-separated segment of the route, when it is non-empty: the category of a topic route. */
  function RouteCategory(pathname: string): (r: Option<string>)
    ensures r.Some? ==> r.value != "" && '/' !in r.value
    ensures r.Some? <==> |Strings.Split(pathname, '/')| > 2 && Strings.Split(pathname, '/')[2] != ""
  {
    var parts := Strings.Split(pathname, '/');
    Strings.SplitPartsLackSeparator(pathname, '/');
    if |parts| > 2 && parts[2] != "" then Some(parts[2]) else None
  }

  /** On a route change the category of the route becomes the only expanded one; other routes change nothing. */
  function OnRouteChange(expanded: set<string>, pathname: string): (r: set<string>)
    ensures RouteCategory(pathname).Some? ==> r == {RouteCategory(pathname).value}
    ensures RouteCategory(pathname).None? ==> r == expanded
  {
    match RouteCategory(pathname)
    case Some(c) => {c}
    case None => expanded
  }

  /** Splitting `a/b/d` at `/`, where no piece holds a slash, gives the three pieces. */
  lemma SplitThree(a: string, b: string, d: string)
    requires '/' !in a && '/' !in b && '/' !in d
    ensures Strings.Split(a + ['/'] + (b + ['/'] + d), '/') == [a, b, d]
  {
    Strings.SplitWithoutSeparator(d, '/');
    Strings.SplitAround(b, d, '/');
    Strings.SplitAround(a, b + ['/'] + d, '/');
  }

  lemma TopicHrefShape(category: string, name: string)
    ensures TopicHref(category, name) == ['/'] + ("topics" + ['/'] + (category + ['/'] + name))
  {
  }

  /** Splitting `/p/a/b` at `/`, where no piece holds a slash, gives the empty root and the three pieces. */
  lemma SplitRoute(p: string, a: string, b: string)
    requires '/' !in p && '/' !in a && '/' !in b
    ensures Strings.Split(['/'] + (p + ['/'] + (a + ['/'] + b)), '/') == ["", p, a, b]
  {
    SplitThree(p, a, b);
    Strings.SplitLeadingSeparator(p + ['/'] + (a + ['/'] + b), '/');
  }

  /** A topic route splits into the empty root, `topics`, the category and the topic name. */
  lemma SplitTopicHref(category: string, name: string)
    requires '/' !in category && '/' !in name
    ensures Strings.Split(TopicHref(category, name), '/') == ["", "topics", category, name]
  {
    TopicHrefShape(category, name);
    assert '/' !in "topics";
    SplitRoute("topics", category, name);
  }

  /** A topic page's route names its category: opening the page expands exactly that category. */
  lemma TopicRouteExpandsItsCategory(expanded: set<string>, category: string, name: string)
    requires category != "" && '/' !in category && '/' !in name
    ensures RouteCategory(TopicHref(category, name)) == Some(category)
    ensures OnRouteChange(expanded, TopicHref(category, name)) == {category}
  {
    SplitTopicHref(category, name);
  }

  datatype TopicLink = TopicLink(text: string, href: string, active: bool)

  /** A category row: its name, its topic count, and its topic links when expanded. */
  datatype CategoryRow = CategoryRow(name: string, count: nat, expanded: bool, links: seq<TopicLink>)

  function TopicLinks(c: Category, pathname: string): (r: seq<TopicLink>)
    ensures |r| == |c.topics|
    ensures forall j :: 0 <= j < |r| ==>
              && r[j].href == TopicHref(c.name, c.topics[j].name)
              && r[j].text == DisplayTitle(c.topics[j])
              && (r[j].active <==> pathname == r[j].href)
  {
    seq(|c.topics|, j requires 0 <= j < |c.topics| =>
      var href := TopicHref(c.name, c.topics[j].name);
      TopicLink(DisplayTitle(c.topics[j]), href, pathname == href))
  }

  /**
   * The sidebar: nothing when closed; otherwise one row per category in order, each listing
   * its topics only while expanded, and a topic link is active exactly when it is the current
   * route.
   */
  function View(categories: seq<Category>, isOpen: bool, expanded: set<string>, pathname: string)
    : (r: Option<seq<CategoryRow>>)
    ensures r.None? <==> !isOpen
    ensures r.Some? ==> |r.value| == |categories|
    ensures r.Some? ==> forall i :: 0 <= i < |categories| ==>
              && r.value[i].name == categories[i].name
              && r.value[i].count == |categories[i].topics|
              && (r.value[i].expanded <==> categories[i].name in expanded)
              && (r.value[i].expanded ==> r.value[i].links == TopicLinks(categories[i], pathname))
              && (!r.value[i].expanded ==> r.value[i].links == [])
  {
    if !isOpen then None
    else Some(seq(|categories|, i requires 0 <= i < |categories| =>
      var c := categories[i];
      var isExpanded := c.name in expanded;
      CategoryRow(c.name, |c.topics|, isExpanded, if isExpanded then TopicLinks(c, pathname) else [])))
  }

  /**
   * After navigating to a topic's page, the open sidebar shows that topic's link, and it is
   * the active one.
   */
  lemma CurrentTopicShownActive(categories: seq<Category>, expanded: set<string>, i: nat, j: nat)
    requires i < |categories| && j < |categories[i].topics|
    requires categories[i].name != "" && '/' !in categories[i].name && '/' !in categories[i].topics[j].name
    ensures var path := TopicHref(categories[i].name, categories[i].topics[j].name);
            var rows := View(categories, true, OnRouteChange(expanded, path), path).value;
            rows[i].expanded && rows[i].links[j].active
  {
    TopicRouteExpandsItsCategory(expanded, categories[i].name, categories[i].topics[j].name);
  }
}

=== FILE: sitemap.dfy ===
/**
 * The sitemap (sitemaps.org protocol): the home page, the topics index, one entry per
 * category with topics, and one entry per topic, each with its change frequency and priority.
 */
module Sitemap {
  import opened Wrappers
  import Strings
  import opened ContentTypes
  import Catalog

  const DefaultBaseUrl: string := "https://learning-resources.com"

  datatype ChangeFrequency = Daily | Weekly | Monthly

  /** One `<url>` element; `lastModified` is the generation time and is left out. */
  datatype Entry = Entry(url: string, changeFrequency: ChangeFrequency, priority: real)

  /** `process.env.NEXT_PUBLIC_BASE_URL || 'https://learning-resources.com'`. */
  function BaseUrl(env: Option<string>): (r: string)
    ensures Strings.Truthy(env) ==> r == env.value
    ensures !Strings.Truthy(env) ==> r == DefaultBaseUrl
  {
    Strings.Or(env, DefaultBaseUrl)
  }

  function CategoryEntry(base: string, c: Category): Entry {
    Entry(base + "/topics#" + c.name, Weekly, 0.7)
  }

  function TopicEntry(base: string, t: Topic): Entry {
    Entry(base + TopicHref(t.category, t.name), Monthly, 0.8)
  }

  /**
   * The entry list: home first, then the topics index, then the categories, then the topics,
   * each group in input order; every URL lies under the base URL.
   */
  function Sitemap(env: Option<string>, categories: seq<Category>, topics: seq<Topic>): (r: seq<Entry>)
    ensures |r| == 2 + |categories| + |topics|
    ensures r[0] == Entry(BaseUrl(env), Daily, 1.0)
    ensures r[1] == Entry(BaseUrl(env) + "/topics", Daily, 0.9)
    ensures forall i :: 0 <= i < |categories| ==> r[2 + i] == CategoryEntry(BaseUrl(env), categories[i])
    ensures forall j :: 0 <= j < |topics| ==> r[2 + |categories| + j] == TopicEntry(BaseUrl(env), topics[j])
    ensures forall k :: 0 <= k < |r| ==> Strings.StartsWith(r[k].url, BaseUrl(env))
  {
    var base := BaseUrl(env);
    var categoryEntries := seq(|categories|, i requires 0 <= i < |categories| => CategoryEntry(base, categories[i]));
    var topicEntries := seq(|topics|, j requires 0 <= j < |topics| => TopicEntry(base, topics[j]));
    var r := [Entry(base, Daily, 1.0), Entry(base + "/topics", Daily, 0.9)] + categoryEntries + topicEntries;
    assert forall k :: 0 <= k < |r| ==> r[k].url[..|base|] == base;
    r
  }

  /** The sitemap of a content tree: its categories with topics and all its topics. */
  function SiteSitemap(env: Option<string>, root: Catalog.Listing, parse: Catalog.Parser): seq<Entry> {
    Sitemap(env, Catalog.GetAllCategoriesWithTopics(root, parse), Catalog.GetAllTopics(root, parse))
  }

  /** A listed topic's category is one of the catalog's categories. */
  lemma TopicCategoryInCatalog(root: Catalog.Listing, parse: Catalog.Parser, t: Topic)
    requires t in Catalog.GetAllTopics(root, parse)
    ensures exists c :: c in Catalog.GetAllCategoriesWithTopics(root, parse) && c.name == t.category
  {
    Catalog.AllTopicsMembers(root, parse, t);
    var names := Catalog.GetCategories(root);
    var k :| 0 <= k < |names| && t in Catalog.GetTopics(root, parse, names[k]);
    assert t.category == names[k];
    Catalog.NonEmptyCategoryIncluded(root, parse, names[k]);
  }

  /** Every topic in the site's sitemap has its category listed in the same sitemap. */
  lemma TopicCategoryListed(env: Option<string>, root: Catalog.Listing, parse: Catalog.Parser, t: Topic)
    requires t in Catalog.GetAllTopics(root, parse)
    ensures var cats := Catalog.GetAllCategoriesWithTopics(root, parse);
            exists i :: 0 <= i < |cats| && cats[i].name == t.category
                        && CategoryEntry(BaseUrl(env), cats[i]) in SiteSitemap(env, root, parse)
  {
    var cats := Catalog.GetAllCategoriesWithTopics(root, parse);
    TopicCategoryInCatalog(root, parse, t);
    var c :| c in cats && c.name == t.category;
    var i :| 0 <= i < |cats| && cats[i] == c;
    assert SiteSitemap(env, root, parse)[2 + i] == CategoryEntry(BaseUrl(env), cats[i]);
  }
}

=== FILE: strings.dfy ===
/**
 * JavaScript string operations the site relies on, over `string` (= `seq<char>`).
 * Case mapping is restricted to ASCII; whitespace is the ECMAScript `\s` class.
 */
module Strings {
  import opened Wrappers

  /** ECMAScript WhiteSpace and LineTerminator: the `\s` regex class and what `trim()` strips. */
  predicate IsWhitespace(c: char) {
    c == ' ' || c == '\t' || c == '\n' || c == '\r' || c == '\U{B}' || c == '\U{C}'
    || c == '\U{A0}' || c == '\U{1680}' || ('\U{2000}' <= c <= '\U{200A}')
    || c == '\U{2028}' || c == '\U{2029}' || c == '\U{202F}' || c == '\U{205F}'
    || c == '\U{3000}' || c == '\U{FEFF}'
  }

  /** ECMAScript LineTerminator: where `^`/`$` match under the `m` flag and what `.` never matches. */
  predicate IsLineTerminator(c: char) {
    c == '\n' || c == '\r' || c == '\U{2028}' || c == '\U{2029}'
  }

  lemma LineTerminatorIsWhitespace(c: char)
    requires IsLineTerminator(c)
    ensures IsWhitespace(c)
  {
  }

  predicate IsUpper(c: char) { 'A' <= c <= 'Z' }

  predicate IsLower(c: char) { 'a' <= c <= 'z' }

  predicate IsDigit(c: char) { '0' <= c <= '9' }

  function LowerChar(c: char): char {
    if IsUpper(c) then (c as int + 32) as char else c
  }

  function UpperChar(c: char): char {
    if IsLower(c) then (c as int - 32) as char else c
  }

  /** `toLowerCase()` (ASCII letters only). */
  function ToLower(s: string): (r: string)
    ensures |r| == |s|
    ensures forall i :: 0 <= i < |s| ==> r[i] == LowerChar(s[i])
  {
    seq(|s|, i requires 0 <= i < |s| => LowerChar(s[i]))
  }

  /** `s.charAt(0).toUpperCase() + s.slice(1)`. */
  function Capitalize(s: string): (r: string)
    ensures |r| == |s|
    ensures |s| > 0 ==> r[0] == UpperChar(s[0]) && r[1..] == s[1..]
  {
    if |s| == 0 then "" else [UpperChar(s[0])] + s[1..]
  }

  /** `s.startsWith(prefix)`. */
  predicate StartsWith(s: string, prefix: string) {
    |prefix| <= |s| && s[..|prefix|] == prefix
  }

  /** `sub` occurs in `s` starting at offset `i`. */
  predicate OccursAt(s: string, sub: string, i: int) {
    0 <= i <= |s| - |sub| && s[i..i + |sub|] == sub
  }

  /** `s.includes(sub)`: `sub` occurs in `s` at some offset. */
  predicate Includes(s: string, sub: string) {
    exists i | 0 <= i <= |s| - |sub| :: OccursAt(s, sub, i)
  }

  /** JavaScript truthiness of a possibly-undefined string: defined and non-empty. */
  predicate Truthy(o: Option<string>) {
    o.Some? && o.value != ""
  }

  /** `o || fallback` on a possibly-undefined string. */
  function Or(o: Option<string>, fallback: string): (r: string)
    ensures Truthy(o) ==> r == o.value
    ensures !Truthy(o) ==> r == fallback
  {
    if Truthy(o) then o.value else fallback
  }

  /** The text a template literal prints for a possibly-undefined string. */
  function Interpolate(o: Option<string>): string {
    match o
    case Some(s) => s
    case None => "undefined"
  }

  function TrimStart(s: string): (r: string)
    ensures |r| <= |s| && r == s[|s| - |r|..]
    ensures |r| > 0 ==> !IsWhitespace(r[0])
    ensures forall i :: 0 <= i < |s| - |r| ==> IsWhitespace(s[i])
    decreases |s|
  {
    if |s| > 0 && IsWhitespace(s[0]) then TrimStart(s[1..]) else s
  }

  function TrimEnd(s: string): (r: string)
    ensures |r| <= |s| && r == s[..|r|]
    ensures |r| > 0 ==> !IsWhitespace(r[|r| - 1])
    ensures forall i :: |r| <= i < |s| ==> IsWhitespace(s[i])
    decreases |s|
  {
    if |s| > 0 && IsWhitespace(s[|s| - 1]) then TrimEnd(s[..|s| - 1]) else s
  }

  /** `trim()`: drop leading and trailing whitespace. */
  function Trim(s: string): (r: string)
    ensures |r| <= |s|
    ensures |r| > 0 ==> !IsWhitespace(r[0]) && !IsWhitespace(r[|r| - 1])
    ensures r == "" <==> forall i :: 0 <= i < |s| ==> IsWhitespace(s[i])
  {
    TrimBlank(s);
    TrimEnd(TrimStart(s))
  }

  lemma TrimBlank(s: string)
    ensures TrimEnd(TrimStart(s)) == "" <==> forall i :: 0 <= i < |s| ==> IsWhitespace(s[i])
  {
    var t := TrimStart(s);
    if TrimEnd(t) == "" {
      assert t == "";
    } else if |t| > 0 {
      assert t[0] == s[|s| - |t|];
    }
  }

  /** `parts.join(sep)`. */
  function Join(parts: seq<string>, sep: string): string
    decreases |parts|
  {
    if |parts| == 0 then ""
    else if |parts| == 1 then parts[0]
    else parts[0] + sep + Join(parts[1..], sep)
  }

  /** The position of the first `c` in `s`. */
  function FirstIndex(s: string, c: char): (i: nat)
    requires c in s
    ensures i < |s| && s[i] == c
    ensures forall k :: 0 <= k < i ==> s[k] != c
    decreases |s|
  {
    if s[0] == c then 0 else 1 + FirstIndex(s[1..], c)
  }

  /**
   * `s.split(c)` for a one-character separator: the text before the first `c`, then the split
   * of the rest; a string without `c` is one part.
   */
  function Split(s: string, c: char): (r: seq<string>)
    ensures |r| >= 1
    decreases |s|
  {
    if c !in s then [s]
    else
      var i := FirstIndex(s, c);
      [s[..i]] + Split(s[i + 1..], c)
  }

  /** No part of a split holds the separator. */
  lemma {:induction false} SplitPartsLackSeparator(s: string, c: char)
    ensures forall i :: 0 <= i < |Split(s, c)| ==> c !in Split(s, c)[i]
    decreases |s|
  {
    if c in s {
      var i := FirstIndex(s, c);
      SplitPartsLackSeparator(s[i + 1..], c);
      assert c !in s[..i];
    }
  }

  /** Joining a part in front of a non-empty list puts one separator between them. */
  lemma JoinCons(x: string, rest: seq<string>, sep: string)
    requires |rest| >= 1
    ensures Join([x] + rest, sep) == x + sep + Join(rest, sep)
  {
    assert ([x] + rest)[1..] == rest;
  }

  /** Splitting on `c` and joining with `c` gives back the original string. */
  lemma {:induction false} JoinSplit(s: string, c: char)
    ensures Join(Split(s, c), [c]) == s
    decreases |s|
  {
    if c in s {
      var i := FirstIndex(s, c);
      var before, after := s[..i], s[i + 1..];
      var rest := Split(after, c);
      JoinSplit(after, c);
      assert Split(s, c) == [before] + rest;
      JoinCons(before, rest, [c]);
      assert s == before + [c] + after;
    }
  }

  function DigitChar(d: nat): (c: char)
    requires d < 10
    ensures IsDigit(c)
  {
    ('0' as int + d) as char
  }

  function DigitValue(c: char): nat
    requires IsDigit(c)
  {
    c as int - '0' as int
  }

  predicate AllDigits(s: string) {
    forall i :: 0 <= i < |s| ==> IsDigit(s[i])
  }

  /** Decimal rendering of a natural number, as `Number.prototype.toString()` does for integers. */
  function NatToString(n: nat): (r: string)
    ensures |r| >= 1 && AllDigits(r)
    decreases n
  {
    if n < 10 then [DigitChar(n)] else NatToString(n / 10) + [DigitChar(n % 10)]
  }

  /** The value of a string of decimal digits (leading zeros allowed). */
  function DigitsValue(s: string): nat
    requires AllDigits(s)
    decreases |s|
  {
    if |s| == 0 then 0 else DigitsValue(s[..|s| - 1]) * 10 + DigitValue(s[|s| - 1])
  }

  /** Reading back a rendered natural number gives the number. */
  lemma {:induction false} DigitsValueOfNatToString(n: nat)
    ensures DigitsValue(NatToString(n)) == n
    decreases n
  {
    var s := NatToString(n);
    if n >= 10 {
      DigitsValueOfNatToString(n / 10);
      assert s[..|s| - 1] == NatToString(n / 10);
    }
  }

  /** Decimal rendering of an integer: a leading `-` for negatives. */
  function IntToString(n: int): string {
    if n < 0 then "-" + NatToString(-n) else NatToString(n)
  }

  /** `s.padStart(width, fill)` for a one-character fill. */
  function PadStart(s: string, width: nat, fill: char): (r: string)
    ensures |r| == if |s| < width then width else |s|
    ensures r[|r| - |s|..] == s
    ensures forall i :: 0 <= i < |r| - |s| ==> r[i] == fill
  {
    if |s| < width then seq(width - |s|, _ => fill) + s else s
  }

  /** Skip the leading characters that satisfy `isRun`. */
  function DropRun(s: string, isRun: char -> bool): (r: string)
    ensures |r| <= |s| && r == s[|s| - |r|..]
    ensures |r| > 0 ==> !isRun(r[0])
    decreases |s|
  {
    if |s| > 0 && isRun(s[0]) then DropRun(s[1..], isRun) else s
  }

  /** A run of length one is dropped alone. */
  lemma DropSingle(s: string, isRun: char -> bool)
    requires |s| > 0 && isRun(s[0]) && (|s| == 1 || !isRun(s[1]))
    ensures DropRun(s, isRun) == s[1..]
  {
    assert DropRun(s, isRun) == DropRun(s[1..], isRun);
  }

  /**
   * `.replace(/X+/g, c)` where `X` is the class `isRun`: every maximal run of class characters
   * becomes one `c`; everything else is kept.
   */
  function CollapseRuns(s: string, isRun: char -> bool, c: char): (r: string)
    ensures |s| == 0 <==> |r| == 0
    ensures |s| > 0 ==> r[0] == if isRun(s[0]) then c else s[0]
    ensures forall i :: 0 <= i < |r| ==> r[i] == c || (!isRun(r[i]) && r[i] in s)
    ensures isRun(c) ==> forall i :: 0 <= i < |r| - 1 ==> !(r[i] == c && r[i + 1] == c)
    decreases |s|
  {
    if |s| == 0 then ""
    else if isRun(s[0]) then
      var t := DropRun(s, isRun);
      [c] + CollapseRuns(t, isRun, c)
    else
      [s[0]] + CollapseRuns(s[1..], isRun, c)
  }

  lemma {:induction false} CollapseWithoutRuns(s: string, isRun: char -> bool, c: char)
    requires forall i :: 0 <= i < |s| ==> !isRun(s[i])
    ensures CollapseRuns(s, isRun, c) == s
    decreases |s|
  {
    if |s| > 0 {
      CollapseWithoutRuns(s[1..], isRun, c);
    }
  }

  /** A string without the separator splits into itself alone. */
  lemma SplitWithoutSeparator(s: string, c: char)
    requires c !in s
    ensures Split(s, c) == [s]
  {
  }

  /** The first separator ends the first part: the text before it, then the split of the rest. */
  lemma SplitAround(a: string, b: string, c: char)
    requires c !in a
    ensures Split(a + [c] + b, c) == [a] + Split(b, c)
  {
    var s := a + [c] + b;
    assert s[|a|] == c;
    assert FirstIndex(s, c) == |a|;
    assert s[..|a|] == a;
    assert s[|a| + 1..] == b;
  }

  /** A leading separator splits off an empty first part. */
  lemma SplitLeadingSeparator(b: string, c: char)
    ensures Split([c] + b, c) == [""] + Split(b, c)
  {
    assert FirstIndex([c] + b, c) == 0;
    assert ([c] + b)[1..] == b;
  }

  /** With a non-empty separator, a join is empty only for no parts or one empty part. */
  lemma JoinEmpty(parts: seq<string>, sep: string)
    requires |sep| > 0
    ensures Join(parts, sep) == "" <==> |parts| == 0 || (|parts| == 1 && parts[0] == "")
  {
    if |parts| >= 2 {
      assert |Join(parts, sep)| >= |sep|;
    }
  }
}

=== FILE: structured_data.dfy ===
/**
 * The JSON-LD blocks a topic page embeds: a schema.org `Article` describing the topic and a
 * schema.org `BreadcrumbList`, each built from optional page data with fixed fallbacks.
 */
module StructuredData {
  import opened Wrappers
  import Strings
  import ContentTypes

  const SiteName: string := "Learning Resources"

  datatype ArticleData = ArticleData(
    title: string,
    description: Option<string>,
    category: string,
    topic: string,
    publishedTime: Option<string>,
    modifiedTime: Option<string>,
    tags: Option<seq<string>>,
    author: Option<string>,
    baseUrl: string)

  datatype BreadcrumbItem = BreadcrumbItem(name: string, url: string)
  datatype BreadcrumbData = BreadcrumbData(items: seq<BreadcrumbItem>, baseUrl: string)

  /** Which block a page asks for. */
  datatype SchemaKind = ArticleKind | BreadcrumbKind

  /** The `Article` object; nested organisation and image objects are flattened into their one varying field. */
  datatype ArticleSchema = ArticleSchema(
    headline: string,
    description: string,
    image: string,
    datePublished: string,
    dateModified: string,
    authorName: string,
    publisherName: string,
    logoUrl: string,
    pageId: string,
    articleSection: string,
    keywords: string)

  datatype ListItem = ListItem(position: nat, name: string, item: string)

  datatype Schema = Article(article: ArticleSchema) | BreadcrumbList(items: seq<ListItem>)

  /** `articleData.tags?.join(', ') || articleData.category`. */
  function Keywords(tags: Option<seq<string>>, category: string): (r: string)
    ensures tags.Some? && Strings.Join(tags.value, ", ") != "" ==> r == Strings.Join(tags.value, ", ")
    ensures r == category <== tags.None? || Strings.Join(tags.value, ", ") == ""
  {
    var joined := if tags.Some? then Some(Strings.Join(tags.value, ", ")) else None;
    Strings.Or(joined, category)
  }

  /** The category stands in for the keywords exactly when there are no tags, or only one empty tag. */
  lemma KeywordsFallBack(tags: Option<seq<string>>, category: string)
    ensures tags.None? || |tags.value| == 0 || (|tags.value| == 1 && tags.value[0] == "") ==> Keywords(tags, category) == category
    ensures tags.Some? && (|tags.value| >= 2 || (|tags.value| == 1 && tags.value[0] != "")) ==>
              Keywords(tags, category) == Strings.Join(tags.value, ", ")
  {
    if tags.Some? {
      Strings.JoinEmpty(tags.value, ", ");
    }
  }

  /**
   * The `Article` object. `now` is the ISO time string of the build, used when a date is
   * missing. The description falls back to the title, the modified date to the published
   * date and then to `now`, the author to the site name; the page id is the absolute URL of
   * the topic's route.
   */
  function ArticleOf(d: ArticleData, now: string): (r: ArticleSchema)
    ensures r.headline == d.title && r.articleSection == d.category
    ensures r.description == if Strings.Truthy(d.description) then d.description.value else d.title
    ensures r.datePublished == if Strings.Truthy(d.publishedTime) then d.publishedTime.value else now
    ensures r.dateModified == if Strings.Truthy(d.modifiedTime) then d.modifiedTime.value else r.datePublished
    ensures r.authorName == if Strings.Truthy(d.author) then d.author.value else SiteName
    ensures r.publisherName == SiteName
    ensures r.image == r.logoUrl == d.baseUrl + "/favicon.png"
    ensures r.pageId == d.baseUrl + ContentTypes.TopicHref(d.category, d.topic)
    ensures r.keywords == Keywords(d.tags, d.category)
  {
    ArticleSchema(
      headline := d.title,
      description := Strings.Or(d.description, d.title),
      image := d.baseUrl + "/favicon.png",
      datePublished := Strings.Or(d.publishedTime, now),
      dateModified := Strings.Or(d.modifiedTime, Strings.Or(d.publishedTime, now)),
      authorName := Strings.Or(d.author, SiteName),
      publisherName := SiteName,
      logoUrl := d.baseUrl + "/favicon.png",
      pageId := d.baseUrl + "/topics/" + d.category + "/" + d.topic,
      articleSection := d.category,
      keywords := Keywords(d.tags, d.category))
  }

  /** The `BreadcrumbList` items: positions count from one in item order, each URL made absolute. */
  function BreadcrumbListOf(d: BreadcrumbData): (r: seq<ListItem>)
    ensures |r| == |d.items|
    ensures forall i :: 0 <= i < |r| ==> r[i].position == i + 1 && r[i].name == d.items[i].name
    ensures forall i :: 0 <= i < |r| ==> r[i].item == d.baseUrl + d.items[i].url
  {
    seq(|d.items|, i requires 0 <= i < |d.items| =>
      ListItem(i + 1, d.items[i].name, d.baseUrl + d.items[i].url))
  }

  /** Positions are distinct and increasing, so each item's position identifies it. */
  lemma PositionsIncrease(d: BreadcrumbData)
    ensures forall i, j :: 0 <= i < j < |BreadcrumbListOf(d)| ==>
              BreadcrumbListOf(d)[i].position < BreadcrumbListOf(d)[j].position
  {
  }

  /** The component's output: a block only when the requested kind's data is present. */
  function StructuredData(kind: SchemaKind, article: Option<ArticleData>, breadcrumb: Option<BreadcrumbData>, now: string)
    : (r: Option<Schema>)
    ensures r.Some? <==> (kind == ArticleKind && article.Some?) || (kind == BreadcrumbKind && breadcrumb.Some?)
    ensures r.Some? && kind == ArticleKind ==> r.value == Article(ArticleOf(article.value, now))
    ensures r.Some? && kind == BreadcrumbKind ==> r.value == BreadcrumbList(BreadcrumbListOf(breadcrumb.value))
  {
    if kind == ArticleKind && article.Some? then Some(Article(ArticleOf(article.value, now)))
    else if kind == BreadcrumbKind && breadcrumb.Some? then Some(BreadcrumbList(BreadcrumbListOf(breadcrumb.value)))
    else None
  }
}

=== FILE: table_of_contents.dfy ===
/**
 * The table of contents: headings pulled out of the raw MDX with the regular expression
 * `/^(#{2,4})\s+(.+)$/gm`, their slug ids, their indentation, and the scroll offset used when
 * one is clicked.
 *
 * The expression is modelled as the JavaScript engine runs it, not as Markdown defines
 * headings: `^` and `$` match at line boundaries, `.` never matches a line terminator, and
 * `\s+` may run across line breaks.
 */
module TableOfContents {
  import opened Wrappers
  import Strings
  import Seqs

  datatype Heading = Heading(id: string, text: string, level: nat)

  /** One match: where it starts, the number of `#`, and the span of the second group. */
  datatype RegexMatch = RegexMatch(start: nat, level: nat, captureStart: nat, captureEnd: nat)

  /** `^` under the `m` flag. */
  predicate LineStart(s: string, p: int) {
    p == 0 || (0 < p <= |s| && Strings.IsLineTerminator(s[p - 1]))
  }

  /** The number of consecutive `#` from `p`. */
  function HashRun(s: string, p: nat): (r: nat)
    requires p <= |s|
    ensures p + r <= |s|
    ensures forall i :: p <= i < p + r ==> s[i] == '#'
    ensures p + r == |s| || s[p + r] != '#'
    decreases |s| - p
  {
    if p < |s| && s[p] == '#' then 1 + HashRun(s, p + 1) else 0
  }

  /** The number of consecutive `\s` characters from `p`. */
  function WhiteRun(s: string, p: nat): (r: nat)
    requires p <= |s|
    ensures p + r <= |s|
    ensures forall i :: p <= i < p + r ==> Strings.IsWhitespace(s[i])
    ensures p + r == |s| || !Strings.IsWhitespace(s[p + r])
    decreases |s| - p
  {
    if p < |s| && Strings.IsWhitespace(s[p]) then 1 + WhiteRun(s, p + 1) else 0
  }

  /** Where `.+` starting at `p` stops: the next line terminator, or the end. */
  function LineEnd(s: string, p: nat): (r: nat)
    requires p <= |s|
    ensures p <= r <= |s|
    ensures forall i :: p <= i < r ==> !Strings.IsLineTerminator(s[i])
    ensures r == |s| || Strings.IsLineTerminator(s[r])
    decreases |s| - p
  {
    if p < |s| && !Strings.IsLineTerminator(s[p]) then LineEnd(s, p + 1) else p
  }

  /** The last position in `[lo, hi)` holding something other than a line terminator. */
  function LastNonTerminator(s: string, lo: nat, hi: nat): (r: Option<nat>)
    requires lo <= hi <= |s|
    ensures r.Some? ==> lo <= r.value < hi && !Strings.IsLineTerminator(s[r.value])
                        && forall i :: r.value < i < hi ==> Strings.IsLineTerminator(s[i])
    ensures r.None? ==> forall i :: lo <= i < hi ==> Strings.IsLineTerminator(s[i])
    decreases hi - lo
  {
    if lo == hi then None
    else if !Strings.IsLineTerminator(s[hi - 1]) then Some(hi - 1)
    else LastNonTerminator(s, lo, hi - 1)
  }

  /**
   * The pattern matches at `p` with `h` hashes and second group `s[c..e]`: a line start, two
   * to four `#`, at least one `\s`, then one or more non-terminators running to a line end.
   */
  predicate IsRegexMatch(s: string, p: nat, h: nat, c: nat, e: nat) {
    && LineStart(s, p) && 2 <= h <= 4 && p + h < c < e <= |s|
    && (forall i :: p <= i < p + h ==> s[i] == '#')
    && (forall i :: p + h <= i < c ==> Strings.IsWhitespace(s[i]))
    && (forall i :: c <= i < e ==> !Strings.IsLineTerminator(s[i]))
    && (e == |s| || Strings.IsLineTerminator(s[e]))
  }

  /**
   * The match the backtracking engine finds at `p`, if any. The `#` run must be the whole
   * run (a shorter one is followed by `#`, not `\s`); `\s+` takes as much as leaves `.+`
   * something to match; `.+` runs to the end of its line.
   */
  function MatchAt(s: string, p: nat): (r: Option<RegexMatch>)
    requires p <= |s|
    ensures r.Some? ==> r.value.start == p
                        && IsRegexMatch(s, p, r.value.level, r.value.captureStart, r.value.captureEnd)
  {
    if !LineStart(s, p) then None
    else
      var h := HashRun(s, p);
      if h < 2 || h > 4 then None
      else
        var q := p + h;
        var w := WhiteRun(s, q);
        if w == 0 then None
        else if q + w < |s| then
          Some(RegexMatch(p, h, q + w, LineEnd(s, q + w)))
        else
          match LastNonTerminator(s, q + 1, q + w)
          case None => None
          case Some(c) => Some(RegexMatch(p, h, c, LineEnd(s, c)))
  }

  /**
   * `MatchAt` is exactly the engine's choice: it finds a match whenever the pattern can
   * match at `p` at all, and its `\s+` is the longest of all possible matches.
   */
  lemma MatchAtComplete(s: string, p: nat, h: nat, c: nat, e: nat)
    requires p <= |s| && IsRegexMatch(s, p, h, c, e)
    ensures MatchAt(s, p).Some?
    ensures MatchAt(s, p).value.level == h && c <= MatchAt(s, p).value.captureStart
  {
    var run := HashRun(s, p);
    assert s[p + h] != '#' by { assert Strings.IsWhitespace(s[p + h]); }
    if run != h {
      assert false;
    }
    var q := p + h;
    var w := WhiteRun(s, q);
    if w < c - q {
      assert false;
    }
    if q + w == |s| {
      assert !Strings.IsLineTerminator(s[c]);
      var last := LastNonTerminator(s, q + 1, q + w);
      if last.None? {
        assert false;
      }
    }
  }

  /** A line opening with one `#`, or with five or more, is never a heading. */
  lemma WrongHashCountNeverMatches(s: string, p: nat)
    requires p <= |s| && (HashRun(s, p) == 1 || HashRun(s, p) >= 5)
    ensures MatchAt(s, p).None?
    ensures forall h, c, e :: !IsRegexMatch(s, p, h, c, e)
  {
    forall h, c, e ensures !IsRegexMatch(s, p, h, c, e) {
      if IsRegexMatch(s, p, h, c, e) {
        MatchAtComplete(s, p, h, c, e);
      }
    }
  }

  /** Some match in `ms` spans position `q`. */
  predicate Covered(ms: seq<RegexMatch>, q: int) {
    exists i :: 0 <= i < |ms| && ms[i].start <= q < ms[i].captureEnd
  }

  /**
   * `content.matchAll(headingRegex)` from `p`: the matches in source order, none overlapping,
   * and every position where the pattern could match is inside one of them.
   */
  function Scan(s: string, p: nat): (r: seq<RegexMatch>)
    requires p <= |s|
    ensures forall i :: 0 <= i < |r| ==> p <= r[i].start <= |s| && MatchAt(s, r[i].start) == Some(r[i])
    ensures forall i :: 0 <= i < |r| - 1 ==> r[i].captureEnd <= r[i + 1].start
    decreases |s| - p
  {
    if p == |s| then []
    else
      match MatchAt(s, p)
      case None => Scan(s, p + 1)
      case Some(m) => [m] + Scan(s, m.captureEnd)
  }

  /** The pattern can match at `q` with some choice of groups. */
  ghost predicate CanMatch(s: string, q: nat) {
    exists h, c, e :: IsRegexMatch(s, q, h, c, e)
  }

  /** The scan misses nothing: every position where the pattern can match lies inside a match found. */
  lemma {:induction false} ScanCoversEveryMatch(s: string, p: nat, q: nat)
    requires p <= q <= |s| && CanMatch(s, q)
    ensures Covered(Scan(s, p), q)
    decreases |s| - p
  {
    if p == q {
      var h, c, e :| IsRegexMatch(s, q, h, c, e);
      MatchAtComplete(s, q, h, c, e);
      CoveredByHead(s, p, q);
    } else if q < Resume(s, p) {
      CoveredByHead(s, p, q);
    } else {
      ScanCoversEveryMatch(s, Resume(s, p), q);
      CoveredByTail(s, p, q);
    }
  }

  /** Where the scan goes on after trying `p`: past the match, or to the next position. */
  function Resume(s: string, p: nat): (r: nat)
    requires p < |s|
    ensures p < r <= |s|
    ensures MatchAt(s, p).None? ==> r == p + 1
  {
    match MatchAt(s, p)
    case None => p + 1
    case Some(m) => m.captureEnd
  }

  lemma CoveredAt(ms: seq<RegexMatch>, q: int, i: int)
    requires 0 <= i < |ms| && ms[i].start <= q < ms[i].captureEnd
    ensures Covered(ms, q)
  {
  }

  lemma CoveredByHead(s: string, p: nat, q: nat)
    requires p <= q < |s| && MatchAt(s, p).Some? && q < Resume(s, p)
    ensures Covered(Scan(s, p), q)
  {
    ScanHead(s, p);
    CoveredAt(Scan(s, p), q, 0);
  }

  lemma CoveredByTail(s: string, p: nat, q: nat)
    requires p < |s| && Covered(Scan(s, Resume(s, p)), q)
    ensures Covered(Scan(s, p), q)
  {
    if MatchAt(s, p).None? {
      ScanSkip(s, p);
    } else {
      var m := MatchAt(s, p).value;
      assert Resume(s, p) == m.captureEnd;
      ScanHead(s, p);
      CoveredInRest(m, Scan(s, m.captureEnd), q);
    }
  }

  lemma CoveredInRest(m: RegexMatch, rest: seq<RegexMatch>, q: int)
    requires Covered(rest, q)
    ensures Covered([m] + rest, q)
  {
    var i :| 0 <= i < |rest| && rest[i].start <= q < rest[i].captureEnd;
    CoveredAt([m] + rest, q, i + 1);
  }

  lemma ScanHead(s: string, p: nat)
    requires p <= |s| && MatchAt(s, p).Some?
    ensures p < MatchAt(s, p).value.captureEnd <= |s|
    ensures Scan(s, p) == [MatchAt(s, p).value] + Scan(s, MatchAt(s, p).value.captureEnd)
  {
  }

  lemma ScanSkip(s: string, p: nat)
    requires p < |s| && MatchAt(s, p).None?
    ensures Scan(s, p) == Scan(s, p + 1)
  {
  }

  // ---------------------------------------------------------------------------------------
  // Slugs
  // ---------------------------------------------------------------------------------------

  /** `\w`: ASCII letters, digits and underscore. */
  predicate IsWordChar(c: char) {
    'a' <= c <= 'z' || 'A' <= c <= 'Z' || '0' <= c <= '9' || c == '_'
  }

  predicate IsDash(c: char) { c == '-' }

  predicate Kept(c: char) { IsWordChar(c) || Strings.IsWhitespace(c) || IsDash(c) }

  /** `.replace(/[^\w\s-]/g, '')`. */
  function RemoveUnwanted(s: string): (r: string)
    ensures forall i :: 0 <= i < |r| ==> Kept(r[i]) && r[i] in s
    decreases |s|
  {
    if |s| == 0 then ""
    else if Kept(s[0]) then [s[0]] + RemoveUnwanted(s[1..])
    else RemoveUnwanted(s[1..])
  }

  /** The heading id: lower-cased, stripped to `\w`, `\s` and `-`, whitespace runs to one `-`, dash runs to one `-`. */
  function Slug(text: string): string {
    Strings.CollapseRuns(Strings.CollapseRuns(RemoveUnwanted(Strings.ToLower(text)), Strings.IsWhitespace, '-'), IsDash, '-')
  }

  /** What every slug looks like: lower-case word characters and single dashes. */
  predicate IsSlug(id: string) {
    && (forall i :: 0 <= i < |id| ==> (IsWordChar(id[i]) || IsDash(id[i])) && !Strings.IsUpper(id[i]))
    && (forall i :: 0 <= i < |id| - 1 ==> !(IsDash(id[i]) && IsDash(id[i + 1])))
  }

  lemma SlugShape(text: string)
    ensures IsSlug(Slug(text))
  {
    var a := Strings.ToLower(text);
    var b := RemoveUnwanted(a);
    assert forall i :: 0 <= i < |b| ==> !Strings.IsUpper(b[i]);
    var c := Strings.CollapseRuns(b, Strings.IsWhitespace, '-');
    assert forall i :: 0 <= i < |c| ==> (IsWordChar(c[i]) || IsDash(c[i])) && !Strings.IsUpper(c[i]);
  }

  lemma {:induction false} ToLowerOfLower(s: string)
    requires forall i :: 0 <= i < |s| ==> !Strings.IsUpper(s[i])
    ensures Strings.ToLower(s) == s
  {
  }

  lemma {:induction false} RemoveUnwantedKeepsKept(s: string)
    requires forall i :: 0 <= i < |s| ==> Kept(s[i])
    ensures RemoveUnwanted(s) == s
    decreases |s|
  {
    if |s| > 0 {
      RemoveUnwantedKeepsKept(s[1..]);
    }
  }

  lemma {:induction false} CollapseSingleDashes(s: string)
    requires forall i :: 0 <= i < |s| - 1 ==> !(IsDash(s[i]) && IsDash(s[i + 1]))
    ensures Strings.CollapseRuns(s, IsDash, '-') == s
    decreases |s|
  {
    if |s| > 0 {
      var rest := s[1..];
      forall i | 0 <= i < |rest| - 1 ensures !(IsDash(rest[i]) && IsDash(rest[i + 1])) {
        assert rest[i] == s[i + 1] && rest[i + 1] == s[i + 2];
      }
      CollapseSingleDashes(rest);
      if IsDash(s[0]) {
        Strings.DropSingle(s, IsDash);
      }
      Seqs.HeadAndTail(s);
    }
  }

  /** Slugging a slug changes nothing. */
  lemma SlugIdempotent(text: string)
    ensures Slug(Slug(text)) == Slug(text)
  {
    var id := Slug(text);
    SlugShape(text);
    ToLowerOfLower(id);
    RemoveUnwantedKeepsKept(id);
    Strings.CollapseWithoutRuns(id, Strings.IsWhitespace, '-');
    CollapseSingleDashes(id);
  }

  // ---------------------------------------------------------------------------------------
  // Headings, indentation and scrolling
  // ---------------------------------------------------------------------------------------

  function HeadingOf(s: string, m: RegexMatch): Heading
    requires m.captureStart <= m.captureEnd <= |s|
  {
    var text := Strings.Trim(s[m.captureStart..m.captureEnd]);
    Heading(Slug(text), text, m.level)
  }

  /**
   * The extracted headings, one per match in source order: level is the number of `#`
   * (2 to 4), text is the trimmed second group, and the id is a slug.
   */
  function Headings(content: string): (r: seq<Heading>)
    ensures |r| == |Scan(content, 0)|
    ensures forall i :: 0 <= i < |r| ==>
              var m := Scan(content, 0)[i];
              && 2 <= r[i].level <= 4 && r[i].level == m.level
              && r[i].text == Strings.Trim(content[m.captureStart..m.captureEnd])
              && r[i].id == Slug(r[i].text)
  {
    var ms := Scan(content, 0);
    seq(|ms|, i requires 0 <= i < |ms| => HeadingOf(content, ms[i]))
  }

  /** Every heading id is a slug, so it can serve as an HTML id and URL fragment. */
  lemma HeadingIdsAreSlugs(content: string)
    ensures forall i :: 0 <= i < |Headings(content)| ==> IsSlug(Headings(content)[i].id)
  {
    var hs := Headings(content);
    forall i | 0 <= i < |hs| ensures IsSlug(hs[i].id) {
      SlugShape(hs[i].text);
    }
  }

  /** The left margin class of a table-of-contents entry. */
  function Indent(level: nat): (r: string)
    ensures level == 2 ==> r == "ml-0"
    ensures level == 3 ==> r == "ml-4"
    ensures level != 2 && level != 3 ==> r == "ml-8"
  {
    if level == 2 then "ml-0" else if level == 3 then "ml-4" else "ml-8"
  }

  /**
   * After scrolling, the address bar's hash becomes `#id`; the history entry is replaced only
   * when the hash differs.
   */
  function HashUpdate(currentHash: string, id: string): (r: Option<string>)
    ensures r.Some? <==> currentHash != "#" + id
    ensures r.Some? ==> r.value == "#" + id
  {
    if currentHash != "#" + id then Some("#" + id) else None
  }

  /** `Math.ceil`. */
  function Ceil(x: real): (r: int)
    ensures r as real - 1.0 < x <= r as real
  {
    -((-x).Floor)
  }

  /** The sticky header's height, rounded up, or 96 when there is no header. */
  function HeaderHeight(measured: Option<real>): int {
    match measured
    case Some(h) => Ceil(h)
    case None => 96
  }

  function Sum(s: seq<int>): int
    decreases |s|
  {
    if |s| == 0 then 0 else s[0] + Sum(s[1..])
  }

  lemma {:induction false} SumSnoc(s: seq<int>, x: int)
    ensures Sum(s + [x]) == Sum(s) + x
    decreases |s|
  {
    if |s| == 0 {
      assert s + [x] == [x];
    } else {
      assert (s + [x])[1..] == s[1..] + [x];
      SumSnoc(s[1..], x);
    }
  }

  /**
   * The element's page offset: the `offsetTop` of the element and of each offset parent up
   * the chain, added up.
   */
  method ElementTop(chain: seq<int>) returns (top: int)
    ensures top == Sum(chain)
  {
    top := 0;
    var i := 0;
    while i < |chain|
      invariant 0 <= i <= |chain|
      invariant top == Sum(chain[..i])
    {
      SumSnoc(chain[..i], chain[i]);
      assert chain[..i + 1] == chain[..i] + [chain[i]];
      top := top + chain[i];
      i := i + 1;
    }
    assert chain[..i] == chain;
  }

  /**
   * Where the page scrolls to: the element's top less the header height and 16 pixels of
   * room, but never above the top of the page.
   */
  function ScrollTarget(elementTop: int, header: Option<real>): (r: int)
    ensures r >= 0 && r >= elementTop - (HeaderHeight(header) + 16)
    ensures r == 0 || r == elementTop - (HeaderHeight(header) + 16)
  {
    var target := elementTop - (HeaderHeight(header) + 16);
    if target > 0 then target else 0
  }
}

=== FILE: view_tracker.dfy ===
/**
 * The recently-viewed list kept in local storage under `recentlyViewed`, and the update a
 * topic page makes to it when it is viewed.
 */
module ViewTracker {
  import opened Wrappers
  import Seqs

  /** One stored view. `viewedAt` is the millisecond clock reading taken at the view. */
  datatype ViewedTopic = ViewedTopic(category: string, topic: string, title: string, viewedAt: int)

  /** How many views are kept. */
  const MaxStored: nat := 10

  predicate SameTopic(v: ViewedTopic, category: string, topic: string) {
    v.category == category && v.topic == topic
  }

  /**
   * The stored list as the tracker reads it. `None` stands for a missing or empty item and for
   * text that does not parse; all of them read as the empty list.
   */
  function StoredList(stored: Option<seq<ViewedTopic>>): seq<ViewedTopic> {
    stored.GetOr([])
  }

  /** The stored entries about other topics, in stored order. */
  function OtherViews(previous: seq<ViewedTopic>, category: string, topic: string): (r: seq<ViewedTopic>)
    ensures Seqs.SubsequenceOf(r, previous)
    ensures forall i :: 0 <= i < |r| ==> !SameTopic(r[i], category, topic)
    ensures forall v :: v in previous && !SameTopic(v, category, topic) ==> v in r
  {
    var p := (v: ViewedTopic) => !SameTopic(v, category, topic);
    Seqs.FilterIsSubsequence(p, previous);
    Seqs.Filter(p, previous)
  }

  /** `OtherViews` filters entry by entry: it distributes over concatenation. */
  lemma OtherViewsAppend(a: seq<ViewedTopic>, b: seq<ViewedTopic>, category: string, topic: string)
    ensures OtherViews(a + b, category, topic) == OtherViews(a, category, topic) + OtherViews(b, category, topic)
  {
    Seqs.FilterAppend((v: ViewedTopic) => !SameTopic(v, category, topic), a, b);
  }

  /** A single entry survives iff it is about another topic. */
  lemma OtherViewsOne(v: ViewedTopic, category: string, topic: string)
    ensures OtherViews([v], category, topic) == if SameTopic(v, category, topic) then [] else [v]
  {
    Seqs.FilterOne((w: ViewedTopic) => !SameTopic(w, category, topic), v);
  }

  /**
   * The list written back after viewing `(category, topic)` at time `now`: the new view first,
   * then the first nine (at most) stored entries about other topics, in their stored order.
   */
  function RecordView(stored: Option<seq<ViewedTopic>>, category: string, topic: string, title: string, now: int)
    : (r: seq<ViewedTopic>)
    ensures 1 <= |r| <= MaxStored
    ensures r[0] == ViewedTopic(category, topic, title, now)
    ensures forall i :: 1 <= i < |r| ==> !SameTopic(r[i], category, topic)
    ensures Seqs.SubsequenceOf(r[1..], StoredList(stored))
    ensures |r| < MaxStored ==> forall v :: v in StoredList(stored) && !SameTopic(v, category, topic) ==> v in r
    ensures var others := OtherViews(StoredList(stored), category, topic);
            |r| == Seqs.Min(MaxStored, 1 + |others|) && r[1..] == others[..|r| - 1]
  {
    var others := OtherViews(StoredList(stored), category, topic);
    var r := Seqs.Take([ViewedTopic(category, topic, title, now)] + others, MaxStored);
    assert r[1..] == others[..|r| - 1];
    Seqs.PrefixIsSubsequence(others, StoredList(stored), |r| - 1);
    assert |r| < MaxStored ==> r[1..] == others;
    r
  }

  /** Viewing the same topic again only replaces the head entry; the rest is untouched. */
  lemma RevisitReplacesHead(stored: Option<seq<ViewedTopic>>, category: string, topic: string,
                            title: string, t1: int, t2: int)
    ensures var first := RecordView(stored, category, topic, title, t1);
            RecordView(Some(first), category, topic, title, t2)
            == [ViewedTopic(category, topic, title, t2)] + first[1..]
  {
    var first := RecordView(stored, category, topic, title, t1);
    OtherViewsDropHead(first, category, topic);
    var again := [ViewedTopic(category, topic, title, t2)] + first[1..];
    assert Seqs.Take(again, MaxStored) == again;
  }

  /** A list headed by the topic's own view, with no other view of it, loses exactly its head. */
  lemma OtherViewsDropHead(s: seq<ViewedTopic>, category: string, topic: string)
    requires |s| > 0 && SameTopic(s[0], category, topic)
    requires forall i :: 1 <= i < |s| ==> !SameTopic(s[i], category, topic)
    ensures OtherViews(s, category, topic) == s[1..]
  {
    var p := (v: ViewedTopic) => !SameTopic(v, category, topic);
    var tail := s[1..];
    assert s == [s[0]] + tail;
    Seqs.FilterAppend(p, [s[0]], tail);
    Seqs.FilterAll(p, tail);
    assert Seqs.Filter(p, [s[0]]) == [];
  }
}

=== FILE: wrappers.dfy ===
/** Optional values, standing in for TypeScript's `undefined` / `null`. */
module Wrappers {

  datatype Option<+T> = None | Some(value: T) {

    /** The wrapped value, or `default` when there is none. */
    function GetOr(default: T): T {
      match this
      case Some(v) => v
      case None => default
    }
  }
}
